=== FILE: README.md ===
# Finance management back end — a Dafny model

This project models the service layer of a personal-finance REST back end
written in TypeScript on Bun and Hono, with Prisma, Redis and zod.

The model covers the following parts of the back end.
- **Authentication service.** Registration with a one-time code, code verification, login, session refresh, forgotten and reset passwords, and password change.
- **Accounts service.** Listing with transaction counts, create, update and the summary.
- **Categories service.** Listing, create, update and delete.
- **Transactions service.** Recording a transaction, which moves its account's balance, and the filtered, paged listing.
- **Request schemas** of each module.
- **Shared utilities.** One-time codes and reset tokens, JWT claims and cookies, the upload check, the error handler and the response envelopes.

Everything is pure Dafny: tables are sequences of rows and the Redis cache
is a set of maps with expiry instants. Each service call is a function from
a state to a new state and a result. The result is `Ok` or an `AppError`:
a hono `HTTPException`, a `ZodError` or any other error.

Modules, by file:
- `wrappers.dfy`: `Option` and `Result`.
- `failures.dfy`: the error kinds.
- `text.dfy`: the JavaScript string functions used.
- `sequences.dfy`: filter, sum, sort.
- `store.dfy`: the ledger tables and their invariant `Valid`.
- `zod.dfy`: the slice of zod the schemas use.
- `generate.dfy`, `jwt.dfy`, `uploader.dfy`, `errors.dfy`, `http_response.dfy`: the utilities.
- `auth_models.dfy`, `accounts_models.dfy`, `categories_validation.dfy`, `transactions_models.dfy`: the schemas.
- `auth_services.dfy`, `accounts_services.dfy`, `accounts_summary.dfy`, `categories_services.dfy`, `transactions_services.dfy`: the services.

Where the code has a defect, the model has two members. The "as written" member reproduces the defect; the other member has the evident intent proved about it, and the rest of the model builds on that one. See "## Findings".

The model reproduces four source behaviours as they are:
- The transaction listing is not restricted to the caller.
- The category of a new transaction is looked up by id alone.
- The summary's period applies only when both bounds are given.
- The "Account not found " message keeps its trailing space.

## Model

| member | source | states |
|---|---|---|
| Generate.GenerateOtp | src/utils/generate.ts:15-19 | the code is six decimal digits whose value is the random word modulo 1 000 000, zero-padded on the left |
| Generate.GenerateToken | src/utils/generate.ts:21-27 | the token has two characters per random byte |
| Generate.TokenRoundTrip | src/utils/generate.ts:21-27 | decoding the hex token gives back exactly the random bytes, so distinct byte strings give distinct tokens |
| Generate.HexByteIsPaddedRadix | src/utils/generate.ts:24 | each byte is written as `toString(16)` left-padded with "0" to two characters |
| Generate.TokenNibbles | src/utils/generate.ts:24 | character 2i is the high nibble of byte i and character 2i+1 its low nibble |
| Generate.DefaultTokenLength | src/utils/generate.ts:21 | with the default 32 bytes the token is 64 characters long |
| Generate.ToDecimalRoundTrip | src/utils/generate.ts:18 | `toString()` of a number writes decimal digits whose value is the number |
| Generate.LeadingZerosValue | src/utils/generate.ts:18 | left padding with zeros does not change the decimal value |
| Jwt.NowSeconds | src/utils/jwt.ts:15 | `Math.floor(Date.now() / 1000)` is the whole second containing the clock reading |
| Jwt.WithExpiry | src/utils/jwt.ts:14-24 | the signed claims keep the payload's user id and e-mail and expire `lifetime` seconds after the current second |
| Jwt.AccessClaims | src/utils/jwt.ts:14-18 | access claims expire 15 minutes (900 s) after the current second |
| Jwt.RefreshClaims | src/utils/jwt.ts:20-24 | refresh claims expire 7 days (604 800 s) after the current second |
| Jwt.IncomingExpiryIgnored | src/utils/jwt.ts:16 | an `exp` already in the payload is overwritten by the spread |
| Jwt.RefreshOutlivesAccess | src/utils/jwt.ts:11-12 | signed together, the refresh token outlives the access token by 603 900 s |
| Jwt.SetAccessTokenCookie | src/utils/jwt.ts:26-32 | the access cookie is HTTP-only, on path "/", with the token as value and a max age of 900 s |
| Jwt.SetRefreshTokenCookie | src/utils/jwt.ts:34-40 | the refresh cookie is HTTP-only, on path "/", with the token as value and a max age of 604 800 s |
| Jwt.DeleteCookie | src/utils/jwt.ts:42-48 | deleting a cookie sets it empty on path "/" with max age 0 |
| Jwt.RemovalOverwritesSetCookie | src/utils/jwt.ts:42-48 | each removal names the same cookie and path the setter used, so it replaces that cookie and expires it at once |
| Jwt.CookiesMatchTokenLifetimes | src/utils/jwt.ts:26-40 | each cookie's max age equals its token's remaining lifetime at signing |
| Uploader.MatchesAny | src/middlewares/uploader.ts:7-12 | an unanchored alternation matches exactly when one alternative occurs in the text |
| Uploader.CheckFiles | src/middlewares/uploader.ts:25-51 | too many files fail with "Max n files allowed". Otherwise `next` runs iff every file is within the size limit and its lower-cased name and MIME type both match the type's pattern. On failure the first failing file decides the error, and the size test comes before the type test |
| Uploader.MatchesAnyWider | src/middlewares/uploader.ts:7-12 | a text matching a subset of the alternatives matches the whole set |
| Uploader.SpecificTypeImpliesMixed | src/middlewares/uploader.ts:7-12 | a file accepted as image, video or docs is also accepted as mixed |
| Uploader.SizeLimitInclusive | src/middlewares/uploader.ts:32-38 | a file of exactly `maxSize` bytes passes; one byte more fails with the "too large" message |
| Uploader.DefaultLimitReadsFive | src/middlewares/uploader.ts:18 | with the default limit the message says "max 5MB" |
| ErrorHandler.HandleError | src/middlewares/errors.ts:6-45 | an HTTPException keeps its status and message under code HTTP_EXCEPTION. A ZodError becomes a 400 VALIDATION_ERROR with the message "Validation error" and one entry per issue, in order, each with its field path and message. Anything else becomes a 500 "Internal Server Error". Every body has `success: false` and an `errors` list |
| ErrorHandler.OtherErrorsLookAlike | src/middlewares/errors.ts:36-44 | two unexpected errors give identical responses, so no internal detail leaks |
| ErrorHandler.IssueEntries | src/middlewares/errors.ts:20-23 | one error entry per issue, in issue order, with the issue's message |
| ErrorHandler.FieldPathIsJoin | src/middlewares/errors.ts:21 | the field is "body" followed by the issue path, joined with "." |
| ErrorHandler.FieldPathSplits | src/middlewares/errors.ts:21 | when no segment contains a dot, splitting the field at "." gives back "body" and the path segments |
| ErrorHandler.SegmentTexts | src/middlewares/errors.ts:21 | each path segment is written as its key or its decimal index |
| ErrorHandler.NotFoundHandler | src/middlewares/errors.ts:47-54 | an unknown route answers 404 NOT_FOUND and the message quotes the method and the URL |
| HttpResponse.SuccessResponse | src/utils/http-response.tsx:5-14 | `success: true`; the status defaults to 200 and is both the HTTP status and the body's status; message, data and meta are passed through |
| HttpResponse.ErrorResponse | src/utils/http-response.tsx:16-25 | `success: false`; the status defaults to 500 and the code to INTERNAL_SERVER_ERROR; the body repeats the status |
| HttpResponse.CeilDiv | src/utils/http-response.tsx:39 | `Math.ceil(total / limit)` is the least whole number of pages that holds `total` items |
| HttpResponse.MakePagination | src/utils/http-response.tsx:35-41 | the pagination block echoes page, limit and total. Its offset is `(page - 1) * limit`. Its page count is the least number of pages of `limit` covering `total`, and is absent for `limit` 0 (JavaScript's `Infinity`/`NaN`) |
| HttpResponse.PaginatedResponse | src/utils/http-response.tsx:27-43 | a 200 success whose meta is the pagination block |
| Zod.ParseString | src/modules/auth/auth.models.ts:4-8 | a string field is transformed first and then every check runs on the result; it passes iff it is a string and all checks hold |
| Zod.CheckIssues | src/modules/auth/auth.models.ts:43-46 | one issue per failing check, none iff every check holds |
| Zod.ParseNumber | src/modules/accounts/accounts.models.ts:17 | a number field passes iff it is a number at or above the minimum |
| Zod.ParseEnum | src/modules/accounts/accounts.models.ts:16 | an enum field passes iff it is one of the listed strings |
| Zod.Optional | src/modules/accounts/accounts.models.ts:21-26 | an absent optional field passes as absent; a present one is judged by the inner schema |
| Zod.Verdict | src/modules/auth/auth.models.ts:3-12 | an object parse succeeds iff no field raised an issue, and otherwise throws all the issues |
| Store.TxTypeOf | src/modules/transactions/transactions.models.ts:33 | the type names are exactly "INCOME" and "EXPENSE" and read back to the name they came from |
| Store.FindOwnedAccount | src/modules/accounts/accounts.services.ts:58-63 | `findFirst` by id and owner finds a row with both, or there is none |
| Store.FindCategory | src/modules/transactions/transactions.services.ts:91-93 | `findUnique` by id finds the row with that id, or there is none |
| Store.FindAccount | src/modules/transactions/transactions.services.ts:65-68 | the `include: { account: true }` join finds a row with the transaction's account id, or there is none |
| Store.FindOwnedCategory | src/modules/categories/categories.services.ts:46-51 | `findFirst` by id and owner never finds a system category |
| Store.RemoveCategory | src/modules/categories/categories.services.ts:95-97 | the rows left are exactly those without the id, still with unique ids |
| Store.UpdateAccounts | src/modules/accounts/accounts.services.ts:70-73 | `account.update` by id keeps the table's length, and a patch that keeps ids keeps every row's id in place (the balance update at transactions.services.ts:120-123 is the same call) |
| Store.UpdateCategories | src/modules/categories/categories.services.ts:58-61 | `category.update` by id keeps the table's length and every row with another id |
| Store.References | src/modules/categories/categories.services.ts:70-88 | a category is in use iff the transactions its `include` join attaches are not an empty list |
| Store.RecordKeepsValid | src/modules/transactions/transactions.services.ts:108-124 | appending a consistent transaction with a fresh id, an existing account and an existing category, while account ids stay put, keeps the store invariant |
| AccountsModels.AccountTypeOf | src/modules/accounts/accounts.models.ts:16 | exactly the five account type names are accepted |
| AccountsModels.AccountTypeRoundTrip | src/modules/accounts/accounts.models.ts:16 | every account type reads back from its own name |
| AccountsModels.ParseCreate | src/modules/accounts/accounts.models.ts:14-18 | accepted iff the name is a non-empty string, the type one of the five names and the balance a number at least 0; the request carries those values |
| AccountsModels.ParseUpdate | src/modules/accounts/accounts.models.ts:20-27 | every field may be absent; a present field must meet its create rule, and the request carries exactly the fields present |
| AccountsModels.ParseBound | src/modules/accounts/accounts.models.ts:30-34 | an absent or empty bound is no bound; a non-empty one must read as a date |
| AccountsModels.ParseSummaryParams | src/modules/accounts/accounts.models.ts:29-40 | the period parses iff each non-empty bound reads as a date, and the bounds are those dates |
| AccountsModels.EmptyBoundIsAbsent | src/modules/accounts/accounts.models.ts:32 | an empty bound parses exactly as a missing one |
| AccountsServices.GetAll | src/modules/accounts/accounts.services.ts:15-36 | exactly the caller's accounts, each once, newest first, each with the number of transactions recorded on it |
| AccountsServices.CreateAsWritten | src/modules/accounts/accounts.services.ts:38-50 | the account is written, then the response parse throws on the missing `totalTransactions` |
| AccountsServices.Create | src/modules/accounts/accounts.services.ts:38-50 | a new account with a fresh id, owned by the caller, with the request's fields; nothing else changes; in a valid store it has no transactions |
| AccountsServices.CreateKeepsValid | src/modules/accounts/accounts.services.ts:42-47 | opening an account keeps the store invariant |
| AccountsServices.CreatedAccountListed | src/modules/accounts/accounts.services.ts:15-50 | the new account appears in its owner's list, with count 0 |
| AccountsServices.Patch | src/modules/accounts/accounts.services.ts:70-73 | the fields present in the request replace the row's; id, owner and creation time stay |
| AccountsServices.UpdateAsWritten | src/modules/accounts/accounts.services.ts:52-76 | 404 "Account not found" when the caller owns no such account; otherwise the row is changed and the response parse throws |
| AccountsServices.Update | src/modules/accounts/accounts.services.ts:52-76 | succeeds iff the caller owns the account. Only that row is patched, and every other row and table is unchanged. The answer is the patched row with its transaction count |
| AccountsServices.UpdateKeepsValid | src/modules/accounts/accounts.services.ts:70-73 | editing an account keeps the store invariant |
| AccountsServices.EmptyUpdateChangesNothing | src/modules/accounts/accounts.models.ts:20-27 | an empty body is accepted and leaves the account as it was |
| AccountsServices.UpdateIdempotent | src/modules/accounts/accounts.services.ts:70-73 | sending the same edit twice leaves the store as sending it once |
| AccountsSummary.ListedIdsAreOwnership | src/modules/accounts/accounts.services.ts:92 | "account id among the listed accounts" (the aggregates) and "account owned by the caller" (the group-by) select the same transactions |
| AccountsSummary.GroupByPreservesTotal | src/modules/accounts/accounts.services.ts:110-118 | the group sums add up to the total amount of the grouped rows |
| AccountsSummary.GroupByLookup | src/modules/accounts/accounts.services.ts:110-118 | a category has a group iff one of the rows has it, and the group's sum is the total of that category's rows |
| AccountsSummary.GroupByDistinct | src/modules/accounts/accounts.services.ts:110-111 | no two groups share a category |
| AccountsSummary.GroupByCategory | src/modules/accounts/accounts.services.ts:110-118 | no contract of its own; its properties are stated by GroupByLookup, GroupByDistinct and GroupByPreservesTotal |
| AccountsSummary.CategoryLabel | src/modules/accounts/accounts.services.ts:129-130 | a category is shown by its name, or as "Uncategorized" when it is missing or its name is empty; the label is never empty |
| AccountsSummary.Labelled | src/modules/accounts/accounts.services.ts:129-132 | one entry per group, in the model's group order, with the group's label and sum |
| AccountsSummary.LabelledKeepsTotal | src/modules/accounts/accounts.services.ts:129-132 | labelling does not change the total |
| AccountsSummary.GetSummary | src/modules/accounts/accounts.services.ts:78-140 | the total balance is the sum of the caller's account balances, and no category label is empty |
| AccountsSummary.KindTotalFromGroupedRows | src/modules/accounts/accounts.services.ts:90-108 | the income (or expense) total is the total of the grouped rows of that type |
| AccountsSummary.TotalOfKind | src/modules/accounts/accounts.services.ts:90-108 | no contract of its own; KindTotalFromGroupedRows and CategoriesAddUp state what the `_sum` aggregate totals |
| AccountsSummary.CategoriesAddUp | src/modules/accounts/accounts.services.ts:90-139 | the per-category totals add up to income plus expense |
| AccountsSummary.OneEntryPerCategory | src/modules/accounts/accounts.services.ts:110-132 | each category of the caller's rows gets exactly one entry, whose total is that category's sum |
| AccountsSummary.OneBoundSelectsAll | src/modules/accounts/accounts.services.ts:94-95 | with only one bound, the aggregates and the group-by select every row |
| AccountsSummary.OneBoundIsNoPeriod | src/modules/accounts/accounts.services.ts:94-116 | a single bound gives the same summary as no period at all |
| CategoriesValidation.ParseCreate | src/modules/categories/categories.validation.ts:1-5 | accepted iff the name is a non-empty string, the type INCOME or EXPENSE, and any `userId` a string; the request carries name and type |
| CategoriesValidation.ParseUpdate | src/modules/categories/categories.validation.ts:7-11 | as create, but `userId` must be present and non-empty |
| CategoriesValidation.BodyOwnerIgnored | src/modules/categories/categories.services.ts:33 | the `userId` in the body never reaches the request: the caller's id is used |
| CategoriesValidation.CategoryListIssues | src/modules/categories/categories.validation.ts:18-19 | each listed row raises two issues, at its `createdAt` and its `updatedAt` |
| CategoriesServices.NameAscendingIsPreorder | src/modules/categories/categories.services.ts:21 | ordering by name compares texts by code points, a total preorder |
| CategoriesServices.GetAll | src/modules/categories/categories.services.ts:15-25 | the caller's own and the system categories, each once, by name ascending |
| CategoriesServices.GetAllAsWritten | src/modules/categories/categories.services.ts:15-25 | succeeds only on an empty list; otherwise throws two issues per row |
| CategoriesServices.CreateAsWritten | src/modules/categories/categories.services.ts:28-37 | the category is written, then the response parse throws |
| CategoriesServices.Create | src/modules/categories/categories.services.ts:28-37 | a new category with a fresh id, the request's name and type, owned by the caller; nothing else changes |
| CategoriesServices.CreateKeepsValid | src/modules/categories/categories.services.ts:32-34 | creating a category keeps the store invariant |
| CategoriesServices.CreateVisibleOnlyToOwner | src/modules/categories/categories.services.ts:15-37 | the new category is listed for its owner, and every other user's list is unchanged |
| CategoriesServices.UpdateAsWritten | src/modules/categories/categories.services.ts:40-65 | 404 when the caller owns no such category; otherwise the row is changed and the response parse throws |
| CategoriesServices.Update | src/modules/categories/categories.services.ts:40-65 | succeeds iff the caller owns the category; only that row is rewritten, with the request's name and type and the caller as owner |
| CategoriesServices.UpdateKeepsValid | src/modules/categories/categories.services.ts:58-61 | renaming keeps the store invariant |
| CategoriesServices.Delete | src/modules/categories/categories.services.ts:68-100 | 404 unless the caller owns the category; 400 when a transaction uses it; otherwise only that row goes |
| CategoriesServices.DeleteKeepsValid | src/modules/categories/categories.services.ts:88-97 | deleting keeps the store invariant: no transaction loses its category |
| CategoriesServices.OthersCategoriesUntouched | src/modules/categories/categories.services.ts:46-51 | system categories and other users' categories survive any update or delete by the caller |
| CategoriesServices.DeletedNotListed | src/modules/categories/categories.services.ts:15-25 | a deleted category is no longer listed |
| TransactionsModels.ParseIntReadsDecimal | src/modules/transactions/transactions.models.ts:19 | `parseInt` reads back a decimal number and stops at the first non-digit |
| TransactionsModels.ParseIntReadsNegative | src/modules/transactions/transactions.models.ts:19 | the same with a minus sign |
| TransactionsModels.PagingNumber | src/modules/transactions/transactions.models.ts:18-25 | a filled-in limit or page must read as a number; an absent or empty one takes the default |
| TransactionsModels.DateParam | src/modules/transactions/transactions.models.ts:6-13 | a date parameter, empty or not, must read as a date |
| Zod.UuidTextShape | src/modules/transactions/transactions.models.ts:15-16 | every text `z.uuid()` accepts is 36 characters in the hyphenated layout; a version digit 0 is refused unless the text is the Nil UUID; the Nil and Max UUIDs are accepted |
| TransactionsModels.IdParam | src/modules/transactions/transactions.models.ts:15-16 | an id parameter, when present, must be a UUID in zod 4's sense: the 8-4-4-4-12 hex layout with version digit 1-8 and variant digit 8, 9, a or b, or the Nil or Max UUID |
| TransactionsModels.KindParam | src/modules/transactions/transactions.models.ts:17 | a type parameter, when present, must be INCOME or EXPENSE |
| TransactionsModels.ParseParams | src/modules/transactions/transactions.models.ts:5-26 | the query parses iff every parameter does, and the parameters carry the read values |
| TransactionsModels.DefaultPaging | src/modules/transactions/transactions.models.ts:18-25 | without limit and page the listing is the first page of ten |
| TransactionsModels.EmptyDateRejected | src/modules/transactions/transactions.models.ts:7 | an empty start date is rejected by the listing, while the summary reads it as absent |
| TransactionsModels.KindAt | src/modules/transactions/transactions.models.ts:50 | the type must be one of the two names |
| TransactionsModels.IdAt | src/modules/transactions/transactions.models.ts:48-49 | an account or category id must be a UUID in zod 4's sense: the 8-4-4-4-12 hex layout with version digit 1-8 and variant digit 8, 9, a or b, or the Nil or Max UUID |
| TransactionsModels.AmountAt | src/modules/transactions/transactions.models.ts:47 | the amount must be a number at least 0 |
| TransactionsModels.DateAt | src/modules/transactions/transactions.models.ts:51-53 | the date must look like YYYY-MM-DD |
| TransactionsModels.TimeAt | src/modules/transactions/transactions.models.ts:54-60 | the time, when given, must be HH:mm or HH:mm:ss on a 24-hour clock |
| TransactionsModels.DescriptionAt | src/modules/transactions/transactions.models.ts:61 | the description, when given, is trimmed and at most 500 characters |
| TransactionsModels.TextAt | src/modules/transactions/transactions.models.ts:62-63 | merchant name and location, when given, must be strings |
| TransactionsModels.ParseCreate | src/modules/transactions/transactions.models.ts:46-64 | the body is accepted iff every field meets its rule, and the request carries the fields |
| TransactionsModels.ListedRowIssues | src/modules/transactions/transactions.models.ts:41 | each listed row raises an issue at its account's `totalTransactions` |
| TransactionsServices.DefaultTime | src/modules/transactions/transactions.services.ts:105 | the default time is the clock text up to its first space |
| TransactionsServices.DefaultTimeAccepted | src/modules/transactions/transactions.services.ts:105-113 | when the clock text starts with an HH:mm:ss time, the default time is that time and meets the time format |
| TransactionsServices.Create | src/modules/transactions/transactions.services.ts:77-127 | 404 "Account not found " unless the caller owns the account; 404 "Category not found" when no category has the id. Otherwise the row records the amount, its account's balance before and after, and the given or default time, and only that account's balance moves to the closing balance |
| TransactionsServices.CreateKeepsValid | src/modules/transactions/transactions.services.ts:108-124 | recording a transaction keeps the store invariant |
| TransactionsServices.CreateMovesOneBalance | src/modules/transactions/transactions.services.ts:100-123 | a create moves its own account from the row's opening balance to its closing balance and no other account |
| TransactionsServices.ChainedSum | src/modules/transactions/transactions.services.ts:100-103 | along a chain of consistent rows, the closing balance is the opening balance plus the signed amounts |
| TransactionsServices.RunCreates | src/modules/transactions/transactions.services.ts:77-127 | a run of creates only appends transactions and keeps the store invariant |
| TransactionsServices.RunCreatesChained | src/modules/transactions/transactions.services.ts:100-123 | after a run of creates, an account's new rows chain from its old balance to its new one |
| TransactionsServices.RunCreatesBalance | src/modules/transactions/transactions.services.ts:100-123 | after a run of creates, an account's balance is its old balance plus the signed amounts recorded on it |
| TransactionsServices.Listing | src/modules/transactions/transactions.services.ts:30-71 | exactly the matching rows of the whole table, each once, latest date first, and rows of the same day by ascending id (the corrected order, see "## Findings") |
| TransactionsServices.LatestFirstIsPreorder | src/modules/transactions/transactions.services.ts:71 | the listing order (day descending, then id) orders every pair and is transitive |
| TransactionsServices.TiedRowsCanRepeatAcrossPages | src/modules/transactions/transactions.services.ts:69-71 | ordered by the day alone, two same-day rows may come back in opposite orders for pages 1 and 2; with one row a page the first is shown twice and the second never |
| TransactionsServices.ListedOrderUnique | src/modules/transactions/transactions.services.ts:71 | two arrangements of the same rows with distinct ids, both in listing order, are equal |
| TransactionsServices.ListingIsOnlyOrder | src/modules/transactions/transactions.services.ts:69-71 | with unique ids, any arrangement of the matching rows in listing order is the listing, so every page's query sees one order |
| TransactionsServices.ListingIsDateOrdered | src/modules/transactions/transactions.services.ts:71 | the corrected listing is one of the answers the date-only order allows |
| TransactionsServices.ListedHeadsAgree | src/modules/transactions/transactions.services.ts:71 | two arrangements of the same rows in listing order start with the same row |
| TransactionsServices.Window | src/modules/transactions/transactions.services.ts:69-70 | `skip`/`take`: up to `take` rows starting after the first `skip` |
| TransactionsServices.GetAll | src/modules/transactions/transactions.services.ts:15-75 | fails only for a negative take or a negative skip. Otherwise the page is the listing's rows from `(page - 1) * limit` onwards, exactly `limit` of them or the rest of the listing when fewer remain, each with its category and account |
| TransactionsServices.GetAllAsWritten | src/modules/transactions/transactions.services.ts:74 | succeeds only on an empty page; otherwise the joined account of every row fails the response schema |
| TransactionsServices.SkipSign | src/modules/transactions/transactions.services.ts:70 | with a non-negative limit, the skip is negative iff the page is below 1 and the limit positive |
| TransactionsServices.WindowConcat | src/modules/transactions/transactions.services.ts:69-70 | two adjacent windows make one window |
| TransactionsServices.ListingIgnoresPage | src/modules/transactions/transactions.services.ts:30-61 | the page number does not change which rows match or their order |
| TransactionsServices.PageIsWindow | src/modules/transactions/transactions.services.ts:63-72 | page n is the `limit` rows after the first `(n - 1) * limit` |
| TransactionsServices.PagesCoverListing | src/modules/transactions/transactions.services.ts:63-72 | pages 1 to n, read in turn, are the first `n * limit` rows of the listing, in order, each once; this rests on the corrected order, which ListingIsOnlyOrder makes the same for every page |
| TransactionsServices.AllPagesShowListing | src/modules/transactions/transactions.services.ts:63-72 | enough pages show every matching row, under the corrected order |
| TransactionsServices.PastLastPageEmpty | src/modules/transactions/transactions.services.ts:69-70 | a page past the last matching row is empty |
| TransactionsServices.SearchIgnoresCase | src/modules/transactions/transactions.services.ts:45-50 | searching for the lower-cased text lists the same rows |
| TransactionsServices.ListingIgnoresCaller | src/modules/transactions/transactions.services.ts:15-30 | the listing is the same whoever asks |
| AuthModels.EmailAt | src/modules/auth/auth.models.ts:4-8 | the address is trimmed and lower-cased, then checked |
| AuthModels.ParseLogin | src/modules/auth/auth.models.ts:3-12 | accepted iff the normalised address is valid and the password has at least 6 characters |
| AuthModels.NameAt | src/modules/auth/auth.models.ts:16-19 | the name is trimmed and must keep at least 2 characters |
| AuthModels.Mismatch | src/modules/auth/auth.models.ts:32-35 | the refinement fails iff both passwords are strings and differ |
| AuthModels.ParseRegister | src/modules/auth/auth.models.ts:14-35 | accepted iff name, address and both passwords are valid and the passwords agree |
| AuthModels.MismatchReportedWithShortPassword | src/modules/auth/auth.models.ts:32-35 | differing passwords are reported at `confirmPassword` even when a field check also fails |
| AuthModels.OtpAt | src/modules/auth/auth.models.ts:43-46 | the code must have exactly 6 characters |
| AuthModels.ParseVerifyOtp | src/modules/auth/auth.models.ts:37-47 | accepted iff the address is valid and the code has 6 characters |
| AuthModels.GeneratedOtpAccepted | src/modules/auth/auth.models.ts:37-47 | every generated code passes the verification schema |
| AuthModels.ParseForgot | src/modules/auth/auth.models.ts:49-55 | accepted iff the normalised address is valid |
| AuthModels.ResetAsWrittenRejectsAll | src/modules/auth/auth.models.ts:57-70 | the reset schema as written rejects every body |
| AuthModels.ParseReset | src/modules/auth/auth.models.ts:57-70 | with the token rule corrected: accepted iff the token is 64 lower-case hex digits and the passwords are valid and agree |
| AuthModels.GeneratedTokenIsHex | src/utils/generate.ts:24 | a generated token is all lower-case hex digits |
| AuthModels.GeneratedTokenAccepted | src/modules/auth/auth.models.ts:59 | every default-length generated token passes the corrected reset schema |
| AuthModels.ParseChangePassword | src/modules/auth/auth.models.ts:80-95 | accepted iff the current password is non-empty, the new ones are valid and they agree |
| AuthServices.KeyFamiliesDisjoint | src/modules/auth/auth.services.ts:43-49 | the `verify:` and `otp:` keys (lines 43, 49) and the `forgot:` keys (lines 197, 212, 223) never collide, and each key determines its suffix |
| AuthServices.Live | src/modules/auth/auth.services.ts:60 | a cache read finds the value iff the key was set and has not yet expired |
| AuthServices.Put | src/modules/auth/auth.services.ts:43 | `redis.set` with `EX`: the key holds the value and expires `seconds` after now; every other key is untouched |
| AuthServices.Drop | src/modules/auth/auth.services.ts:84-85 | `redis.del`: the key is gone and every other key is untouched |
| AuthServices.PutLifetime | src/modules/auth/auth.services.ts:43 | a key set with `EX n` reads back until n seconds later and not from then on, and no other key changes |
| AuthServices.FindByEmail | src/modules/auth/auth.services.ts:30-32 | finds a user with the address, or there is none |
| AuthServices.FindByEmailUnique | src/modules/auth/auth.services.ts:107-109 | with unique addresses, the lookup finds the one user that has the address |
| AuthServices.SetHashByEmail | src/modules/auth/auth.services.ts:233-236 | only the rows with the address get the new hash |
| AuthServices.FindById | src/modules/auth/auth.services.ts:146-148 | finds a user with the id, or there is none |
| AuthServices.FindByIdUnique | src/modules/auth/auth.services.ts:173 | with unique ids, the lookup finds the one user that has the id |
| AuthServices.SetHashById | src/modules/auth/auth.services.ts:274-277 | only the rows with the id get the new hash; the table keeps its length |
| AuthServices.Avatar | src/utils/generate.ts:29-32 | the URL is the ui-avatars base, then the encoded name, then the fixed background, size and bold options |
| AuthServices.AvatarDeterminesName | src/utils/generate.ts:29-32 | two names get the same avatar URL exactly when their encodings agree |
| AuthServices.View | src/modules/auth/auth.models.ts:72-78 | the user view keeps every field but the hash |
| AuthServices.SessionFor | src/modules/auth/auth.services.ts:88-92 | a session carries the user's view and access and refresh claims for the user |
| AuthServices.RegisterAsWritten | src/modules/auth/auth.services.ts:28-54 | 400 "Email already exists" when the address is taken; otherwise the registration message |
| AuthServices.RegisterAsWrittenKeepsPlaintext | src/modules/auth/auth.services.ts:40-43 | the cached registration holds the password in plain text in its `confirmPassword` field |
| AuthServices.Register | src/modules/auth/auth.services.ts:28-54 | succeeds iff no user has the address. It caches the registration with the hashed password for 30 minutes and the new code for 10 minutes, and leaves the users alone |
| AuthServices.RegisterVersionsAgree | src/modules/auth/auth.services.ts:28-54 | both versions answer alike and differ only in the cached confirmation field |
| AuthServices.RegisterAgainReplacesCode | src/modules/auth/auth.services.ts:49 | registering again replaces the code: the newest one is live |
| AuthServices.VerifyToken | src/modules/auth/auth.services.ts:56-103 | a missing or expired registration, or a code that is not the live one, fails with "Invalid or expired token" and changes nothing. On success one user is created from the cached record, both keys are deleted and a session for the user is returned |
| AuthServices.CodeSingleUse | src/modules/auth/auth.services.ts:84-85 | a code that has verified cannot verify again |
| AuthServices.VerifyNeedsLiveCode | src/modules/auth/auth.services.ts:66-69 | without the live code nothing happens |
| AuthServices.CodeExpires | src/modules/auth/auth.services.ts:49 | a code is refused from 10 minutes after registration |
| AuthServices.VerifyKeepsValid | src/modules/auth/auth.services.ts:74-81 | verification keeps ids and addresses unique |
| AuthServices.Login | src/modules/auth/auth.services.ts:106-141 | succeeds iff a user has the address and the password matches the hash; the session is for that user |
| AuthServices.LoginErrorsIdentical | src/modules/auth/auth.services.ts:111-124 | an unknown address and a wrong password give the same error |
| AuthServices.VerifyWithLiveCode | src/modules/auth/auth.services.ts:56-103 | a live record and the live code, for a free address, create the user |
| AuthServices.VerifyAfterRegister | src/modules/auth/auth.services.ts:28-103 | the emailed code, used within 10 minutes, creates exactly the registered user |
| AuthServices.PendingLiveAfterRegister | src/modules/auth/auth.services.ts:43 | the registration stays cached for 30 minutes |
| AuthServices.CodeLiveAfterRegister | src/modules/auth/auth.services.ts:49 | the code stays cached for 10 minutes |
| AuthServices.RegisterVerifyLogin | src/modules/auth/auth.services.ts:28-141 | register, verify in time, then log in with the same password succeeds |
| AuthServices.RegisteredUserStored | src/modules/auth/auth.services.ts:28-81 | after registering and verifying in time, the store is valid and holds the new user with the password's hash |
| AuthServices.LoginAsStored | src/modules/auth/auth.services.ts:106-124 | a stored user logs in with the password whose hash its row holds |
| AuthServices.RefreshSession | src/modules/auth/auth.services.ts:143-169 | 404 "User not found" unless the user exists; new claims for that user otherwise |
| AuthServices.GetSession | src/modules/auth/auth.services.ts:171-182 | 404 "User not found" unless the user exists; that user's view otherwise |
| AuthServices.RefreshMatchesGetSession | src/modules/auth/auth.services.ts:143-182 | refreshing succeeds exactly when reading the session does, for the same user view |
| AuthServices.ForgotPassword | src/modules/auth/auth.services.ts:184-207 | always answers the same message; only for a known address is a token stored for 30 minutes |
| AuthServices.ResetPassword | src/modules/auth/auth.services.ts:210-245 | a missing or expired token fails and changes nothing. Otherwise the token is deleted. Then the user with the stored address gets the new hash, or the call fails with 404 |
| AuthServices.ResetTokenSingleUse | src/modules/auth/auth.services.ts:223 | a reset token works at most once |
| AuthServices.ForgotResetLogin | src/modules/auth/auth.services.ts:184-245 | forgot, reset within 30 minutes, then log in with the new password succeeds |
| AuthServices.ResetKeepsValid | src/modules/auth/auth.services.ts:233-236 | a reset keeps ids and addresses unique |
| AuthServices.ChangePassword | src/modules/auth/auth.services.ts:247-285 | 404 for an unknown user and 400 for a wrong current password, with nothing changed; otherwise only that user's hash changes |
| AuthServices.WrongCurrentChangesNothing | src/modules/auth/auth.services.ts:262-269 | a wrong current password changes nothing |
| AuthServices.ChangedPasswordLogsIn | src/modules/auth/auth.services.ts:247-285 | after a change, the new password logs in, and the old one no longer does unless it hashes like the new one |
| AuthServices.ChangeKeepsValid | src/modules/auth/auth.services.ts:274-277 | a change keeps ids and addresses unique |

## Left out

- Prisma, Redis and the mailer are not modelled as I/O: tables are sequences, the cache is maps with expiry instants, and sending the OTP and reset e-mails is left out.
- Each Prisma call is one step of a pure function, so concurrency between requests is not modelled. The `$transaction` in the transaction create is one atomic step.
- The clock (`Date.now()`, `new Date()`), `crypto.getRandomValues`, bcrypt, `encodeURIComponent`, zod's e-mail test and `new Date(text)` are parameters.
- Database ids are natural numbers. A UUID text in a request is mapped to an id by a parameter.
- Dates are opaque ordered instants.
- Amounts and balances are unbounded integers, not floating point.
- bcrypt salting is not modelled: `comparePassword(p, h)` is `hash(p) == h`.
- JWT signing and the secrets are left out; the claims are modelled.
- `userSchema` (src/modules/auth/auth.models.ts:72-78) is not applied to users: a user's view simply drops the hash. The UUID, URL and e-mail checks of that parse are not modelled.
- `categorySchema` in `transactionSchema` (src/modules/transactions/transactions.models.ts:2, :40) is imported from `categories.models`, which is not part of this model. The joined category of a listed transaction is assumed to pass it.
- The dead branches after `prisma.user.update` (src/modules/auth/auth.services.ts:239-242 and :280-282) are left out, because `update` returns the row or throws.
- The multipart form reading in the uploader, the rate limiter, the Cloudinary upload and the controllers and routes are not part of this model.
- zod's default messages ("Invalid input: …", "Invalid option", "Invalid UUID") are stand-ins for zod's exact wording.
- The message of a database error is a stand-in. This covers a negative `take` or `skip`, an invalid date and a duplicate e-mail at verification.
- String lengths count `char`s, not UTF-16 code units. `toLowerCase` is modelled on ASCII letters. Ordering by name compares code points, not the database collation.
- Accounts of equal creation time and categories of equal name may come back in any order; the model fixes one (a stable insertion sort). Transactions of the same day are ordered by id, the correction described under "## Findings"; the model's ids are numbers, so "ascending id" compares numbers where the database would compare UUID texts.
- `parseInt` is modelled on decimal digits after white space and an optional sign. Values too large for a double are not modelled.
- A negative `take` is an error in the model. Prisma reads it as "take from the end", which is not modelled.
- TransactionsServices.GetAll: page 0 with limit 0 gives skip `-0` in JavaScript; the model reads it as 0.
- Uploader.Megabytes: a limit that is not a whole number of megabytes prints as a JavaScript fraction in the message; the model prints the whole megabytes.
- Uploader.CheckFiles: the size limit is a natural number.
- AccountsSummary.Labelled: the order of the per-category entries follows `GroupByCategory`, which opens a group where its category first appears. The `groupBy` at src/modules/accounts/accounts.services.ts:110-118 has no `orderBy`, so the source promises no order; only the entries and their totals are the source's.
- AccountsSummary.GetSummary: its own contract states the total balance and the labels. The income, expense and category totals are stated by the lemmas about it.
- AuthServices.VerifyToken: a cached record for an address that has been taken meanwhile fails with the database's unique-constraint error. That error is an `OtherError` with a stand-in message.
- AuthServices.RefreshSession: the user id comes from the verified token (`c.get("user")`); the token check itself is not part of this model.
- Generate.GenerateToken: its contract gives the length; the contents are stated by `TokenNibbles` and `TokenRoundTrip`.

## Findings

| source | as written | input that shows it | evidently intended | confidence | as-written member | corrected member |
|---|---|---|---|---|---|---|
| src/modules/auth/auth.models.ts:59 | the reset token must be a UUID and also 64 characters long | any token, once the schema is applied: an accepted UUID has 36 characters (section 4 of RFC 9562), and the 64 hex digits `generateToken(32)` writes have no hyphens. No route applies the schema today (auth.routes.ts:16, auth.controllers.ts:126 passes the raw body), so the defect is latent | accept the 64 lower-case hex digits `generateToken` writes | high, not executed | AuthModels.ResetAsWrittenRejectsAll | AuthModels.GeneratedTokenAccepted |
| src/modules/accounts/accounts.services.ts:49 | the created row is parsed with `accountsSchema`, which requires `totalTransactions` (accounts.models.ts:9) | any valid create request: the row is written, then the parse throws | answer with the row and its count, as `getAll` does | high, not executed | AccountsServices.CreateAsWritten | AccountsServices.Create |
| src/modules/accounts/accounts.services.ts:75 | the updated row is parsed with `accountsSchema` without a `totalTransactions` | any update of an account the caller owns: the row is changed, then the parse throws | answer with the row and its count | high, not executed | AccountsServices.UpdateAsWritten | AccountsServices.Update |
| src/modules/categories/categories.services.ts:24 | `categorySchema` reads `createdAt` and `updatedAt` as strings (categories.validation.ts:18-19), while the database returns dates | a caller who sees at least one category, such as a system one | read the timestamps as dates, as the other schemas do | medium, not executed | CategoriesServices.GetAllAsWritten | CategoriesServices.GetAll |
| src/modules/categories/categories.services.ts:36 | the created category is parsed with the same schema | any create request: the row is written, then the parse throws | as above | medium, not executed | CategoriesServices.CreateAsWritten | CategoriesServices.Create |
| src/modules/categories/categories.services.ts:64 | the updated category is parsed with the same schema | any update of a category the caller owns | as above | medium, not executed | CategoriesServices.UpdateAsWritten | CategoriesServices.Update |
| src/modules/transactions/transactions.services.ts:74 | each listed row includes its account, which `transactionSchema` parses with `accountsSchema` (transactions.models.ts:41). That schema requires a `totalTransactions` the joined row lacks | any listing page with at least one row | accept the joined account without a count | high, not executed | TransactionsServices.GetAllAsWritten | TransactionsServices.GetAll |
| src/modules/auth/auth.services.ts:40-43 | only `password` is replaced by its hash before the whole request is cached, so `confirmPassword` is stored in plain text for 30 minutes | any successful registration | cache the hash only | high, not executed | AuthServices.RegisterAsWrittenKeepsPlaintext | AuthServices.Register |
| src/modules/transactions/transactions.services.ts:71 | each page is a separate `findMany` ordered by `transactionDate` alone, which holds a day (line 114) and is shared by many rows, so the database may order tied rows differently for each page | two matching rows of the same day and `limit` 1: page 1 may come back ordered `[a, b]` and page 2 `[b, a]`, so `a` is shown twice and `b` never | order by `transactionDate` descending and then by the unique `id`, so that every page sees one order | medium, not executed | TransactionsServices.TiedRowsCanRepeatAcrossPages | TransactionsServices.ListingIsOnlyOrder |

=== FILE: accounts_models.dfy ===
/**
 * The account schemas (src/modules/accounts/accounts.models.ts): the
 * response shape of an account, the create and update bodies, and the
 * summary's period parameters.
 */
module AccountsModels {
  import opened Wrappers
  import opened Failures
  import opened Zod
  import opened Store

  datatype CreateAccountRequest = CreateAccountRequest(name: string, kind: AccountType, balance: int)

  /** Every field optional; an absent field is left as it is. */
  datatype UpdateAccountRequest = UpdateAccountRequest(name: Option<string>, kind: Option<AccountType>, balance: Option<int>)

  /** The `type` names the schemas accept, one per account type. */
  function AccountTypeName(k: AccountType): string {
    match k
    case Cash => "CASH"
    case Bank => "BANK"
    case EWallet => "E_WALLET"
    case Investment => "INVESTMENT"
    case OtherAccount => "OTHER"
  }

  const AccountTypeNames: seq<string> := ["CASH", "BANK", "E_WALLET", "INVESTMENT", "OTHER"]

  /** The account type a name stands for. */
  function AccountTypeOf(name: string): (r: Option<AccountType>)
    ensures r.Some? <==> name in AccountTypeNames
    ensures r.Some? ==> AccountTypeName(r.value) == name
  {
    if name == "CASH" then Some(Cash)
    else if name == "BANK" then Some(Bank)
    else if name == "E_WALLET" then Some(EWallet)
    else if name == "INVESTMENT" then Some(Investment)
    else if name == "OTHER" then Some(OtherAccount)
    else None
  }

  lemma AccountTypeRoundTrip(k: AccountType)
    ensures AccountTypeOf(AccountTypeName(k)) == Some(k)
  {
  }

  /**
   * What `accountsSchema` says of a bare account row under `prefix`: every
   * column has the right type, but the row has no `totalTransactions`.
   */
  function AccountRowIssues(prefix: seq<PathSegment>): seq<Issue> {
    [Issue(prefix + [Key("totalTransactions")], MissingNumber)]
  }

  /** The error `accountsSchema.parse` throws for a bare account row. */
  const MissingCount: AppError := ZodError(AccountRowIssues([]))

  const NameRequired: string := "Name is required"
  const NegativeBalance: string := "Balance must be greater than or equal to 0"

  function NameSchema(): StringSchema {
    StringSchema(false, false, [MinLength(1, NameRequired)])
  }

  function AccountTypeAt(body: Body): Parsed<AccountType> {
    var p := ParseEnum("type", Get(body, "type"), AccountTypeNames);
    Parsed(if p.Passes() then AccountTypeOf(p.value.value) else None, p.issues)
  }

  /** `createAccountSchema`: a non-empty name, a known type, a balance of at least 0. */
  function ParseCreate(body: Body): (r: Result<CreateAccountRequest, AppError>)
    ensures r.Ok? <==>
              && Get(body, "name").Some? && Get(body, "name").value.Str? && |Get(body, "name").value.text| >= 1
              && Get(body, "type").Some? && Get(body, "type").value.Str? && Get(body, "type").value.text in AccountTypeNames
              && Get(body, "balance").Some? && Get(body, "balance").value.Num? && Get(body, "balance").value.number >= 0
    ensures r.Ok? ==>
              && r.value.name == body["name"].text
              && AccountTypeName(r.value.kind) == body["type"].text
              && r.value.balance == body["balance"].number
  {
    var name := ParseString(NameSchema(), "name", Get(body, "name"));
    var kind := AccountTypeAt(body);
    var balance := ParseNumber("balance", Get(body, "balance"), Some((0, NegativeBalance)));
    var issues := name.issues + kind.issues + balance.issues;
    if name.Passes() && kind.Passes() && balance.Passes() then
      Verdict(issues, CreateAccountRequest(name.value.value, kind.value.value, balance.value.value))
    else
      Err(ZodError(issues))
  }

  /** `updateAccountSchema`: every field optional, each checked as on create when present. */
  function ParseUpdate(body: Body): (r: Result<UpdateAccountRequest, AppError>)
    ensures r.Ok? <==>
              && (Get(body, "name").Some? ==> Get(body, "name").value.Str? && |Get(body, "name").value.text| >= 1)
              && (Get(body, "type").Some? ==> Get(body, "type").value.Str? && Get(body, "type").value.text in AccountTypeNames)
              && (Get(body, "balance").Some? ==> Get(body, "balance").value.Num? && Get(body, "balance").value.number >= 0)
    ensures r.Ok? ==>
              && (r.value.name.Some? <==> "name" in body) && (r.value.name.Some? ==> r.value.name.value == body["name"].text)
              && (r.value.kind.Some? <==> "type" in body) && (r.value.kind.Some? ==> AccountTypeName(r.value.kind.value) == body["type"].text)
              && (r.value.balance.Some? <==> "balance" in body) && (r.value.balance.Some? ==> r.value.balance.value == body["balance"].number)
  {
    var name := Optional(Get(body, "name"), ParseString(NameSchema(), "name", Get(body, "name")));
    var kind := Optional(Get(body, "type"), AccountTypeAt(body));
    var balance := Optional(Get(body, "balance"), ParseNumber("balance", Get(body, "balance"), Some((0, NegativeBalance))));
    var issues := name.issues + kind.issues + balance.issues;
    if name.Passes() && kind.Passes() && balance.Passes() then
      Verdict(issues, UpdateAccountRequest(name.value.value, kind.value.value, balance.value.value))
    else
      Err(ZodError(issues))
  }

  /**
   * One bound of `summaryParamsSchema`: a non-empty string becomes
   * `new Date(text)` (`toDate`, `None` for an invalid date); anything else,
   * the empty string included, is `undefined`.
   */
  function ParseBound(key: string, v: Option<string>, toDate: string -> Option<Time>): (r: Parsed<Option<Time>>)
    ensures v.None? || v == Some("") ==> r.Passes() && r.value.value.None?
    ensures v.Some? && v.value != "" ==> (r.Passes() <==> toDate(v.value).Some?)
    ensures v.Some? && v.value != "" && r.Passes() ==> r.value.value == toDate(v.value)
  {
    if v.Some? && |v.value| > 0 then
      match toDate(v.value)
      case Some(t) => Parsed(Some(Some(t)), [])
      case None => Parsed(None, [FieldIssue(key, InvalidDate)])
    else Parsed(Some(None), [])
  }

  datatype Period = Period(startDate: Option<Time>, endDate: Option<Time>)

  /** `summaryParamsSchema` over the query string's parameters. */
  function ParseSummaryParams(query: map<string, string>, toDate: string -> Option<Time>): (r: Result<Period, AppError>)
    ensures r.Ok? <==>
              && ("startDate" in query && query["startDate"] != "" ==> toDate(query["startDate"]).Some?)
              && ("endDate" in query && query["endDate"] != "" ==> toDate(query["endDate"]).Some?)
    ensures r.Ok? ==>
              && r.value.startDate == (if "startDate" in query && query["startDate"] != "" then toDate(query["startDate"]) else None)
              && r.value.endDate == (if "endDate" in query && query["endDate"] != "" then toDate(query["endDate"]) else None)
  {
    var start := ParseBound("startDate", if "startDate" in query then Some(query["startDate"]) else None, toDate);
    var end := ParseBound("endDate", if "endDate" in query then Some(query["endDate"]) else None, toDate);
    if start.Passes() && end.Passes() then Verdict(start.issues + end.issues, Period(start.value.value, end.value.value))
    else Err(ZodError(start.issues + end.issues))
  }

  /** An empty `startDate` or `endDate` in the query is the same as leaving it out. */
  lemma EmptyBoundIsAbsent(query: map<string, string>, toDate: string -> Option<Time>)
    ensures ParseSummaryParams(query["startDate" := ""], toDate) == ParseSummaryParams(query - {"startDate"}, toDate)
    ensures ParseSummaryParams(query["endDate" := ""], toDate) == ParseSummaryParams(query - {"endDate"}, toDate)
  {
  }
}

=== FILE: accounts_services.dfy ===
/**
 * The account service (src/modules/accounts/accounts.services.ts), apart
 * from the summary: the caller's accounts with their transaction counts,
 * opening an account, and editing one.
 *
 * `create` and `update` end by parsing the written row with the response
 * schema, which demands a `totalTransactions` field the row does not have.
 * `CreateAsWritten` and `UpdateAsWritten` model that; `Create` and `Update`
 * answer with the row and its count, as `getAll` does.
 */
module AccountsServices {
  import opened Wrappers
  import opened Failures
  import opened Sequences
  import opened Store
  import opened AccountsModels

  /** A listed account with its `_count` of transactions. */
  datatype AccountView = AccountView(account: Account, totalTransactions: nat)

  const AccountNotFound: string := "Account not found"

  function OwnedBy(userId: Id): Account -> bool {
    (a: Account) => a.userId == userId
  }

  /** `orderBy: { createdAt: "desc" }`. */
  function NewestFirst(): (Account, Account) -> bool {
    (a: Account, b: Account) => a.createdAt >= b.createdAt
  }

  function WithCount(s: Store, a: Account): (v: AccountView)
    ensures v.account == a && v.totalTransactions == |Filter(s.transactions, OnAccount(a.id))|
  {
    AccountView(a, Count(s.transactions, OnAccount(a.id)))
  }

  /** The caller's accounts, newest first. */
  function OwnedNewestFirst(s: Store, userId: Id): (r: seq<Account>)
    ensures forall i :: 0 <= i < |r| ==> r[i] in s.accounts && r[i].userId == userId
    ensures forall a :: a in s.accounts && a.userId == userId ==> a in r
    ensures |r| == |Filter(s.accounts, OwnedBy(userId))|
    ensures forall i, j :: 0 <= i < j < |r| ==> r[i].createdAt >= r[j].createdAt
  {
    var owned := Filter(s.accounts, OwnedBy(userId));
    var sorted := SortBy(owned, NewestFirst());
    SortBySorted(owned, NewestFirst());
    assert forall i :: 0 <= i < |sorted| ==> sorted[i] in multiset(owned);
    assert forall a :: a in s.accounts && a.userId == userId ==> a in multiset(sorted);
    sorted
  }

  /** `AccountsServices.getAll`: exactly the caller's accounts, newest first, each with its number of transactions. */
  function GetAll(s: Store, userId: Id): (r: seq<AccountView>)
    ensures forall i :: 0 <= i < |r| ==> r[i].account in s.accounts && r[i].account.userId == userId
    ensures forall a :: a in s.accounts && a.userId == userId ==> exists i :: 0 <= i < |r| && r[i].account == a
    ensures |r| == |Filter(s.accounts, OwnedBy(userId))|
    ensures forall i, j :: 0 <= i < j < |r| ==> r[i].account.createdAt >= r[j].account.createdAt
    ensures forall i :: 0 <= i < |r| ==> r[i].totalTransactions == |Filter(s.transactions, OnAccount(r[i].account.id))|
  {
    var sorted := OwnedNewestFirst(s, userId);
    Counted(s, sorted)
  }

  /** Each account with its count, in the same order. */
  function Counted(s: Store, accounts: seq<Account>): (r: seq<AccountView>)
    ensures |r| == |accounts|
    ensures forall i :: 0 <= i < |r| ==> r[i] == WithCount(s, accounts[i])
    ensures forall a :: a in accounts ==> exists i :: 0 <= i < |r| && r[i].account == a
  {
    var r := seq(|accounts|, i requires 0 <= i < |accounts| => WithCount(s, accounts[i]));
    assert forall i :: 0 <= i < |accounts| ==> r[i].account == accounts[i];
    r
  }

  /** The row `account.create` writes: a fresh id, the caller as owner, the request's fields. */
  function NewAccount(s: Store, userId: Id, req: CreateAccountRequest, now: Time): Account {
    Account(s.nextId, userId, req.name, req.kind, req.balance, now)
  }

  function CreateRow(s: Store, userId: Id, req: CreateAccountRequest, now: Time): (s': Store)
    ensures s'.accounts == s.accounts + [NewAccount(s, userId, req, now)]
    ensures s'.categories == s.categories && s'.transactions == s.transactions
    ensures s'.nextId == s.nextId + 1
  {
    s.(accounts := s.accounts + [NewAccount(s, userId, req, now)], nextId := s.nextId + 1)
  }

  /** `AccountsServices.create` as written: the row is written, then the response parse fails on the missing count. */
  function CreateAsWritten(s: Store, userId: Id, req: CreateAccountRequest, now: Time): (r: Step<AccountView, AppError>)
    ensures r.result == Err(MissingCount)
    ensures r.store == Create(s, userId, req, now).store
  {
    Step(CreateRow(s, userId, req, now), Err(MissingCount))
  }

  /** `AccountsServices.create` answering with the new account, which has no transactions yet. */
  function Create(s: Store, userId: Id, req: CreateAccountRequest, now: Time): (r: Step<AccountView, AppError>)
    ensures r.result.Ok?
    ensures r.store.accounts == s.accounts + [r.result.value.account]
    ensures r.store.categories == s.categories && r.store.transactions == s.transactions
    ensures r.store.nextId == s.nextId + 1
    ensures r.result.value.account == Account(s.nextId, userId, req.name, req.kind, req.balance, now)
    ensures Valid(s) ==> r.result.value.totalTransactions == 0
  {
    var a := NewAccount(s, userId, req, now);
    var s' := CreateRow(s, userId, req, now);
    var f := Filter(s.transactions, OnAccount(a.id));
    assert |f| > 0 ==> f[0] in s.transactions && f[0].accountId == a.id;
    assert Valid(s) ==> forall t :: t in s.transactions ==> t.accountId != a.id;
    Step(s', Ok(WithCount(s, a)))
  }

  lemma CreateKeepsValid(s: Store, userId: Id, req: CreateAccountRequest, now: Time)
    requires Valid(s)
    ensures Valid(Create(s, userId, req, now).store)
  {
    var s' := Create(s, userId, req, now).store;
    forall i | 0 <= i < |s'.transactions| ensures HasAccount(s'.accounts, s'.transactions[i].accountId) {
      assert s'.transactions[i] == s.transactions[i];
      assert HasAccount(s.accounts, s.transactions[i].accountId);
      var m :| 0 <= m < |s.accounts| && s.accounts[m].id == s.transactions[i].accountId;
      assert s'.accounts[m] == s.accounts[m];
    }
  }

  /** A new account shows up in its owner's list, with no transactions. */
  lemma CreatedAccountListed(s: Store, userId: Id, req: CreateAccountRequest, now: Time)
    requires Valid(s)
    ensures var r := Create(s, userId, req, now);
            exists i :: 0 <= i < |GetAll(r.store, userId)| && GetAll(r.store, userId)[i] == r.result.value
  {
    var r := Create(s, userId, req, now);
    var a := r.result.value.account;
    assert a in r.store.accounts;
    var l := GetAll(r.store, userId);
    var i :| 0 <= i < |l| && l[i].account == a;
    assert l[i].totalTransactions == |Filter(s.transactions, OnAccount(a.id))|;
  }

  /** The fields present in the request replace the row's; the rest stay. */
  function Patch(a: Account, req: UpdateAccountRequest): (b: Account)
    ensures b.id == a.id && b.userId == a.userId && b.createdAt == a.createdAt
    ensures b.name == (if req.name.Some? then req.name.value else a.name)
    ensures b.kind == (if req.kind.Some? then req.kind.value else a.kind)
    ensures b.balance == (if req.balance.Some? then req.balance.value else a.balance)
  {
    a.(name := req.name.GetOr(a.name), kind := req.kind.GetOr(a.kind), balance := req.balance.GetOr(a.balance))
  }

  function UpdateRows(s: Store, accountId: Id, req: UpdateAccountRequest): Store {
    s.(accounts := UpdateAccounts(s.accounts, accountId, (a: Account) => Patch(a, req)))
  }

  /** `AccountsServices.update` as written: the caller's account is changed, then the response parse fails. */
  function UpdateAsWritten(s: Store, userId: Id, accountId: Id, req: UpdateAccountRequest): (r: Step<AccountView, AppError>)
    ensures FindOwnedAccount(s.accounts, userId, accountId).None? ==> r == Step(s, Err(NotFound("Account not found")))
    ensures FindOwnedAccount(s.accounts, userId, accountId).Some? ==>
              r.result == Err(MissingCount) && r.store == Update(s, userId, accountId, req).store
  {
    match FindOwnedAccount(s.accounts, userId, accountId)
    case None => Step(s, Err(NotFound(AccountNotFound)))
    case Some(a) => Step(UpdateRows(s, accountId, req), Err(MissingCount))
  }

  /**
   * `AccountsServices.update` answering with the changed account and its
   * count. Only the caller's own account can be changed; every other row
   * and table is left as it was.
   */
  function Update(s: Store, userId: Id, accountId: Id, req: UpdateAccountRequest): (r: Step<AccountView, AppError>)
    ensures FindOwnedAccount(s.accounts, userId, accountId).None? ==> r == Step(s, Err(NotFound("Account not found")))
    ensures r.result.Ok? <==> exists a :: a in s.accounts && a.id == accountId && a.userId == userId
    ensures r.result.Ok? ==>
              && r.result.value.account.id == accountId && r.result.value.account.userId == userId
              && r.result.value.account == Patch(FindOwnedAccount(s.accounts, userId, accountId).value, req)
              && r.result.value.totalTransactions == |Filter(s.transactions, OnAccount(accountId))|
              && r.store.transactions == s.transactions && r.store.categories == s.categories && r.store.nextId == s.nextId
              && |r.store.accounts| == |s.accounts|
              && forall i :: 0 <= i < |s.accounts| ==>
                   r.store.accounts[i] == if s.accounts[i].id == accountId then Patch(s.accounts[i], req) else s.accounts[i]
  {
    match FindOwnedAccount(s.accounts, userId, accountId)
    case None => Step(s, Err(NotFound(AccountNotFound)))
    case Some(a) => Step(UpdateRows(s, accountId, req), Ok(WithCount(s, Patch(a, req))))
  }

  lemma UpdateKeepsValid(s: Store, userId: Id, accountId: Id, req: UpdateAccountRequest)
    requires Valid(s)
    ensures Valid(Update(s, userId, accountId, req).store)
  {
    var s' := Update(s, userId, accountId, req).store;
    forall i | 0 <= i < |s'.transactions| ensures HasAccount(s'.accounts, s'.transactions[i].accountId) {
      assert s'.transactions[i] == s.transactions[i];
      assert HasAccount(s.accounts, s.transactions[i].accountId);
      var m :| 0 <= m < |s.accounts| && s.accounts[m].id == s.transactions[i].accountId;
      assert s'.accounts[m].id == s.accounts[m].id;
    }
  }

  /** An empty update body is accepted and leaves the account exactly as it was. */
  lemma EmptyUpdateChangesNothing(a: Account)
    ensures var r := ParseUpdate(map[]);
            r.Ok? && Patch(a, r.value) == a
  {
  }

  /** Sending the same edit twice has the effect of sending it once. */
  lemma UpdateIdempotent(s: Store, userId: Id, accountId: Id, req: UpdateAccountRequest)
    ensures var once := Update(s, userId, accountId, req).store;
            Update(once, userId, accountId, req).store == once
  {
    var once := Update(s, userId, accountId, req).store;
    var twice := Update(once, userId, accountId, req).store;
    if FindOwnedAccount(s.accounts, userId, accountId).Some? {
      assert FindOwnedAccount(once.accounts, userId, accountId).Some?;
      assert twice.accounts == once.accounts;
    }
  }
}

=== FILE: accounts_summary.dfy ===
/**
 * `AccountsServices.getSummary` (src/modules/accounts/accounts.services.ts):
 * the caller's total balance, income and expense, and the transaction
 * amounts grouped by category. The period is applied only when both of its
 * bounds are given.
 */
module AccountsSummary {
  import opened Wrappers
  import opened Sequences
  import opened Store
  import AccountsServices

  datatype CategoryTotal = CategoryTotal(category: string, total: int)

  datatype Summary = Summary(totalIncome: int, totalExpense: int, totalBalance: int, byCategory: seq<CategoryTotal>)

  const Uncategorized: string := "Uncategorized"

  /** `{ transactionDate: { gte, lte } }` when both bounds are present, no condition otherwise. */
  predicate InPeriod(startDate: Option<Time>, endDate: Option<Time>, t: Transaction) {
    startDate.Some? && endDate.Some? ==> startDate.value <= t.transactionDate <= endDate.value
  }

  /** The ids of the accounts `getAll` lists for the user. */
  function ListedIds(s: Store, userId: Id): (r: seq<Id>)
    ensures |r| == |AccountsServices.GetAll(s, userId)|
  {
    var views := AccountsServices.GetAll(s, userId);
    seq(|views|, i requires 0 <= i < |views| => views[i].account.id)
  }

  /** The account with that id belongs to the user (`account: { userId }`). */
  predicate AccountOwnedBy(accounts: seq<Account>, userId: Id, accountId: Id) {
    FindAccount(accounts, accountId).Some? && FindAccount(accounts, accountId).value.userId == userId
  }

  /** With unique account ids, `accountId in` the listed ids and `account: { userId }` select the same rows. */
  lemma ListedIdsAreOwnership(s: Store, userId: Id, accountId: Id)
    requires UniqueAccountIds(s.accounts)
    ensures accountId in ListedIds(s, userId) <==> AccountOwnedBy(s.accounts, userId, accountId)
  {
    var views := AccountsServices.GetAll(s, userId);
    var ids := ListedIds(s, userId);
    if accountId in ids {
      var i :| 0 <= i < |ids| && ids[i] == accountId;
      FindAccountUnique(s.accounts, views[i].account);
    }
    if AccountOwnedBy(s.accounts, userId, accountId) {
      var a := FindAccount(s.accounts, accountId).value;
      var i :| 0 <= i < |views| && views[i].account == a;
      assert ids[i] == accountId;
    }
  }

  /** The `where` of the income and expense aggregates: `accountId in` the listed ids, the type, the period. */
  function KindSelection(ids: seq<Id>, kind: TxType, startDate: Option<Time>, endDate: Option<Time>): Transaction -> bool {
    (t: Transaction) => t.accountId in ids && t.kind == kind && InPeriod(startDate, endDate, t)
  }

  /** The `where` of the `groupBy`. */
  function GroupSelection(accounts: seq<Account>, userId: Id, startDate: Option<Time>, endDate: Option<Time>): Transaction -> bool {
    (t: Transaction) => AccountOwnedBy(accounts, userId, t.accountId) && InPeriod(startDate, endDate, t)
  }

  // ---------------------------------------------------------------------------
  // groupBy categoryId, _sum amount

  datatype Group = Group(categoryId: Id, sum: int)

  function GroupSum(g: Group): int {
    g.sum
  }

  function GroupIds(groups: seq<Group>): set<Id> {
    if groups == [] then {} else {groups[0].categoryId} + GroupIds(groups[1..])
  }

  /** No two groups share a category. */
  predicate Distinct(groups: seq<Group>) {
    groups == [] || (groups[0].categoryId !in GroupIds(groups[1..]) && Distinct(groups[1..]))
  }

  /** The sum of a category's group, if there is one. */
  function Lookup(groups: seq<Group>, id: Id): Option<int> {
    if groups == [] then None
    else if groups[0].categoryId == id then Some(groups[0].sum)
    else Lookup(groups[1..], id)
  }

  /** Adds a row's amount to its category's group, opening the group at the end when it is new. */
  function AddToGroups(groups: seq<Group>, t: Transaction): seq<Group> {
    if groups == [] then [Group(t.categoryId, t.amount)]
    else if groups[0].categoryId == t.categoryId then [groups[0].(sum := groups[0].sum + t.amount)] + groups[1..]
    else [groups[0]] + AddToGroups(groups[1..], t)
  }

  lemma {:induction false} AddLookup(groups: seq<Group>, t: Transaction, id: Id)
    ensures Lookup(AddToGroups(groups, t), id) ==
              if id == t.categoryId then Some(Lookup(groups, id).GetOr(0) + t.amount) else Lookup(groups, id)
  {
    if groups != [] && groups[0].categoryId != t.categoryId {
      AddLookup(groups[1..], t, id);
    }
  }

  lemma {:induction false} AddSum(groups: seq<Group>, t: Transaction)
    ensures SumOf(AddToGroups(groups, t), GroupSum) == SumOf(groups, GroupSum) + t.amount
  {
    if groups != [] && groups[0].categoryId != t.categoryId {
      AddSum(groups[1..], t);
    }
  }

  lemma {:induction false} AddIds(groups: seq<Group>, t: Transaction)
    ensures GroupIds(AddToGroups(groups, t)) == GroupIds(groups) + {t.categoryId}
  {
    if groups != [] && groups[0].categoryId != t.categoryId {
      AddIds(groups[1..], t);
      assert AddToGroups(groups, t)[1..] == AddToGroups(groups[1..], t);
    } else if groups != [] {
      assert AddToGroups(groups, t)[1..] == groups[1..];
    }
  }

  lemma {:induction false} AddDistinct(groups: seq<Group>, t: Transaction)
    requires Distinct(groups)
    ensures Distinct(AddToGroups(groups, t))
  {
    if groups != [] {
      var r := AddToGroups(groups, t);
      if groups[0].categoryId != t.categoryId {
        AddDistinct(groups[1..], t);
        AddIds(groups[1..], t);
        assert r[1..] == AddToGroups(groups[1..], t);
      } else {
        assert r[1..] == groups[1..];
      }
    }
  }

  /**
   * Prisma's `groupBy` over the rows. The query has no `orderBy`, so the database
   * fixes no order of groups; this model opens each group where its category
   * first appears, and only the set of groups and their sums are the source's.
   */
  function GroupByCategory(ts: seq<Transaction>): seq<Group>
    decreases |ts|
  {
    if ts == [] then [] else AddToGroups(GroupByCategory(ts[..|ts| - 1]), ts[|ts| - 1])
  }

  lemma {:induction false} GroupByDistinct(ts: seq<Transaction>)
    ensures Distinct(GroupByCategory(ts))
    decreases |ts|
  {
    if ts != [] {
      GroupByDistinct(ts[..|ts| - 1]);
      AddDistinct(GroupByCategory(ts[..|ts| - 1]), ts[|ts| - 1]);
    }
  }

  predicate HasCategoryRow(ts: seq<Transaction>, id: Id) {
    exists i :: 0 <= i < |ts| && ts[i].categoryId == id
  }

  lemma HasCategoryRowSnoc(init: seq<Transaction>, t: Transaction, id: Id)
    ensures HasCategoryRow(init + [t], id) <==> HasCategoryRow(init, id) || t.categoryId == id
  {
    var ts := init + [t];
    if HasCategoryRow(init, id) {
      var i :| 0 <= i < |init| && init[i].categoryId == id;
      assert ts[i] == init[i];
    }
    if t.categoryId == id {
      assert ts[|init|] == t;
    }
  }

  lemma {:induction false} NoRowNoneFiltered(ts: seq<Transaction>, id: Id)
    requires !HasCategoryRow(ts, id)
    ensures Filter(ts, OnCategory(id)) == []
  {
    if ts != [] {
      assert ts[0].categoryId != id;
      forall i | 0 <= i < |ts[1..]| ensures ts[1..][i].categoryId != id {
        assert ts[1..][i] == ts[i + 1];
      }
      NoRowNoneFiltered(ts[1..], id);
    }
  }

  /** The rows of one category, and their total. */
  function CategorySum(ts: seq<Transaction>, id: Id): int {
    SumOf(Filter(ts, OnCategory(id)), Amount)
  }

  lemma CategorySumSnoc(init: seq<Transaction>, t: Transaction, id: Id)
    ensures CategorySum(init + [t], id) == CategorySum(init, id) + (if t.categoryId == id then t.amount else 0)
  {
    FilterAppend(init, [t], OnCategory(id));
    SumOfAppend(Filter(init, OnCategory(id)), Filter([t], OnCategory(id)), Amount);
  }

  /**
   * There is a group for exactly the categories that have rows, and each
   * group's sum is the total of that category's rows.
   */
  lemma {:induction false} GroupByLookup(ts: seq<Transaction>, id: Id)
    ensures Lookup(GroupByCategory(ts), id) ==
              if HasCategoryRow(ts, id) then Some(CategorySum(ts, id)) else None
    decreases |ts|
  {
    if ts != [] {
      var init := ts[..|ts| - 1];
      var t := ts[|ts| - 1];
      assert ts == init + [t];
      GroupByLookup(init, id);
      AddLookup(GroupByCategory(init), t, id);
      HasCategoryRowSnoc(init, t, id);
      CategorySumSnoc(init, t, id);
      if !HasCategoryRow(init, id) {
        NoRowNoneFiltered(init, id);
      }
    }
  }

  /** The group sums add up to the total amount of the rows. */
  lemma {:induction false} GroupByPreservesTotal(ts: seq<Transaction>)
    ensures SumOf(GroupByCategory(ts), GroupSum) == SumOf(ts, Amount)
    decreases |ts|
  {
    if ts != [] {
      var init := ts[..|ts| - 1];
      GroupByPreservesTotal(init);
      AddSum(GroupByCategory(init), ts[|ts| - 1]);
      assert ts == init + [ts[|ts| - 1]];
      SumOfAppend(init, [ts[|ts| - 1]], Amount);
    }
  }

  lemma {:induction false} DistinctIndices(groups: seq<Group>)
    requires Distinct(groups)
    ensures forall i, j :: 0 <= i < j < |groups| ==> groups[i].categoryId != groups[j].categoryId
  {
    if groups != [] {
      DistinctIndices(groups[1..]);
      forall j | 0 < j < |groups| ensures groups[0].categoryId != groups[j].categoryId {
        GroupIdsIndex(groups[1..], groups[j].categoryId);
        assert groups[1..][j - 1] == groups[j];
      }
      forall i, j | 0 < i < j < |groups| ensures groups[i].categoryId != groups[j].categoryId {
        assert groups[1..][i - 1] == groups[i] && groups[1..][j - 1] == groups[j];
      }
    }
  }

  lemma {:induction false} GroupIdsIndex(groups: seq<Group>, id: Id)
    ensures id in GroupIds(groups) <==> exists i :: 0 <= i < |groups| && groups[i].categoryId == id
  {
    if groups != [] {
      GroupIdsIndex(groups[1..], id);
      if exists i :: 0 <= i < |groups| && groups[i].categoryId == id {
        var i :| 0 <= i < |groups| && groups[i].categoryId == id;
        if i > 0 {
          assert groups[1..][i - 1] == groups[i];
        }
      }
      if exists i :: 0 <= i < |groups[1..]| && groups[1..][i].categoryId == id {
        var i :| 0 <= i < |groups[1..]| && groups[1..][i].categoryId == id;
        assert groups[i + 1].categoryId == id;
      }
    }
  }

  /** In distinct groups, the lookup of a category finds the group that has it. */
  lemma {:induction false} LookupAt(groups: seq<Group>, i: nat)
    requires Distinct(groups) && i < |groups|
    ensures Lookup(groups, groups[i].categoryId) == Some(groups[i].sum)
  {
    if i > 0 {
      LookupAt(groups[1..], i - 1);
      GroupIdsIndex(groups[1..], groups[i].categoryId);
      assert groups[1..][i - 1] == groups[i];
    }
  }

  // ---------------------------------------------------------------------------
  // The summary

  /** `categoryMap[id] || "Uncategorized"`: a missing category or an empty name reads as "Uncategorized". */
  function CategoryLabel(categories: seq<Category>, id: Id): (shown: string)
    ensures shown != ""
    ensures FindCategory(categories, id).None? ==> shown == Uncategorized
    ensures FindCategory(categories, id).Some? ==>
              shown == if FindCategory(categories, id).value.name == "" then Uncategorized else FindCategory(categories, id).value.name
    ensures shown != Uncategorized ==> exists c :: c in categories && c.id == id && c.name == shown
  {
    match FindCategory(categories, id)
    case None => Uncategorized
    case Some(c) => if c.name != "" then c.name else Uncategorized
  }

  function Labelled(categories: seq<Category>, groups: seq<Group>): (r: seq<CategoryTotal>)
    ensures |r| == |groups|
    ensures forall i :: 0 <= i < |groups| ==> r[i] == CategoryTotal(CategoryLabel(categories, groups[i].categoryId), groups[i].sum)
  {
    if groups == [] then [] else [CategoryTotal(CategoryLabel(categories, groups[0].categoryId), groups[0].sum)] + Labelled(categories, groups[1..])
  }

  function Total(c: CategoryTotal): int {
    c.total
  }

  lemma {:induction false} LabelledKeepsTotal(categories: seq<Category>, groups: seq<Group>)
    ensures SumOf(Labelled(categories, groups), Total) == SumOf(groups, GroupSum)
  {
    if groups != [] {
      LabelledKeepsTotal(categories, groups[1..]);
    }
  }

  function Balance(a: Account): int {
    a.balance
  }

  /** `_sum: { balance }` over the user's accounts, `null` (no account) read as 0. */
  function TotalBalance(s: Store, userId: Id): int {
    SumOf(Filter(s.accounts, AccountsServices.OwnedBy(userId)), Balance)
  }

  /** `_sum: { amount }` over the user's transactions of one type in the period, `null` read as 0. */
  function TotalOfKind(s: Store, userId: Id, kind: TxType, startDate: Option<Time>, endDate: Option<Time>): int {
    SumOf(Filter(s.transactions, KindSelection(ListedIds(s, userId), kind, startDate, endDate)), Amount)
  }

  /** The rows the `groupBy` reads: every type. */
  function GroupedRows(s: Store, userId: Id, startDate: Option<Time>, endDate: Option<Time>): seq<Transaction> {
    Filter(s.transactions, GroupSelection(s.accounts, userId, startDate, endDate))
  }

  function ByCategory(s: Store, userId: Id, startDate: Option<Time>, endDate: Option<Time>): seq<CategoryTotal> {
    Labelled(s.categories, GroupByCategory(GroupedRows(s, userId, startDate, endDate)))
  }

  /** `AccountsServices.getSummary`. */
  function GetSummary(s: Store, userId: Id, startDate: Option<Time>, endDate: Option<Time>): (r: Summary)
    ensures r.totalBalance == SumOf(Filter(s.accounts, AccountsServices.OwnedBy(userId)), Balance)
    ensures forall i :: 0 <= i < |r.byCategory| ==> r.byCategory[i].category != ""
  {
    Summary(
      TotalOfKind(s, userId, Income, startDate, endDate),
      TotalOfKind(s, userId, Expense, startDate, endDate),
      TotalBalance(s, userId),
      ByCategory(s, userId, startDate, endDate))
  }

  lemma FilterBoth(ts: seq<Transaction>, sel: Transaction -> bool, both: Transaction -> bool, kind: TxType)
    requires forall t :: t in ts ==> both(t) == (sel(t) && t.kind == kind)
    ensures Filter(ts, both) == Filter(Filter(ts, sel), OfKind(kind))
  {
    if ts != [] {
      FilterBoth(ts[1..], sel, both, kind);
    }
  }

  /** In a store with unique account ids, the income (or expense) total is the total of the grouped rows of that type. */
  lemma KindTotalFromGroupedRows(s: Store, userId: Id, kind: TxType, startDate: Option<Time>, endDate: Option<Time>)
    requires UniqueAccountIds(s.accounts)
    ensures TotalOfKind(s, userId, kind, startDate, endDate) ==
              SumOf(Filter(GroupedRows(s, userId, startDate, endDate), OfKind(kind)), Amount)
  {
    var ids := ListedIds(s, userId);
    var sel := GroupSelection(s.accounts, userId, startDate, endDate);
    forall t | t in s.transactions
      ensures KindSelection(ids, kind, startDate, endDate)(t) == (sel(t) && t.kind == kind)
    {
      ListedIdsAreOwnership(s, userId, t.accountId);
    }
    FilterBoth(s.transactions, sel, KindSelection(ids, kind, startDate, endDate), kind);
  }

  /**
   * With unique account ids, the categories of the summary add up to its
   * income plus its expense: every grouped amount is counted once, whatever
   * its type.
   */
  lemma CategoriesAddUp(s: Store, userId: Id, startDate: Option<Time>, endDate: Option<Time>)
    requires UniqueAccountIds(s.accounts)
    ensures var r := GetSummary(s, userId, startDate, endDate);
            SumOf(r.byCategory, Total) == r.totalIncome + r.totalExpense
  {
    var rows := GroupedRows(s, userId, startDate, endDate);
    KindTotalFromGroupedRows(s, userId, Income, startDate, endDate);
    KindTotalFromGroupedRows(s, userId, Expense, startDate, endDate);
    SumOfSplit(rows, Amount, OfKind(Income), OfKind(Expense));
    LabelledKeepsTotal(s.categories, GroupByCategory(rows));
    GroupByPreservesTotal(rows);
  }

  /**
   * Each category with grouped rows has exactly one entry, placed where its
   * first row is, and its total is the sum of those rows' amounts.
   */
  lemma OneEntryPerCategory(s: Store, userId: Id, startDate: Option<Time>, endDate: Option<Time>, id: Id)
    ensures var rows := GroupedRows(s, userId, startDate, endDate);
            var groups := GroupByCategory(rows);
            && (forall i, j :: 0 <= i < j < |groups| ==> groups[i].categoryId != groups[j].categoryId)
            && (HasCategoryRow(rows, id) <==> exists i :: 0 <= i < |groups| && groups[i].categoryId == id)
            && forall i :: 0 <= i < |groups| && groups[i].categoryId == id ==>
                 ByCategory(s, userId, startDate, endDate)[i].total == CategorySum(rows, id)
  {
    var rows := GroupedRows(s, userId, startDate, endDate);
    var groups := GroupByCategory(rows);
    GroupByDistinct(rows);
    DistinctIndices(groups);
    GroupByLookup(rows, id);
    forall i | 0 <= i < |groups| && groups[i].categoryId == id
      ensures ByCategory(s, userId, startDate, endDate)[i].total == CategorySum(rows, id)
    {
      LookupAt(groups, i);
    }
    if HasCategoryRow(rows, id) {
      LookupIsMember(groups, id);
    }
    if exists i :: 0 <= i < |groups| && groups[i].categoryId == id {
      var i :| 0 <= i < |groups| && groups[i].categoryId == id;
      LookupAt(groups, i);
    }
  }

  lemma {:induction false} LookupIsMember(groups: seq<Group>, id: Id)
    requires Lookup(groups, id).Some?
    ensures exists i :: 0 <= i < |groups| && groups[i].categoryId == id
  {
    if groups[0].categoryId != id {
      LookupIsMember(groups[1..], id);
      var i :| 0 <= i < |groups[1..]| && groups[1..][i].categoryId == id;
      assert groups[i + 1].categoryId == id;
    }
  }

  lemma OneBoundSelectsAll(s: Store, userId: Id, start: Option<Time>, end: Option<Time>)
    requires start.None? || end.None?
    ensures forall kind: TxType :: TotalOfKind(s, userId, kind, start, end) == TotalOfKind(s, userId, kind, None, None)
    ensures GroupedRows(s, userId, start, end) == GroupedRows(s, userId, None, None)
  {
    var ids := ListedIds(s, userId);
    forall kind: TxType ensures TotalOfKind(s, userId, kind, start, end) == TotalOfKind(s, userId, kind, None, None) {
      FilterSame(s.transactions, KindSelection(ids, kind, start, end), KindSelection(ids, kind, None, None));
    }
    FilterSame(s.transactions, GroupSelection(s.accounts, userId, start, end), GroupSelection(s.accounts, userId, None, None));
  }

  /** A single bound filters nothing: the summary is the same as with no period at all. */
  lemma OneBoundIsNoPeriod(s: Store, userId: Id, bound: Time)
    ensures GetSummary(s, userId, Some(bound), None) == GetSummary(s, userId, None, None)
    ensures GetSummary(s, userId, None, Some(bound)) == GetSummary(s, userId, None, None)
  {
    OneBoundSelectsAll(s, userId, Some(bound), None);
    OneBoundSelectsAll(s, userId, None, Some(bound));
  }
}

=== FILE: auth_models.dfy ===
/**
 * The auth schemas (src/modules/auth/auth.models.ts). E-mail fields are
 * trimmed and lower-cased before the address check; the address check
 * itself is zod's and is a parameter (`isEmail`). The schemas with a
 * repeated password add a refinement that runs once every field is a
 * string and reports a mismatch at `confirmPassword`.
 *
 * The reset schema asks for a token that is both a UUID and 64 characters
 * long, which no text is. `ParseResetAsWritten` models that schema;
 * `ParseReset` accepts the 64 lower-case hex digits `generateToken` writes.
 * No route applies the reset schema (src/modules/auth/auth.routes.ts:16 has
 * no validation step, and the controller hands the raw body on), so the
 * defect is latent: it rejects requests only once the schema is wired in.
 */
module AuthModels {
  import opened Wrappers
  import opened Text
  import opened Failures
  import opened Zod
  import Generate

  datatype LoginRequest = LoginRequest(email: string, password: string)
  datatype RegisterRequest = RegisterRequest(name: string, email: string, password: string, confirmPassword: string)
  datatype VerifyOtpRequest = VerifyOtpRequest(email: string, otp: string)
  datatype ResetRequest = ResetRequest(token: string, password: string, confirmPassword: string)
  datatype ChangePasswordRequest = ChangePasswordRequest(currentPassword: string, password: string, confirmPassword: string)

  const InvalidEmail: string := "Invalid email address"
  const ShortPassword: string := "Password must be at least 6 characters"
  const ConfirmRequired: string := "Confirm Password is required"
  const ShortName: string := "Name must be at least 2 characters"
  const OtpRequired: string := "OTP is required"
  const OtpLengthMessage: string := "OTP must be 6 characters"
  const InvalidToken: string := "Invalid token"
  const CurrentRequired: string := "current Password is Required"
  const PasswordsDiffer: string := "Passwords do not match"

  const MinPassword: nat := 6

  function EmailSchema(isEmail: string -> bool): StringSchema {
    StringSchema(true, true, [Format(isEmail, InvalidEmail)])
  }

  function PasswordSchema(): StringSchema {
    StringSchema(false, false, [MinLength(MinPassword, ShortPassword)])
  }

  function ConfirmSchema(): StringSchema {
    StringSchema(false, false, [MinLength(MinPassword, ConfirmRequired)])
  }

  /** The address as the schemas keep it: trimmed, then lower-cased. */
  function NormalEmail(s: string): string {
    Lower(Trim(s))
  }

  predicate IsText(body: Body, key: string) {
    Get(body, key).Some? && Get(body, key).value.Str?
  }

  predicate EmailValid(body: Body, isEmail: string -> bool) {
    IsText(body, "email") && isEmail(NormalEmail(body["email"].text))
  }

  predicate LongEnough(body: Body, key: string, n: nat) {
    IsText(body, key) && |body[key].text| >= n
  }

  function EmailAt(body: Body, isEmail: string -> bool): (r: Parsed<string>)
    ensures r.Passes() <==> EmailValid(body, isEmail)
    ensures IsText(body, "email") <==> r.value.Some?
    ensures r.value.Some? ==> r.value.value == NormalEmail(body["email"].text)
  {
    ParseString(EmailSchema(isEmail), "email", Get(body, "email"))
  }

  function MinAt(body: Body, key: string, schema: StringSchema): (r: Parsed<string>)
    requires |schema.checks| == 1 && schema.checks[0].MinLength? && !schema.trim && !schema.lower
    ensures r.Passes() <==> LongEnough(body, key, schema.checks[0].min)
    ensures IsText(body, key) <==> r.value.Some?
    ensures r.value.Some? ==> r.value.value == body[key].text
  {
    ParseString(schema, key, Get(body, key))
  }

  /**
   * The issue of the password refinement: it runs when both fields are
   * strings, and complains at `confirmPassword` when they differ.
   */
  function Mismatch(password: Parsed<string>, confirm: Parsed<string>): (r: seq<Issue>)
    ensures r != [] <==> password.value.Some? && confirm.value.Some? && password.value.value != confirm.value.value
  {
    if password.value.Some? && confirm.value.Some? && password.value.value != confirm.value.value
    then [FieldIssue("confirmPassword", PasswordsDiffer)]
    else []
  }

  /** `loginSchema`. */
  function ParseLogin(body: Body, isEmail: string -> bool): (r: Result<LoginRequest, AppError>)
    ensures r.Ok? <==> EmailValid(body, isEmail) && LongEnough(body, "password", MinPassword)
    ensures r.Ok? ==> r.value == LoginRequest(NormalEmail(body["email"].text), body["password"].text)
  {
    var email := EmailAt(body, isEmail);
    var password := MinAt(body, "password", PasswordSchema());
    if email.Passes() && password.Passes() then Verdict(email.issues + password.issues, LoginRequest(email.value.value, password.value.value))
    else Err(ZodError(email.issues + password.issues))
  }

  predicate NameValid(body: Body) {
    IsText(body, "name") && |Trim(body["name"].text)| >= 2
  }

  function NameAt(body: Body): (r: Parsed<string>)
    ensures r.Passes() <==> NameValid(body)
    ensures r.value.Some? <==> IsText(body, "name")
    ensures r.value.Some? ==> r.value.value == Trim(body["name"].text)
  {
    ParseString(StringSchema(true, false, [MinLength(2, ShortName)]), "name", Get(body, "name"))
  }

  /** Both passwords long enough and equal. */
  predicate PasswordsValid(body: Body) {
    LongEnough(body, "password", MinPassword) && LongEnough(body, "confirmPassword", MinPassword)
    && body["password"].text == body["confirmPassword"].text
  }

  /** `registerSchema`: a name of two or more characters once trimmed, an address, and the password twice. */
  function ParseRegister(body: Body, isEmail: string -> bool): (r: Result<RegisterRequest, AppError>)
    ensures r.Ok? <==> NameValid(body) && EmailValid(body, isEmail) && PasswordsValid(body)
    ensures r.Ok? ==> r.value == RegisterRequest(Trim(body["name"].text), NormalEmail(body["email"].text), body["password"].text, body["confirmPassword"].text)
    ensures r.Ok? ==> r.value.password == r.value.confirmPassword
  {
    var name := NameAt(body);
    var email := EmailAt(body, isEmail);
    var password := MinAt(body, "password", PasswordSchema());
    var confirm := MinAt(body, "confirmPassword", ConfirmSchema());
    var issues := name.issues + email.issues + password.issues + confirm.issues
                  + (if name.value.Some? && email.value.Some? then Mismatch(password, confirm) else []);
    if name.Passes() && email.Passes() && password.Passes() && confirm.Passes() then
      Verdict(issues, RegisterRequest(name.value.value, email.value.value, password.value.value, confirm.value.value))
    else Err(ZodError(issues))
  }

  /** A mismatch is reported even when a password is also too short, as long as every field is a string. */
  lemma MismatchReportedWithShortPassword(body: Body, isEmail: string -> bool)
    requires IsText(body, "name") && IsText(body, "email") && IsText(body, "password") && IsText(body, "confirmPassword")
    requires body["password"].text != body["confirmPassword"].text
    ensures ParseRegister(body, isEmail).Err?
    ensures FieldIssue("confirmPassword", PasswordsDiffer) in ParseRegister(body, isEmail).error.issues
  {
  }

  predicate OtpValid(body: Body) {
    IsText(body, "otp") && |body["otp"].text| == Generate.OtpLength
  }

  function OtpSchema(): StringSchema {
    StringSchema(false, false, [MinLength(6, OtpRequired), MaxLength(6, OtpLengthMessage)])
  }

  function OtpAt(body: Body): (r: Parsed<string>)
    ensures r.Passes() <==> OtpValid(body)
    ensures IsText(body, "otp") <==> r.value.Some?
    ensures r.value.Some? ==> r.value.value == body["otp"].text
  {
    var r := ParseString(OtpSchema(), "otp", Get(body, "otp"));
    assert IsText(body, "otp") ==> (|body["otp"].text| == 6 <==> Holds(OtpSchema().checks[0], body["otp"].text) && Holds(OtpSchema().checks[1], body["otp"].text));
    r
  }

  /** `verifyOtpSchema`: an address and a code of exactly six characters. */
  function ParseVerifyOtp(body: Body, isEmail: string -> bool): (r: Result<VerifyOtpRequest, AppError>)
    ensures r.Ok? <==> EmailValid(body, isEmail) && OtpValid(body)
    ensures r.Ok? ==> r.value == VerifyOtpRequest(NormalEmail(body["email"].text), body["otp"].text)
  {
    var email := EmailAt(body, isEmail);
    var otp := OtpAt(body);
    if email.Passes() && otp.Passes() then Verdict(email.issues + otp.issues, VerifyOtpRequest(email.value.value, otp.value.value))
    else Err(ZodError(email.issues + otp.issues))
  }

  /** Every code `generateOTP` produces passes the code's schema. */
  lemma GeneratedOtpAccepted(email: string, random: Generate.Uint32, isEmail: string -> bool)
    requires isEmail(NormalEmail(email))
    ensures ParseVerifyOtp(map["email" := Str(email), "otp" := Str(Generate.GenerateOtp(random))], isEmail).Ok?
  {
  }

  /** `forgotPasswordSchema`. */
  function ParseForgot(body: Body, isEmail: string -> bool): (r: Result<string, AppError>)
    ensures r.Ok? <==> EmailValid(body, isEmail)
    ensures r.Ok? ==> r.value == NormalEmail(body["email"].text)
  {
    var email := EmailAt(body, isEmail);
    if email.Passes() then Verdict(email.issues, email.value.value) else Err(ZodError(email.issues))
  }

  /** The reset schema's two checks on the token: `.uuid()`, then `.length(64)`. */
  function TokenAsWritten(): StringSchema {
    StringSchema(false, false, [Format(IsUuidText, InvalidUuid), ExactLength(64, InvalidToken)])
  }

  function ResetWith(body: Body, token: StringSchema): Result<ResetRequest, AppError> {
    var t := ParseString(token, "token", Get(body, "token"));
    var password := MinAt(body, "password", PasswordSchema());
    var confirm := MinAt(body, "confirmPassword", ConfirmSchema());
    var issues := t.issues + password.issues + confirm.issues + (if t.value.Some? then Mismatch(password, confirm) else []);
    if t.Passes() && password.Passes() && confirm.Passes() then
      Verdict(issues, ResetRequest(t.value.value, password.value.value, confirm.value.value))
    else Err(ZodError(issues))
  }

  /** `resetPasswordSchema` as written. */
  function ParseResetAsWritten(body: Body): Result<ResetRequest, AppError> {
    ResetWith(body, TokenAsWritten())
  }

  /** A UUID text is 36 characters long, so no token is both a UUID and 64 characters: every reset body is rejected. */
  lemma ResetAsWrittenRejectsAll(body: Body)
    ensures ParseResetAsWritten(body).Err?
  {
    var t := ParseString(TokenAsWritten(), "token", Get(body, "token"));
    if t.value.Some? {
      var s := t.value.value;
      assert !(Holds(TokenAsWritten().checks[0], s) && Holds(TokenAsWritten().checks[1], s));
    }
  }

  /** What `generateToken(32)` writes: 64 lower-case hexadecimal digits. */
  predicate IsResetToken(s: string) {
    |s| == 64 && forall i :: 0 <= i < |s| ==> Generate.IsLowerHexDigit(s[i])
  }

  function TokenSchema(): StringSchema {
    StringSchema(false, false, [Format(IsResetToken, InvalidToken)])
  }

  /** The reset schema with a token check that `generateToken`'s tokens can pass. */
  function ParseReset(body: Body): (r: Result<ResetRequest, AppError>)
    ensures r.Ok? <==> IsText(body, "token") && IsResetToken(body["token"].text) && PasswordsValid(body)
    ensures r.Ok? ==> r.value == ResetRequest(body["token"].text, body["password"].text, body["confirmPassword"].text)
  {
    ResetWith(body, TokenSchema())
  }

  lemma {:induction false} GeneratedTokenIsHex(bytes: seq<Generate.Byte>)
    ensures forall i :: 0 <= i < |Generate.GenerateToken(bytes)| ==> Generate.IsLowerHexDigit(Generate.GenerateToken(bytes)[i])
  {
    var t := Generate.GenerateToken(bytes);
    forall i | 0 <= i < |t| ensures Generate.IsLowerHexDigit(t[i]) {
      Generate.TokenNibbles(bytes, i / 2);
    }
  }

  /** Every token `forgotPassword` mails out passes the corrected reset schema, given matching passwords. */
  lemma GeneratedTokenAccepted(bytes: seq<Generate.Byte>, password: string)
    requires |bytes| == Generate.DefaultTokenBytes
    requires |password| >= MinPassword
    ensures ParseReset(map["token" := Str(Generate.GenerateToken(bytes)), "password" := Str(password), "confirmPassword" := Str(password)]).Ok?
  {
    var token := Generate.GenerateToken(bytes);
    var body := map["token" := Str(token), "password" := Str(password), "confirmPassword" := Str(password)];
    Generate.DefaultTokenLength(bytes);
    GeneratedTokenIsHex(bytes);
    assert IsResetToken(token);
    assert body["token"] == Str(token) && IsText(body, "token");
    assert body["password"] == Str(password) && body["confirmPassword"] == Str(password);
    assert PasswordsValid(body);
  }

  predicate ChangeValid(body: Body) {
    LongEnough(body, "currentPassword", 1) && PasswordsValid(body)
  }

  /** `changePasswordSchema`: the current password, and the new one twice. */
  function ParseChangePassword(body: Body): (r: Result<ChangePasswordRequest, AppError>)
    ensures r.Ok? <==> ChangeValid(body)
    ensures r.Ok? ==> r.value == ChangePasswordRequest(body["currentPassword"].text, body["password"].text, body["confirmPassword"].text)
  {
    var current := MinAt(body, "currentPassword", StringSchema(false, false, [MinLength(1, CurrentRequired)]));
    var password := MinAt(body, "password", PasswordSchema());
    var confirm := MinAt(body, "confirmPassword", ConfirmSchema());
    var issues := current.issues + password.issues + confirm.issues + (if current.value.Some? then Mismatch(password, confirm) else []);
    if current.Passes() && password.Passes() && confirm.Passes() then
      Verdict(issues, ChangePasswordRequest(current.value.value, password.value.value, confirm.value.value))
    else Err(ZodError(issues))
  }
}

=== FILE: auth_services.dfy ===
/**
 * The auth service (src/modules/auth/auth.services.ts) as a state machine
 * over the user table and the Redis cache.
 *
 * The cache holds three families of keys, `verify:<email>` (the pending
 * registration, 30 minutes), `otp:<email>` (the code, 10 minutes) and
 * `forgot:<token>` (the address a reset link is for, 30 minutes). The
 * prefixes keep the families apart (`KeyFamiliesDisjoint`), so the model
 * keeps one map per family, keyed by what follows the prefix. A key is
 * live while the clock is before its expiry; the clock reading is a
 * parameter in milliseconds.
 *
 * bcrypt is a parameter `hash`; `comparePassword(p, h)` holds exactly when
 * `hash(p) == h`. The random words and bytes behind the OTP and the reset
 * token are parameters, and so is `encodeURIComponent` in the avatar URL.
 */
module AuthServices {
  import opened Wrappers
  import opened Failures
  import opened Store
  import Generate
  import Jwt
  import opened AuthModels

  /** A row of the user table. */
  datatype User = User(id: Id, name: string, email: string, image: string, hashedPassword: string, createdAt: Time)

  /** What `userSchema` keeps of a row: everything but the hash. */
  datatype UserView = UserView(id: Id, name: string, email: string, image: string, createdAt: Time)

  /** The registration waiting for its code, as `JSON.stringify` wrote it. */
  datatype Pending = Pending(name: string, email: string, password: string, confirmPassword: Option<string>)

  /** A cache value and the instant, in milliseconds, it expires. */
  datatype Entry<T> = Entry(value: T, expiresAt: int)

  datatype AuthState = AuthState(
    users: seq<User>,
    pending: map<string, Entry<Pending>>,
    otps: map<string, Entry<string>>,
    resets: map<string, Entry<string>>,
    nextId: Id)

  /** A service call's new state together with what it returns or throws. */
  datatype Outcome<T> = Outcome(state: AuthState, result: Result<T, AppError>)

  /** The user, and the claims of the access and refresh tokens signed for them. */
  datatype Session = Session(user: UserView, access: Jwt.Claims, refresh: Jwt.Claims)

  const PendingSeconds: nat := 30 * 60
  const OtpSeconds: nat := 10 * 60
  const ResetSeconds: nat := 30 * 60

  const EmailTaken: string := "Email already exists"
  const Registered: string := "Registration successful. Please check your email "
  const ExpiredToken: string := "Invalid or expired token"
  const BadLogin: string := "Invalid email or password"
  const UserNotFound: string := "User not found"
  const LinkSent: string := "forgot password link sent to your email"
  const ResetDone: string := "Password reset successful"
  const WrongCurrent: string := "Invalid current password"
  const PasswordChanged: string := "Password changed successfully"
  const DuplicateEmail: string := "Unique constraint failed on the fields: (`email`)"

  function VerifyKey(email: string): string { "verify:" + email }
  function OtpKey(email: string): string { "otp:" + email }
  function ForgotKey(token: string): string { "forgot:" + token }

  /** No key of one family is a key of another, and each family's key determines what follows its prefix. */
  lemma KeyFamiliesDisjoint(a: string, b: string)
    ensures VerifyKey(a) != OtpKey(b) && VerifyKey(a) != ForgotKey(b) && OtpKey(a) != ForgotKey(b)
    ensures VerifyKey(a) == VerifyKey(b) ==> a == b
    ensures OtpKey(a) == OtpKey(b) ==> a == b
    ensures ForgotKey(a) == ForgotKey(b) ==> a == b
  {
    assert VerifyKey(a)[0] == 'v' && OtpKey(b)[0] == 'o' && ForgotKey(b)[0] == 'f';
    assert OtpKey(a)[0] == 'o';
    if VerifyKey(a) == VerifyKey(b) {
      assert a == VerifyKey(a)[7..] && b == VerifyKey(b)[7..];
    }
    if OtpKey(a) == OtpKey(b) {
      assert a == OtpKey(a)[4..] && b == OtpKey(b)[4..];
    }
    if ForgotKey(a) == ForgotKey(b) {
      assert a == ForgotKey(a)[7..] && b == ForgotKey(b)[7..];
    }
  }

  /** `redis.get`: the value while the key is live. */
  function Live<T>(m: map<string, Entry<T>>, key: string, nowMs: int): (r: Option<T>)
    ensures r.Some? <==> key in m && nowMs < m[key].expiresAt
    ensures r.Some? ==> r.value == m[key].value
  {
    if key in m && nowMs < m[key].expiresAt then Some(m[key].value) else None
  }

  /** `redis.set(key, value, "EX", seconds)`. */
  function Put<T>(m: map<string, Entry<T>>, key: string, value: T, nowMs: int, seconds: nat): (r: map<string, Entry<T>>)
    ensures key in r && r[key].value == value && r[key].expiresAt == nowMs + seconds * 1000
    ensures forall k :: k != key ==> (k in r <==> k in m) && (k in r ==> r[k] == m[k])
  {
    m[key := Entry(value, nowMs + seconds * 1000)]
  }

  /** A key set for some seconds is live with its value for exactly that long, and no other key changes. */
  lemma PutLifetime<T>(m: map<string, Entry<T>>, key: string, value: T, nowMs: int, seconds: nat, t: int)
    ensures t < nowMs + seconds * 1000 ==> Live(Put(m, key, value, nowMs, seconds), key, t) == Some(value)
    ensures t >= nowMs + seconds * 1000 ==> Live(Put(m, key, value, nowMs, seconds), key, t).None?
    ensures forall k :: k != key ==> Live(Put(m, key, value, nowMs, seconds), k, t) == Live(m, k, t)
  {
  }

  /** `redis.del`. */
  function Drop<T>(m: map<string, Entry<T>>, key: string): (r: map<string, Entry<T>>)
    ensures key !in r
    ensures forall k :: k != key ==> (k in r <==> k in m) && (k in r ==> r[k] == m[k])
  {
    m - {key}
  }

  /** `bcrypt.compare`. */
  predicate Matches(hash: string -> string, password: string, hashed: string) {
    hash(password) == hashed
  }

  /** `findUnique({ where: { email } })`. */
  function FindByEmail(users: seq<User>, email: string): (r: Option<User>)
    ensures r.Some? ==> r.value in users && r.value.email == email
    ensures r.None? ==> forall u :: u in users ==> u.email != email
  {
    if users == [] then None
    else if users[0].email == email then Some(users[0])
    else FindByEmail(users[1..], email)
  }

  /** `findUnique({ where: { id } })`. */
  function FindById(users: seq<User>, id: Id): (r: Option<User>)
    ensures r.Some? ==> r.value in users && r.value.id == id
    ensures r.None? ==> forall u :: u in users ==> u.id != id
  {
    if users == [] then None
    else if users[0].id == id then Some(users[0])
    else FindById(users[1..], id)
  }

  /** `update({ where: { email }, data: { hashedPassword } })`. */
  function SetHashByEmail(users: seq<User>, email: string, hashed: string): (r: seq<User>)
    ensures |r| == |users|
    ensures forall i :: 0 <= i < |users| ==>
              r[i] == if users[i].email == email then users[i].(hashedPassword := hashed) else users[i]
  {
    seq(|users|, i requires 0 <= i < |users| => if users[i].email == email then users[i].(hashedPassword := hashed) else users[i])
  }

  /** `update({ where: { id }, data: { hashedPassword } })`. */
  function SetHashById(users: seq<User>, id: Id, hashed: string): (r: seq<User>)
    ensures |r| == |users|
    ensures forall i :: 0 <= i < |users| ==>
              r[i] == if users[i].id == id then users[i].(hashedPassword := hashed) else users[i]
  {
    seq(|users|, i requires 0 <= i < |users| => if users[i].id == id then users[i].(hashedPassword := hashed) else users[i])
  }

  /** The table's unique constraints, and ids below the counter. */
  predicate Valid(s: AuthState) {
    && (forall i, j :: 0 <= i < j < |s.users| ==> s.users[i].id != s.users[j].id)
    && (forall i, j :: 0 <= i < j < |s.users| ==> s.users[i].email != s.users[j].email)
    && (forall i :: 0 <= i < |s.users| ==> s.users[i].id < s.nextId)
  }

  /** With unique addresses, the lookup by address finds the one row that has it. */
  lemma {:induction false} FindByEmailUnique(users: seq<User>, u: User)
    requires forall i, j :: 0 <= i < j < |users| ==> users[i].email != users[j].email
    requires u in users
    ensures FindByEmail(users, u.email) == Some(u)
  {
    if users[0] != u {
      assert users[0].email != u.email;
      FindByEmailUnique(users[1..], u);
    }
  }

  /** With unique ids, the lookup by id finds the one row that has it. */
  lemma {:induction false} FindByIdUnique(users: seq<User>, u: User)
    requires forall i, j :: 0 <= i < j < |users| ==> users[i].id != users[j].id
    requires u in users
    ensures FindById(users, u.id) == Some(u)
  {
    if users[0] != u {
      assert users[0].id != u.id;
      FindByIdUnique(users[1..], u);
    }
  }

  function View(u: User): (v: UserView)
    ensures v.id == u.id && v.name == u.name && v.email == u.email && v.image == u.image && v.createdAt == u.createdAt
  {
    UserView(u.id, u.name, u.email, u.image, u.createdAt)
  }

  /** The tokens `generateAccessToken` and `generateRefreshToken` sign for a user. */
  function SessionFor(u: User, nowMs: int): (r: Session)
    ensures r.user == View(u)
    ensures r.access.userId == u.id && r.access.email == u.email && r.access.exp == Jwt.NowSeconds(nowMs) + Jwt.AccessExpiry
    ensures r.refresh.userId == u.id && r.refresh.email == u.email && r.refresh.exp == Jwt.NowSeconds(nowMs) + Jwt.RefreshExpiry
  {
    var payload := Jwt.Payload(u.id, u.email, None);
    Session(View(u), Jwt.AccessClaims(payload, nowMs), Jwt.RefreshClaims(payload, nowMs))
  }

  const AvatarBase: string := "https://ui-avatars.com/api/?name="
  const AvatarOptions: string := "&background=random&size=128&bold=true"

  /** `generateAvatar`: the ui-avatars URL for the URI-encoded name. */
  function Avatar(encode: string -> string, name: string): (r: string)
    ensures |r| == |AvatarBase| + |encode(name)| + |AvatarOptions|
    ensures r[..|AvatarBase|] == AvatarBase && r[|r| - |AvatarOptions|..] == AvatarOptions
    ensures r[|AvatarBase|..|r| - |AvatarOptions|] == encode(name)
  {
    AvatarBase + encode(name) + AvatarOptions
  }

  /** The URL carries the encoded name and nothing else varies: two names get one avatar exactly when they encode alike. */
  lemma AvatarDeterminesName(encode: string -> string, a: string, b: string)
    ensures Avatar(encode, a) == Avatar(encode, b) <==> encode(a) == encode(b)
  {
  }

  /** The registration step shared by both versions: the address check, then the two keys with the new code. */
  function RegisterWith(s: AuthState, req: RegisterRequest, record: Pending, random: Generate.Uint32, nowMs: int): AuthState {
    s.(pending := Put(s.pending, req.email, record, nowMs, PendingSeconds),
       otps := Put(s.otps, req.email, Generate.GenerateOtp(random), nowMs, OtpSeconds))
  }

  /**
   * `AuthServices.register` as written: the whole request goes into the
   * cache with its password replaced by the hash, so the confirmation
   * field still holds the password in plain text.
   */
  function RegisterAsWritten(s: AuthState, req: RegisterRequest, hash: string -> string, random: Generate.Uint32, nowMs: int): (r: Outcome<string>)
    ensures FindByEmail(s.users, req.email).Some? ==> r == Outcome(s, Err(BadRequest(EmailTaken)))
    ensures FindByEmail(s.users, req.email).None? ==> r.result == Ok(Registered)
  {
    if FindByEmail(s.users, req.email).Some? then Outcome(s, Err(BadRequest(EmailTaken)))
    else
      var record := Pending(req.name, req.email, hash(req.password), Some(req.confirmPassword));
      Outcome(RegisterWith(s, req, record, random, nowMs), Ok(Registered))
  }

  /** The cached registration of the as-written service keeps the password itself. */
  lemma RegisterAsWrittenKeepsPlaintext(s: AuthState, req: RegisterRequest, hash: string -> string, random: Generate.Uint32, nowMs: int)
    requires FindByEmail(s.users, req.email).None?
    requires req.password == req.confirmPassword
    ensures var r := RegisterAsWritten(s, req, hash, random, nowMs);
            Live(r.state.pending, req.email, nowMs) == Some(Pending(req.name, req.email, hash(req.password), Some(req.password)))
  {
  }

  /**
   * `AuthServices.register` keeping only the name, the address and the
   * hash. A taken address is refused with nothing written; otherwise the
   * pending record and a fresh code replace any earlier ones for the same
   * address, live for 30 and 10 minutes.
   */
  function Register(s: AuthState, req: RegisterRequest, hash: string -> string, random: Generate.Uint32, nowMs: int): (r: Outcome<string>)
    ensures r.result.Ok? <==> forall u :: u in s.users ==> u.email != req.email
    ensures r.result.Err? ==> r == Outcome(s, Err(BadRequest(EmailTaken)))
    ensures r.result.Ok? ==>
              && r.result.value == Registered
              && r.state.users == s.users && r.state.resets == s.resets && r.state.nextId == s.nextId
              && r.state.pending == s.pending[req.email := Entry(Pending(req.name, req.email, hash(req.password), None), nowMs + PendingSeconds * 1000)]
              && r.state.otps == s.otps[req.email := Entry(Generate.GenerateOtp(random), nowMs + OtpSeconds * 1000)]
  {
    if FindByEmail(s.users, req.email).Some? then Outcome(s, Err(BadRequest(EmailTaken)))
    else Outcome(RegisterWith(s, req, Pending(req.name, req.email, hash(req.password), None), random, nowMs), Ok(Registered))
  }

  /** Both versions change the same keys and differ only in what the pending record holds. */
  lemma RegisterVersionsAgree(s: AuthState, req: RegisterRequest, hash: string -> string, random: Generate.Uint32, nowMs: int)
    ensures var w := RegisterAsWritten(s, req, hash, random, nowMs);
            var c := Register(s, req, hash, random, nowMs);
            && w.result == c.result
            && (c.result.Err? ==> w.state == c.state)
            && (c.result.Ok? ==> w.state == c.state.(pending := s.pending[req.email := Entry(Pending(req.name, req.email, hash(req.password), Some(req.confirmPassword)), nowMs + PendingSeconds * 1000)]))
  {
  }

  /** Registering again before verifying replaces the earlier code: only the latest one is live. */
  lemma RegisterAgainReplacesCode(s: AuthState, req: RegisterRequest, hash: string -> string, r1: Generate.Uint32, r2: Generate.Uint32, t1: int, t2: int)
    requires forall u :: u in s.users ==> u.email != req.email
    requires t1 <= t2
    ensures var once := Register(s, req, hash, r1, t1).state;
            Live(Register(once, req, hash, r2, t2).state.otps, req.email, t2) == Some(Generate.GenerateOtp(r2))
  {
  }

  /**
   * `AuthServices.verifyToken`. The pending record must be live and the
   * submitted code equal to the live stored one; an expired or missing
   * code fails like a wrong one. On success one user is created from the
   * record, both keys are deleted and a session is returned. A record
   * for an address that is meanwhile taken fails the table's unique
   * constraint before the keys are deleted.
   */
  function VerifyToken(s: AuthState, req: VerifyOtpRequest, encode: string -> string, nowMs: int): (r: Outcome<Session>)
    ensures Live(s.pending, req.email, nowMs).None? || Live(s.otps, req.email, nowMs) != Some(req.otp) ==>
              r == Outcome(s, Err(BadRequest(ExpiredToken)))
    ensures r.result.Ok? ==>
              && Live(s.pending, req.email, nowMs).Some? && Live(s.otps, req.email, nowMs) == Some(req.otp)
              && var p := s.pending[req.email].value;
                 && (forall u :: u in s.users ==> u.email != p.email)
                 && var u := User(s.nextId, p.name, p.email, Avatar(encode, p.name), p.password, nowMs);
                    && r.state.users == s.users + [u]
                    && r.state.nextId == s.nextId + 1
                    && r.result.value == SessionFor(u, nowMs)
                    && r.state.pending == s.pending - {req.email}
                    && r.state.otps == s.otps - {req.email}
                    && r.state.resets == s.resets
    ensures r.result.Err? ==> r.state == s
  {
    match Live(s.pending, req.email, nowMs)
    case None => Outcome(s, Err(BadRequest(ExpiredToken)))
    case Some(p) =>
      if Live(s.otps, req.email, nowMs) != Some(req.otp) then Outcome(s, Err(BadRequest(ExpiredToken)))
      else if FindByEmail(s.users, p.email).Some? then Outcome(s, Err(OtherError(DuplicateEmail)))
      else
        var u := User(s.nextId, p.name, p.email, Avatar(encode, p.name), p.password, nowMs);
        var s' := s.(users := s.users + [u], nextId := s.nextId + 1,
                     pending := Drop(s.pending, req.email), otps := Drop(s.otps, req.email));
        Outcome(s', Ok(SessionFor(u, nowMs)))
  }

  /** A code verifies once: the same request right after a success fails. */
  lemma CodeSingleUse(s: AuthState, req: VerifyOtpRequest, encode: string -> string, nowMs: int, later: int)
    requires VerifyToken(s, req, encode, nowMs).result.Ok?
    ensures var s' := VerifyToken(s, req, encode, nowMs).state;
            VerifyToken(s', req, encode, later) == Outcome(s', Err(BadRequest(ExpiredToken)))
  {
  }

  /** Without a live code equal to the submitted one, verification fails and changes nothing. */
  lemma VerifyNeedsLiveCode(s: AuthState, req: VerifyOtpRequest, encode: string -> string, nowMs: int)
    requires Live(s.otps, req.email, nowMs) != Some(req.otp)
    ensures VerifyToken(s, req, encode, nowMs) == Outcome(s, Err(BadRequest(ExpiredToken)))
  {
  }

  /** Ten minutes after registering, the code no longer verifies. */
  lemma CodeExpires(s: AuthState, req: RegisterRequest, hash: string -> string, random: Generate.Uint32, nowMs: int,
                    encode: string -> string, later: int)
    requires forall u :: u in s.users ==> u.email != req.email
    requires later >= nowMs + OtpSeconds * 1000
    ensures var s' := Register(s, req, hash, random, nowMs).state;
            VerifyToken(s', VerifyOtpRequest(req.email, Generate.GenerateOtp(random)), encode, later).result
              == Err(BadRequest(ExpiredToken))
  {
    var s' := Register(s, req, hash, random, nowMs).state;
    assert Live(s'.otps, req.email, later).None?;
    VerifyNeedsLiveCode(s', VerifyOtpRequest(req.email, Generate.GenerateOtp(random)), encode, later);
  }

  lemma VerifyKeepsValid(s: AuthState, req: VerifyOtpRequest, encode: string -> string, nowMs: int)
    requires Valid(s)
    ensures Valid(VerifyToken(s, req, encode, nowMs).state)
  {
  }

  /**
   * `AuthServices.login`. An unknown address and a wrong password get the
   * same answer; otherwise the user's session.
   */
  function Login(s: AuthState, req: LoginRequest, hash: string -> string, nowMs: int): (r: Result<Session, AppError>)
    ensures r.Ok? <==> FindByEmail(s.users, req.email).Some? && Matches(hash, req.password, FindByEmail(s.users, req.email).value.hashedPassword)
    ensures Valid(s) ==> (r.Ok? <==> exists u :: u in s.users && u.email == req.email && Matches(hash, req.password, u.hashedPassword))
    ensures r.Err? ==> r.error == BadRequest(BadLogin)
    ensures r.Ok? ==> r.value.user.email == req.email && r.value.access.email == req.email
  {
    assert Valid(s) && FindByEmail(s.users, req.email).Some? ==>
             forall u :: u in s.users && u.email == req.email ==> u == FindByEmail(s.users, req.email).value by {
      if Valid(s) && FindByEmail(s.users, req.email).Some? {
        forall u | u in s.users && u.email == req.email ensures u == FindByEmail(s.users, req.email).value {
          FindByEmailUnique(s.users, u);
        }
      }
    }
    match FindByEmail(s.users, req.email)
    case None => Err(BadRequest(BadLogin))
    case Some(u) =>
      if !Matches(hash, req.password, u.hashedPassword) then Err(BadRequest(BadLogin))
      else Ok(SessionFor(u, nowMs))
  }

  /** A wrong password cannot be told apart from an unknown address. */
  lemma LoginErrorsIdentical(s: AuthState, known: LoginRequest, unknown: LoginRequest, hash: string -> string, nowMs: int)
    requires Valid(s)
    requires exists u :: u in s.users && u.email == known.email && !Matches(hash, known.password, u.hashedPassword)
    requires forall u :: u in s.users ==> u.email != unknown.email
    ensures Login(s, known, hash, nowMs) == Login(s, unknown, hash, nowMs) == Err(BadRequest(BadLogin))
  {
    var u :| u in s.users && u.email == known.email && !Matches(hash, known.password, u.hashedPassword);
    FindByEmailUnique(s.users, u);
  }

  /** A live pending record, the matching live code and a free address: verification creates the user. */
  lemma VerifyWithLiveCode(s: AuthState, req: VerifyOtpRequest, p: Pending, encode: string -> string, nowMs: int)
    requires Live(s.pending, req.email, nowMs) == Some(p)
    requires Live(s.otps, req.email, nowMs) == Some(req.otp)
    requires forall u :: u in s.users ==> u.email != p.email
    ensures var v := VerifyToken(s, req, encode, nowMs);
            v.result.Ok? && v.state.users == s.users + [User(s.nextId, p.name, p.email, Avatar(encode, p.name), p.password, nowMs)]
  {
  }

  /** Verifying with the mailed code within ten minutes of registering creates the user. */
  lemma VerifyAfterRegister(s: AuthState, req: RegisterRequest, hash: string -> string, random: Generate.Uint32,
                            encode: string -> string, t0: int, t1: int)
    requires forall u :: u in s.users ==> u.email != req.email
    requires t0 <= t1 < t0 + OtpSeconds * 1000
    ensures var s1 := Register(s, req, hash, random, t0).state;
            var v := VerifyToken(s1, VerifyOtpRequest(req.email, Generate.GenerateOtp(random)), encode, t1);
            v.result.Ok? && v.state.users == s.users + [User(s.nextId, req.name, req.email, Avatar(encode, req.name), hash(req.password), t1)]
  {
    var s1 := Register(s, req, hash, random, t0).state;
    PendingLiveAfterRegister(s, req, hash, random, t0, t1);
    CodeLiveAfterRegister(s, req, hash, random, t0, t1);
    VerifyWithLiveCode(s1, VerifyOtpRequest(req.email, Generate.GenerateOtp(random)), Pending(req.name, req.email, hash(req.password), None), encode, t1);
  }

  /** Within half an hour of registering, the pending record is live. */
  lemma PendingLiveAfterRegister(s: AuthState, req: RegisterRequest, hash: string -> string, random: Generate.Uint32, t0: int, t1: int)
    requires forall u :: u in s.users ==> u.email != req.email
    requires t0 <= t1 < t0 + PendingSeconds * 1000
    ensures Live(Register(s, req, hash, random, t0).state.pending, req.email, t1) == Some(Pending(req.name, req.email, hash(req.password), None))
  {
  }

  /** Within ten minutes of registering, the mailed code is live. */
  lemma CodeLiveAfterRegister(s: AuthState, req: RegisterRequest, hash: string -> string, random: Generate.Uint32, t0: int, t1: int)
    requires forall u :: u in s.users ==> u.email != req.email
    requires t0 <= t1 < t0 + OtpSeconds * 1000
    ensures Live(Register(s, req, hash, random, t0).state.otps, req.email, t1) == Some(Generate.GenerateOtp(random))
  {
  }

  /** Register, verify with the mailed code within ten minutes, then log in with the password: it succeeds. */
  lemma RegisterVerifyLogin(s: AuthState, req: RegisterRequest, hash: string -> string, random: Generate.Uint32,
                            encode: string -> string, t0: int, t1: int, t2: int)
    requires Valid(s)
    requires forall u :: u in s.users ==> u.email != req.email
    requires t0 <= t1 < t0 + OtpSeconds * 1000
    ensures var s1 := Register(s, req, hash, random, t0).state;
            var v := VerifyToken(s1, VerifyOtpRequest(req.email, Generate.GenerateOtp(random)), encode, t1);
            v.result.Ok? && Login(v.state, LoginRequest(req.email, req.password), hash, t2).Ok?
  {
    var s1 := Register(s, req, hash, random, t0).state;
    var v := VerifyToken(s1, VerifyOtpRequest(req.email, Generate.GenerateOtp(random)), encode, t1);
    var u := User(s.nextId, req.name, req.email, Avatar(encode, req.name), hash(req.password), t1);
    RegisteredUserStored(s, req, hash, random, encode, t0, t1);
    LoginAsStored(v.state, u, req.password, hash, t2);
  }

  /** After registering and verifying in time, the store is valid and holds the new user with the password's hash. */
  lemma RegisteredUserStored(s: AuthState, req: RegisterRequest, hash: string -> string, random: Generate.Uint32,
                             encode: string -> string, t0: int, t1: int)
    requires Valid(s)
    requires forall u :: u in s.users ==> u.email != req.email
    requires t0 <= t1 < t0 + OtpSeconds * 1000
    ensures var s1 := Register(s, req, hash, random, t0).state;
            var v := VerifyToken(s1, VerifyOtpRequest(req.email, Generate.GenerateOtp(random)), encode, t1);
            && v.result.Ok? && Valid(v.state)
            && User(s.nextId, req.name, req.email, Avatar(encode, req.name), hash(req.password), t1) in v.state.users
  {
    var s1 := Register(s, req, hash, random, t0).state;
    var v := VerifyToken(s1, VerifyOtpRequest(req.email, Generate.GenerateOtp(random)), encode, t1);
    assert s1.users == s.users && s1.nextId == s.nextId;
    VerifyKeepsValid(s1, VerifyOtpRequest(req.email, Generate.GenerateOtp(random)), encode, t1);
    var u := User(s.nextId, req.name, req.email, Avatar(encode, req.name), hash(req.password), t1);
    assert v.state.users[|s.users|] == u;
  }

  /** A stored user logs in with the password whose hash the row holds. */
  lemma LoginAsStored(s: AuthState, u: User, password: string, hash: string -> string, nowMs: int)
    requires Valid(s) && u in s.users && u.hashedPassword == hash(password)
    ensures Login(s, LoginRequest(u.email, password), hash, nowMs).Ok?
  {
    FindByEmailUnique(s.users, u);
  }

  /** `AuthServices.refreshSession`: new tokens for the signed-in user, 404 when the row is gone. */
  function RefreshSession(s: AuthState, userId: Id, nowMs: int): (r: Result<Session, AppError>)
    ensures r.Ok? <==> exists u :: u in s.users && u.id == userId
    ensures r.Err? ==> r.error == NotFound(UserNotFound)
    ensures r.Ok? ==> r.value.user.id == userId && r.value.access.userId == userId && r.value.refresh.userId == userId
  {
    match FindById(s.users, userId)
    case None => Err(NotFound(UserNotFound))
    case Some(u) => Ok(SessionFor(u, nowMs))
  }

  /** `AuthServices.getSession`: the user's public fields, 404 when the row is gone. */
  function GetSession(s: AuthState, userId: Id): (r: Result<UserView, AppError>)
    ensures r.Ok? <==> exists u :: u in s.users && u.id == userId
    ensures r.Err? ==> r.error == NotFound(UserNotFound)
    ensures r.Ok? ==> exists u :: u in s.users && u.id == userId && r.value == View(u)
  {
    match FindById(s.users, userId)
    case None => Err(NotFound(UserNotFound))
    case Some(u) => Ok(View(u))
  }

  /** The session refreshed for a user describes the same user `getSession` returns. */
  lemma RefreshMatchesGetSession(s: AuthState, userId: Id, nowMs: int)
    ensures RefreshSession(s, userId, nowMs).Ok? <==> GetSession(s, userId).Ok?
    ensures RefreshSession(s, userId, nowMs).Ok? ==> RefreshSession(s, userId, nowMs).value.user == GetSession(s, userId).value
  {
  }

  /**
   * `AuthServices.forgotPassword`. The answer is the same whether or not
   * the address belongs to a user; only for a user is a token stored,
   * pointing at the address for 30 minutes.
   */
  function ForgotPassword(s: AuthState, email: string, bytes: seq<Generate.Byte>, nowMs: int): (r: Outcome<string>)
    ensures r.result == Ok(LinkSent)
    ensures (forall u :: u in s.users ==> u.email != email) ==> r.state == s
    ensures (exists u :: u in s.users && u.email == email) ==>
              r.state == s.(resets := s.resets[Generate.GenerateToken(bytes) := Entry(email, nowMs + ResetSeconds * 1000)])
  {
    if FindByEmail(s.users, email).None? then Outcome(s, Ok(LinkSent))
    else Outcome(s.(resets := Put(s.resets, Generate.GenerateToken(bytes), email, nowMs, ResetSeconds)), Ok(LinkSent))
  }

  /**
   * `AuthServices.resetPassword`. A token that is not live fails; a live
   * one is deleted before the user check, so it is spent even when the
   * user has meanwhile gone.
   */
  function ResetPassword(s: AuthState, req: ResetRequest, hash: string -> string, nowMs: int): (r: Outcome<string>)
    ensures Live(s.resets, req.token, nowMs).None? ==> r == Outcome(s, Err(BadRequest(ExpiredToken)))
    ensures Live(s.resets, req.token, nowMs).Some? ==>
              && r.state.resets == s.resets - {req.token}
              && r.state.pending == s.pending && r.state.otps == s.otps && r.state.nextId == s.nextId
              && var email := s.resets[req.token].value;
                 && (r.result.Ok? <==> exists u :: u in s.users && u.email == email)
                 && (r.result.Ok? ==> r.result.value == ResetDone && r.state.users == SetHashByEmail(s.users, email, hash(req.password)))
                 && (r.result.Err? ==> r.result.error == NotFound(UserNotFound) && r.state.users == s.users)
  {
    match Live(s.resets, req.token, nowMs)
    case None => Outcome(s, Err(BadRequest(ExpiredToken)))
    case Some(email) =>
      var spent := s.(resets := Drop(s.resets, req.token));
      if FindByEmail(s.users, email).None? then Outcome(spent, Err(NotFound(UserNotFound)))
      else Outcome(spent.(users := SetHashByEmail(s.users, email, hash(req.password))), Ok(ResetDone))
  }

  /** A reset token works at most once. */
  lemma ResetTokenSingleUse(s: AuthState, req: ResetRequest, again: ResetRequest, hash: string -> string, nowMs: int, later: int)
    requires nowMs <= later
    requires again.token == req.token
    ensures var s' := ResetPassword(s, req, hash, nowMs).state;
            ResetPassword(s', again, hash, later) == Outcome(s', Err(BadRequest(ExpiredToken)))
  {
    var s' := ResetPassword(s, req, hash, nowMs).state;
    if Live(s.resets, req.token, nowMs).Some? {
      assert req.token !in s'.resets;
    } else {
      assert s' == s;
      assert Live(s'.resets, req.token, later).None?;
    }
  }

  /** Ask for a link, then reset with the mailed token: the new password logs in. */
  lemma ForgotResetLogin(s: AuthState, email: string, bytes: seq<Generate.Byte>, password: string, hash: string -> string,
                         t0: int, t1: int, t2: int)
    requires Valid(s)
    requires exists u :: u in s.users && u.email == email
    requires t0 <= t1 < t0 + ResetSeconds * 1000
    ensures var s1 := ForgotPassword(s, email, bytes, t0).state;
            var r := ResetPassword(s1, ResetRequest(Generate.GenerateToken(bytes), password, password), hash, t1);
            r.result == Ok(ResetDone) && Login(r.state, LoginRequest(email, password), hash, t2).Ok?
  {
    var u :| u in s.users && u.email == email;
    var s1 := ForgotPassword(s, email, bytes, t0).state;
    var r := ResetPassword(s1, ResetRequest(Generate.GenerateToken(bytes), password, password), hash, t1);
    assert Live(s1.resets, Generate.GenerateToken(bytes), t1) == Some(email);
    var i :| 0 <= i < |s.users| && s.users[i] == u;
    assert r.state.users[i] == u.(hashedPassword := hash(password));
  }

  lemma ResetKeepsValid(s: AuthState, req: ResetRequest, hash: string -> string, nowMs: int)
    requires Valid(s)
    ensures Valid(ResetPassword(s, req, hash, nowMs).state)
  {
  }

  /**
   * `AuthServices.changePassword`. The current password must match the
   * stored hash; only then is the hash replaced, on that user's row alone.
   */
  function ChangePassword(s: AuthState, userId: Id, req: ChangePasswordRequest, hash: string -> string): (r: Outcome<string>)
    ensures (forall u :: u in s.users ==> u.id != userId) ==> r == Outcome(s, Err(NotFound(UserNotFound)))
    ensures r.result.Ok? <==> FindById(s.users, userId).Some? && Matches(hash, req.currentPassword, FindById(s.users, userId).value.hashedPassword)
    ensures Valid(s) ==> (r.result.Ok? <==> exists u :: u in s.users && u.id == userId && Matches(hash, req.currentPassword, u.hashedPassword))
    ensures r.result.Err? ==> r.state == s
    ensures r.result.Ok? ==>
              r.result.value == PasswordChanged && r.state == s.(users := SetHashById(s.users, userId, hash(req.password)))
  {
    assert Valid(s) && FindById(s.users, userId).Some? ==>
             forall u :: u in s.users && u.id == userId ==> u == FindById(s.users, userId).value by {
      if Valid(s) && FindById(s.users, userId).Some? {
        forall u | u in s.users && u.id == userId ensures u == FindById(s.users, userId).value {
          FindByIdUnique(s.users, u);
        }
      }
    }
    match FindById(s.users, userId)
    case None => Outcome(s, Err(NotFound(UserNotFound)))
    case Some(u) =>
      if !Matches(hash, req.currentPassword, u.hashedPassword) then Outcome(s, Err(BadRequest(WrongCurrent)))
      else Outcome(s.(users := SetHashById(s.users, userId, hash(req.password))), Ok(PasswordChanged))
  }

  /** With a wrong current password the answer is 400 and every stored hash stays as it was. */
  lemma WrongCurrentChangesNothing(s: AuthState, userId: Id, req: ChangePasswordRequest, hash: string -> string)
    requires Valid(s)
    requires exists u :: u in s.users && u.id == userId && !Matches(hash, req.currentPassword, u.hashedPassword)
    ensures ChangePassword(s, userId, req, hash) == Outcome(s, Err(BadRequest(WrongCurrent)))
  {
    var u :| u in s.users && u.id == userId && !Matches(hash, req.currentPassword, u.hashedPassword);
    FindByIdUnique(s.users, u);
  }

  /** After a change the new password logs in and the old one, if different, no longer does. */
  lemma ChangedPasswordLogsIn(s: AuthState, userId: Id, req: ChangePasswordRequest, hash: string -> string, nowMs: int)
    requires Valid(s)
    requires ChangePassword(s, userId, req, hash).result.Ok?
    ensures var s' := ChangePassword(s, userId, req, hash).state;
            var u := FindById(s.users, userId).value;
            && Login(s', LoginRequest(u.email, req.password), hash, nowMs).Ok?
            && (hash(req.currentPassword) != hash(req.password) ==> Login(s', LoginRequest(u.email, req.currentPassword), hash, nowMs).Err?)
  {
    var s' := ChangePassword(s, userId, req, hash).state;
    var u := FindById(s.users, userId).value;
    var i :| 0 <= i < |s.users| && s.users[i] == u;
    assert s'.users[i] == u.(hashedPassword := hash(req.password));
    FindByEmailUnique(s'.users, s'.users[i]);
  }

  lemma ChangeKeepsValid(s: AuthState, userId: Id, req: ChangePasswordRequest, hash: string -> string)
    requires Valid(s)
    ensures Valid(ChangePassword(s, userId, req, hash).state)
  {
  }
}

=== FILE: categories_services.dfy ===
/**
 * The category service (src/modules/categories/categories.services.ts).
 * A category is either the caller's own or a system category (no owner)
 * that every user sees; only the caller's own categories can be renamed or
 * deleted, and a category some transaction uses cannot be deleted.
 *
 * Every answer is parsed with `categorySchema`, which reads `createdAt` and
 * `updatedAt` as text while the database hands back dates, so each parse of
 * a row fails. `GetAllAsWritten`, `CreateAsWritten` and `UpdateAsWritten`
 * model that; `GetAll`, `Create` and `Update` answer with the rows.
 */
module CategoriesServices {
  import opened Wrappers
  import opened Text
  import opened Failures
  import opened Sequences
  import opened Store
  import opened CategoriesValidation

  const CategoryNotFound: string := "Category not found"
  const CategoryInUse: string := "Category has transactions and cannot be deleted"
  const CategoryDeleted: string := "category deleted successfully"

  /** `OR: [{ userId }, { userId: null }]`: the caller's categories and the system ones. */
  function VisibleTo(userId: Id): Category -> bool {
    (c: Category) => c.userId == Some(userId) || c.userId.None?
  }

  /** `orderBy: { name: "asc" }`. */
  function NameAscending(): (Category, Category) -> bool {
    (a: Category, b: Category) => StrLe(a.name, b.name)
  }

  lemma NameAscendingIsPreorder()
    ensures TotalPreorder(NameAscending())
  {
    forall a: Category, b: Category ensures NameAscending()(a, b) || NameAscending()(b, a) {
      StrLeTotal(a.name, b.name);
    }
    forall a: Category, b: Category, c: Category | NameAscending()(a, b) && NameAscending()(b, c)
      ensures NameAscending()(a, c)
    {
      StrLeTransitive(a.name, b.name, c.name);
    }
  }

  /** `CategoriesServices.getAll`: the caller's and the system categories, each once, by name. */
  function GetAll(s: Store, userId: Id): (r: seq<Category>)
    ensures multiset(r) == multiset(Filter(s.categories, VisibleTo(userId)))
    ensures forall c :: c in r <==> c in s.categories && (c.userId == Some(userId) || c.userId.None?)
    ensures forall i, j :: 0 <= i < j < |r| ==> StrLe(r[i].name, r[j].name)
  {
    var visible := Filter(s.categories, VisibleTo(userId));
    var r := SortBy(visible, NameAscending());
    NameAscendingIsPreorder();
    SortBySorted(visible, NameAscending());
    assert forall c :: c in r <==> c in multiset(visible);
    r
  }

  /** `CategoriesServices.getAll` as written: any visible category makes the response parse fail. */
  function GetAllAsWritten(s: Store, userId: Id): (r: Result<seq<Category>, AppError>)
    ensures r.Ok? <==> GetAll(s, userId) == []
    ensures r.Ok? ==> r.value == GetAll(s, userId)
    ensures r.Err? ==> r.error.ZodError? && |r.error.issues| == 2 * |GetAll(s, userId)|
  {
    var rows := GetAll(s, userId);
    if rows == [] then Ok([]) else Err(ZodError(CategoryListIssues(|rows|)))
  }

  /** The row `category.create` writes: a fresh id, the request's fields, the caller as owner. */
  function NewCategory(s: Store, userId: Id, req: CategoryRequest): Category {
    Category(s.nextId, req.name, req.kind, Some(userId))
  }

  function CreateRow(s: Store, userId: Id, req: CategoryRequest): Store {
    s.(categories := s.categories + [NewCategory(s, userId, req)], nextId := s.nextId + 1)
  }

  /** `CategoriesServices.create` as written: the row is written, then the response parse fails. */
  function CreateAsWritten(s: Store, userId: Id, req: CategoryRequest): (r: Step<Category, AppError>)
    ensures r.result == Err(ZodError(CategoryRowIssues([])))
    ensures r.store == Create(s, userId, req).store
  {
    Step(CreateRow(s, userId, req), Err(ZodError(CategoryRowIssues([]))))
  }

  /** `CategoriesServices.create`: a new category owned by the caller, whatever owner the body names. */
  function Create(s: Store, userId: Id, req: CategoryRequest): (r: Step<Category, AppError>)
    ensures r.result.Ok?
    ensures r.store.categories == s.categories + [r.result.value]
    ensures r.result.value == Category(s.nextId, req.name, req.kind, Some(userId))
    ensures r.store.accounts == s.accounts && r.store.transactions == s.transactions
    ensures r.store.nextId == s.nextId + 1
  {
    Step(CreateRow(s, userId, req), Ok(NewCategory(s, userId, req)))
  }

  lemma CreateKeepsValid(s: Store, userId: Id, req: CategoryRequest)
    requires Valid(s)
    ensures Valid(Create(s, userId, req).store)
  {
    var s' := Create(s, userId, req).store;
    forall i | 0 <= i < |s'.transactions| ensures HasCategory(s'.categories, s'.transactions[i].categoryId) {
      assert s'.transactions[i] == s.transactions[i];
      assert HasCategory(s.categories, s.transactions[i].categoryId);
      var m :| 0 <= m < |s.categories| && s.categories[m].id == s.transactions[i].categoryId;
      assert s'.categories[m] == s.categories[m];
    }
  }

  /** A new category is listed for its owner and for no one else. */
  lemma CreateVisibleOnlyToOwner(s: Store, userId: Id, req: CategoryRequest, other: Id)
    requires other != userId
    ensures var r := Create(s, userId, req);
            && r.result.value in GetAll(r.store, userId)
            && multiset(GetAll(r.store, other)) == multiset(GetAll(s, other))
  {
    var r := Create(s, userId, req);
    FilterAppend(s.categories, [r.result.value], VisibleTo(other));
    assert Filter([r.result.value], VisibleTo(other)) == [];
    assert r.store.categories == s.categories + [r.result.value];
  }

  /** The row after `update({ data: { ...request, userId } })`: new name and type, the caller as owner. */
  function Rename(c: Category, userId: Id, req: CategoryRequest): (d: Category)
    ensures d.id == c.id
  {
    c.(name := req.name, kind := req.kind, userId := Some(userId))
  }

  function UpdateRows(s: Store, userId: Id, id: Id, req: CategoryRequest): Store {
    s.(categories := UpdateCategories(s.categories, id, (c: Category) => Rename(c, userId, req)))
  }

  /** `CategoriesServices.update` as written: the caller's category is changed, then the response parse fails. */
  function UpdateAsWritten(s: Store, userId: Id, id: Id, req: CategoryRequest): (r: Step<Category, AppError>)
    ensures FindOwnedCategory(s.categories, userId, id).None? ==> r == Step(s, Err(NotFound("Category not found")))
    ensures FindOwnedCategory(s.categories, userId, id).Some? ==>
              r.result == Err(ZodError(CategoryRowIssues([]))) && r.store == Update(s, userId, id, req).store
  {
    match FindOwnedCategory(s.categories, userId, id)
    case None => Step(s, Err(NotFound(CategoryNotFound)))
    case Some(c) => Step(UpdateRows(s, userId, id, req), Err(ZodError(CategoryRowIssues([]))))
  }

  /**
   * `CategoriesServices.update`: only a category the caller owns can be
   * changed (a system category is never found); it keeps its id and owner
   * and takes the request's name and type.
   */
  function Update(s: Store, userId: Id, id: Id, req: CategoryRequest): (r: Step<Category, AppError>)
    ensures FindOwnedCategory(s.categories, userId, id).None? ==> r == Step(s, Err(NotFound("Category not found")))
    ensures r.result.Ok? <==> exists c :: c in s.categories && c.id == id && c.userId == Some(userId)
    ensures r.result.Ok? ==>
              && r.result.value == Category(id, req.name, req.kind, Some(userId))
              && r.store.accounts == s.accounts && r.store.transactions == s.transactions && r.store.nextId == s.nextId
              && |r.store.categories| == |s.categories|
              && forall i :: 0 <= i < |s.categories| ==>
                   r.store.categories[i] == if s.categories[i].id == id then Rename(s.categories[i], userId, req) else s.categories[i]
  {
    match FindOwnedCategory(s.categories, userId, id)
    case None => Step(s, Err(NotFound(CategoryNotFound)))
    case Some(c) => Step(UpdateRows(s, userId, id, req), Ok(Rename(c, userId, req)))
  }

  lemma UpdateKeepsValid(s: Store, userId: Id, id: Id, req: CategoryRequest)
    requires Valid(s)
    ensures Valid(Update(s, userId, id, req).store)
  {
    var s' := Update(s, userId, id, req).store;
    assert forall i :: 0 <= i < |s.categories| ==> s'.categories[i].id == s.categories[i].id;
    forall i | 0 <= i < |s'.transactions| ensures HasCategory(s'.categories, s'.transactions[i].categoryId) {
      assert s'.transactions[i] == s.transactions[i];
      assert HasCategory(s.categories, s.transactions[i].categoryId);
      var m :| 0 <= m < |s.categories| && s.categories[m].id == s.transactions[i].categoryId;
      assert s'.categories[m].id == s.categories[m].id;
    }
  }

  /** `CategoriesServices.delete`: the caller's own category, and only when no transaction uses it. */
  function Delete(s: Store, userId: Id, id: Id): (r: Step<string, AppError>)
    ensures FindOwnedCategory(s.categories, userId, id).None? ==> r == Step(s, Err(NotFound("Category not found")))
    ensures FindOwnedCategory(s.categories, userId, id).Some? && References(s.transactions, id) ==>
              r == Step(s, Err(BadRequest("Category has transactions and cannot be deleted")))
    ensures r.result.Ok? <==>
              (exists c :: c in s.categories && c.id == id && c.userId == Some(userId)) && !References(s.transactions, id)
    ensures r.result.Ok? ==>
              && r.result.value == "category deleted successfully"
              && r.store == s.(categories := r.store.categories)
              && forall c :: c in r.store.categories <==> c in s.categories && c.id != id
  {
    match FindOwnedCategory(s.categories, userId, id)
    case None => Step(s, Err(NotFound(CategoryNotFound)))
    case Some(c) =>
      if References(s.transactions, id) then Step(s, Err(BadRequest(CategoryInUse)))
      else Step(s.(categories := RemoveCategory(s.categories, id)), Ok(CategoryDeleted))
  }

  lemma DeleteKeepsValid(s: Store, userId: Id, id: Id)
    requires Valid(s)
    ensures Valid(Delete(s, userId, id).store)
  {
    var r := Delete(s, userId, id);
    if r.result.Ok? {
      var s' := r.store;
      forall i | 0 <= i < |s'.categories| ensures s'.categories[i].id < s'.nextId {
        var m :| 0 <= m < |s.categories| && s.categories[m] == s'.categories[i];
      }
      forall i | 0 <= i < |s'.transactions| ensures HasCategory(s'.categories, s'.transactions[i].categoryId) {
        assert s'.transactions[i] == s.transactions[i];
        assert HasCategory(s.categories, s.transactions[i].categoryId);
        var m :| 0 <= m < |s.categories| && s.categories[m].id == s.transactions[i].categoryId;
        assert s.categories[m].id != id;
        assert s.categories[m] in s'.categories;
      }
    }
  }

  /**
   * In a store with unique ids, neither `update` nor `delete` touches a
   * category the caller does not own: a system category or another user's
   * stays exactly as it is.
   */
  lemma OthersCategoriesUntouched(s: Store, userId: Id, id: Id, req: CategoryRequest, c: Category)
    requires UniqueCategoryIds(s.categories)
    requires c in s.categories && c.userId != Some(userId)
    ensures c in Update(s, userId, id, req).store.categories
    ensures c in Delete(s, userId, id).store.categories
  {
    var k :| 0 <= k < |s.categories| && s.categories[k] == c;
    var found := FindOwnedCategory(s.categories, userId, id);
    if found.Some? {
      var m :| 0 <= m < |s.categories| && s.categories[m] == found.value;
      assert m != k;
      assert c.id != id;
      assert Update(s, userId, id, req).store.categories[k] == c;
    }
  }

  /** After a delete the category no longer shows in the caller's list. */
  lemma DeletedNotListed(s: Store, userId: Id, id: Id)
    ensures var r := Delete(s, userId, id);
            r.result.Ok? ==> forall c :: c in GetAll(r.store, userId) ==> c.id != id
  {
  }
}

=== FILE: categories_validation.dfy ===
/**
 * The category schemas (src/modules/categories/categories.validation.ts):
 * the create and update bodies and the response shape of a category.
 */
module CategoriesValidation {
  import opened Wrappers
  import opened Failures
  import opened Zod
  import opened Store

  /** A create or update body that passed its schema; the `userId` it may carry is not kept. */
  datatype CategoryRequest = CategoryRequest(name: string, kind: TxType)

  const NameRequired: string := "Name is required"
  const UserIdRequired: string := "userId is required"

  function NameAt(body: Body): Parsed<string> {
    ParseString(StringSchema(false, false, [MinLength(1, NameRequired)]), "name", Get(body, "name"))
  }

  function TypeAt(body: Body): Parsed<TxType> {
    var p := ParseEnum("type", Get(body, "type"), TxTypeNames);
    Parsed(if p.Passes() then TxTypeOf(p.value.value) else None, p.issues)
  }

  /** `createCategorySchema`: a non-empty name, a known type, and optionally any string as `userId`. */
  function ParseCreate(body: Body): (r: Result<CategoryRequest, AppError>)
    ensures r.Ok? <==>
              && Get(body, "name").Some? && Get(body, "name").value.Str? && |Get(body, "name").value.text| >= 1
              && Get(body, "type").Some? && Get(body, "type").value.Str? && Get(body, "type").value.text in TxTypeNames
              && (Get(body, "userId").Some? ==> Get(body, "userId").value.Str?)
    ensures r.Ok? ==> r.value.name == body["name"].text && TxTypeName(r.value.kind) == body["type"].text
  {
    var name := NameAt(body);
    var kind := TypeAt(body);
    var owner := Optional(Get(body, "userId"), ParseString(StringSchema(false, false, []), "userId", Get(body, "userId")));
    var issues := name.issues + kind.issues + owner.issues;
    if name.Passes() && kind.Passes() && owner.Passes() then Verdict(issues, CategoryRequest(name.value.value, kind.value.value))
    else Err(ZodError(issues))
  }

  /** `updateCategorySchema`: as on create, but a non-empty `userId` is required. */
  function ParseUpdate(body: Body): (r: Result<CategoryRequest, AppError>)
    ensures r.Ok? <==>
              && Get(body, "name").Some? && Get(body, "name").value.Str? && |Get(body, "name").value.text| >= 1
              && Get(body, "type").Some? && Get(body, "type").value.Str? && Get(body, "type").value.text in TxTypeNames
              && Get(body, "userId").Some? && Get(body, "userId").value.Str? && |Get(body, "userId").value.text| >= 1
    ensures r.Ok? ==> r.value.name == body["name"].text && TxTypeName(r.value.kind) == body["type"].text
  {
    var name := NameAt(body);
    var kind := TypeAt(body);
    var owner := ParseString(StringSchema(false, false, [MinLength(1, UserIdRequired)]), "userId", Get(body, "userId"));
    var issues := name.issues + kind.issues + owner.issues;
    if name.Passes() && kind.Passes() && owner.Passes() then Verdict(issues, CategoryRequest(name.value.value, kind.value.value))
    else Err(ZodError(issues))
  }

  /**
   * Two accepted bodies that differ only in `userId` give the same request:
   * the owner a body names never reaches the service.
   */
  lemma BodyOwnerIgnored(b1: Body, b2: Body)
    requires b1 - {"userId"} == b2 - {"userId"}
    ensures ParseCreate(b1).Ok? && ParseCreate(b2).Ok? ==> ParseCreate(b1) == ParseCreate(b2)
    ensures ParseUpdate(b1).Ok? && ParseUpdate(b2).Ok? ==> ParseUpdate(b1) == ParseUpdate(b2)
  {
    assert Get(b1, "name") == Get(b2, "name") by {
      assert "name" in b1 <==> "name" in b1 - {"userId"};
    }
    assert Get(b1, "type") == Get(b2, "type") by {
      assert "type" in b1 <==> "type" in b1 - {"userId"};
    }
  }

  /**
   * What `categorySchema` says of a category row under `prefix`: the
   * timestamps arrive as dates, and the schema reads them as text.
   */
  function CategoryRowIssues(prefix: seq<PathSegment>): seq<Issue> {
    [Issue(prefix + [Key("createdAt")], DateNotText), Issue(prefix + [Key("updatedAt")], DateNotText)]
  }

  /** What `z.array(categorySchema)` says of `n` rows, row by row. */
  function CategoryListIssues(n: nat): (r: seq<Issue>)
    ensures |r| == 2 * n
    ensures forall i :: 0 <= i < n ==> r[2 * i].path == [Index(i), Key("createdAt")] && r[2 * i + 1].path == [Index(i), Key("updatedAt")]
  {
    if n == 0 then [] else CategoryListIssues(n - 1) + CategoryRowIssues([Index(n - 1)])
  }
}

=== FILE: errors.dfy ===
/**
 * The application error handler and the not-found handler
 * (src/middlewares/errors.ts): every error becomes a JSON error body, and
 * only validation issues expose detail.
 */
module ErrorHandler {
  import opened Wrappers
  import opened Text
  import opened Failures
  import opened HttpResponse

  const ValidationStatus: int := 400
  const InternalStatus: int := 500
  const InternalMessage: string := "Internal Server Error"

  function SegmentText(s: PathSegment): string {
    match s
    case Key(name) => name
    case Index(i) => ToRadix(i, 10)
  }

  function SegmentTexts(path: seq<PathSegment>): (r: seq<string>)
    ensures |r| == |path|
    ensures forall k :: 0 <= k < |path| ==> r[k] == SegmentText(path[k])
  {
    if path == [] then [] else [SegmentText(path[0])] + SegmentTexts(path[1..])
  }

  /** `body` for an empty path, otherwise `body.` then the segments joined with dots. */
  function FieldPath(path: seq<PathSegment>): string {
    if |path| > 0 then "body." + Join(SegmentTexts(path), ".") else "body"
  }

  lemma {:induction false} JoinCons(head: string, rest: seq<string>, sep: string)
    requires |rest| >= 1
    ensures Join([head] + rest, sep) == head + sep + Join(rest, sep)
    decreases |rest|
  {
    if |rest| > 1 {
      var init := rest[..|rest| - 1];
      JoinCons(head, init, sep);
      assert ([head] + rest)[..|rest|] == [head] + init;
    } else {
      assert [head] + rest == [head, rest[0]];
    }
  }

  /** A key with no dot, or an array index, survives being joined into a field path. */
  predicate DotFree(s: PathSegment) {
    s.Key? ==> forall i :: 0 <= i < |s.name| ==> s.name[i] != '.'
  }

  /**
   * The field string determines the path: splitting it on dots gives back
   * `body` followed by the segments.
   */
  lemma FieldPathSplits(path: seq<PathSegment>)
    requires forall k :: 0 <= k < |path| ==> DotFree(path[k])
    ensures Split(FieldPath(path), '.') == ["body"] + SegmentTexts(path)
  {
    PartsDotFree(path);
    FieldPathIsJoin(path);
    SplitJoin(["body"] + SegmentTexts(path), '.');
  }

  /** The field path is the join of `body` and the segments. */
  lemma FieldPathIsJoin(path: seq<PathSegment>)
    ensures FieldPath(path) == Join(["body"] + SegmentTexts(path), ".")
  {
    var texts := SegmentTexts(path);
    if |path| > 0 {
      JoinCons("body", texts, ".");
      assert "body." == "body" + ".";
    } else {
      assert ["body"] + texts == ["body"];
    }
  }

  lemma PartsDotFree(path: seq<PathSegment>)
    requires forall k :: 0 <= k < |path| ==> DotFree(path[k])
    ensures forall k, i :: 0 <= k < |["body"] + SegmentTexts(path)| && 0 <= i < |(["body"] + SegmentTexts(path))[k]|
              ==> (["body"] + SegmentTexts(path))[k][i] != '.'
  {
    var texts := SegmentTexts(path);
    var parts := ["body"] + texts;
    forall k, i | 0 <= k < |parts| && 0 <= i < |parts[k]| ensures parts[k][i] != '.' {
      if k == 0 {
        assert parts[0] == "body";
        assert i == 0 || i == 1 || i == 2 || i == 3;
      } else {
        assert parts[k] == texts[k - 1] == SegmentText(path[k - 1]);
        SegmentNoDot(path[k - 1]);
      }
    }
  }

  lemma SegmentNoDot(s: PathSegment)
    requires DotFree(s)
    ensures forall i :: 0 <= i < |SegmentText(s)| ==> SegmentText(s)[i] != '.'
  {
    if s.Index? {
      DigitsHaveNoDot(s.index);
    }
  }

  lemma {:induction false} DigitsHaveNoDot(n: nat)
    ensures forall i :: 0 <= i < |ToRadix(n, 10)| ==> ToRadix(n, 10)[i] != '.'
    decreases n
  {
    if n >= 10 {
      DigitsHaveNoDot(n / 10);
    }
  }

  function IssueEntries(issues: seq<Issue>): (r: seq<FieldError>)
    ensures |r| == |issues|
    ensures forall k :: 0 <= k < |issues| ==>
              r[k] == FieldError(FieldPath(issues[k].path), issues[k].message)
  {
    if issues == [] then [] else [FieldError(FieldPath(issues[0].path), issues[0].message)] + IssueEntries(issues[1..])
  }

  /** `errorHandler(err, c)`. */
  function HandleError(err: AppError): (r: Response<ErrorBody>)
    ensures !r.body.success && r.body.status.None? && r.body.errors.Some?
    ensures err.HttpException? ==>
              r.httpStatus == err.status && r.body.message == err.message
              && r.body.code == "HTTP_EXCEPTION" && r.body.errors == Some([])
    ensures err.ZodError? ==>
              r.httpStatus == 400 && r.body.code == "VALIDATION_ERROR" && r.body.message == "Validation error"
              && |r.body.errors.value| == |err.issues|
              && forall k :: 0 <= k < |err.issues| ==>
                   r.body.errors.value[k].field == FieldPath(err.issues[k].path)
                   && r.body.errors.value[k].message == err.issues[k].message
    ensures err.OtherError? ==>
              r.httpStatus == 500 && r.body.message == "Internal Server Error"
              && r.body.code == "INTERNAL_SERVER_ERROR" && r.body.errors == Some([])
  {
    match err
    case HttpException(status, message) =>
      Response(status, ErrorBody(false, message, None, "HTTP_EXCEPTION", Some([])))
    case ZodError(issues) =>
      Response(ValidationStatus, ErrorBody(false, "Validation error", None, "VALIDATION_ERROR", Some(IssueEntries(issues))))
    case OtherError(_) =>
      Response(InternalStatus, ErrorBody(false, InternalMessage, None, DefaultErrorCode, Some([])))
  }

  /** An unexpected error's own message never reaches the response. */
  lemma OtherErrorsLookAlike(m1: string, m2: string)
    ensures HandleError(OtherError(m1)) == HandleError(OtherError(m2))
  {
  }

  /** `notFoundHandler(c)`: a 404 naming the request verb and URL. */
  function NotFoundHandler(verb: string, url: string): (r: Response<ErrorBody>)
    ensures r.httpStatus == 404 && r.body.status == Some(404)
    ensures r.body.code == "NOT_FOUND" && !r.body.success && r.body.errors.None?
    ensures exists i :: OccursAt(verb, r.body.message, i)
    ensures exists i :: OccursAt(url, r.body.message, i)
  {
    var prefix := "Requested resource not found - [";
    var message := prefix + verb + "] " + url;
    assert OccursAt(verb, message, |prefix|) by {
      assert message[|prefix|..|prefix| + |verb|] == verb;
    }
    assert OccursAt(url, message, |message| - |url|) by {
      assert message[|message| - |url|..] == url;
    }
    ErrorResponse(message, Some(404), Some("NOT_FOUND"), None)
  }
}

=== FILE: failures.dfy ===
/**
 * The three kinds of error the services and schemas raise: hono's
 * `HTTPException` (a status and a message), zod's `ZodError` (a list of
 * issues, each at a path into the request body), and anything else.
 */
module Failures {

  /** One step of a zod issue path: an object key or an array index. */
  datatype PathSegment = Key(name: string) | Index(index: nat)

  datatype Issue = Issue(path: seq<PathSegment>, message: string)

  datatype AppError =
    | HttpException(status: int, message: string)
    | ZodError(issues: seq<Issue>)
    | OtherError(message: string)

  /** An issue on a top-level field of the request body. */
  function FieldIssue(field: string, message: string): Issue {
    Issue([Key(field)], message)
  }

  function NotFound(message: string): AppError {
    HttpException(404, message)
  }

  function BadRequest(message: string): AppError {
    HttpException(400, message)
  }
}

=== FILE: generate.dfy ===
/**
 * One-time codes and reset tokens (src/utils/generate.ts). The random words
 * `crypto.getRandomValues` fills in are parameters.
 */
module Generate {
  import opened Wrappers
  import opened Text

  /** An element of a `Uint32Array`. */
  type Uint32 = x: int | 0 <= x < 0x1_0000_0000

  /** An element of a `Uint8Array`. */
  type Byte = x: int | 0 <= x < 256

  const OtpLength: nat := 6
  const OtpModulus: nat := 1_000_000

  /** The number of random bytes `generateToken` draws when no length is given. */
  const DefaultTokenBytes: nat := 32

  function Pow(b: nat, k: nat): (r: nat)
    ensures b >= 1 ==> r >= 1
  {
    if k == 0 then 1 else b * Pow(b, k - 1)
  }

  // ---------------------------------------------------------------------------
  // Decimal digits

  lemma {:induction false} DecimalValueAppend(s: string, c: char)
    requires AllDigits(s) && IsDigit(c)
    ensures AllDigits(s + [c])
    ensures DecimalValue(s + [c]) == 10 * DecimalValue(s) + DigitValue(c)
  {
    assert (s + [c])[..|s|] == s;
  }

  /** `n.toString()` writes only decimal digits, and reading them back gives `n`. */
  lemma {:induction false} ToDecimalRoundTrip(n: nat)
    ensures AllDigits(ToRadix(n, 10))
    ensures DecimalValue(ToRadix(n, 10)) == n
    decreases n
  {
    if n >= 10 {
      ToDecimalRoundTrip(n / 10);
      DecimalValueAppend(ToRadix(n / 10, 10), DigitChar(n % 10));
    }
  }

  /** A number below `radix^k` takes at most `k` digits. */
  lemma {:induction false} ToRadixLength(n: nat, radix: nat, k: nat)
    requires 2 <= radix <= 36 && k >= 1
    requires n < Pow(radix, k)
    ensures |ToRadix(n, radix)| <= k
    decreases k
  {
    if n >= radix {
      assert Pow(radix, k) == radix * Pow(radix, k - 1);
      DivBelow(n, radix, Pow(radix, k - 1));
      ToRadixLength(n / radix, radix, k - 1);
    }
  }

  lemma DivBelow(n: nat, d: nat, p: nat)
    requires d > 0 && n < d * p
    ensures n / d < p
  {
  }

  lemma {:induction false} ZerosValue(z: string)
    requires forall i :: 0 <= i < |z| ==> z[i] == '0'
    ensures AllDigits(z) && DecimalValue(z) == 0
  {
    if z != [] {
      ZerosValue(z[..|z| - 1]);
    }
  }

  /** Leading zeros do not change a decimal value. */
  lemma {:induction false} LeadingZerosValue(z: string, s: string)
    requires forall i :: 0 <= i < |z| ==> z[i] == '0'
    requires AllDigits(s)
    ensures AllDigits(z + s)
    ensures DecimalValue(z + s) == DecimalValue(s)
    decreases |s|
  {
    if s == [] {
      assert z + s == z;
      ZerosValue(z);
    } else {
      var s' := s[..|s| - 1];
      LeadingZerosValue(z, s');
      assert z + s == (z + s') + [s[|s| - 1]];
      DecimalValueAppend(z + s', s[|s| - 1]);
      assert s == s' + [s[|s| - 1]];
      DecimalValueAppend(s', s[|s| - 1]);
    }
  }

  // ---------------------------------------------------------------------------
  // generateOTP

  /**
   * `(random % 1_000_000).toString().padStart(6, "0")`: always six decimal
   * digits, and as a number the remainder of the random word.
   */
  function GenerateOtp(random: Uint32): (otp: string)
    ensures |otp| == OtpLength
    ensures AllDigits(otp)
    ensures DecimalValue(otp) == random % OtpModulus
  {
    var n := random % OtpModulus;
    var digits := ToRadix(n, 10);
    ToDecimalRoundTrip(n);
    assert Pow(10, 6) == OtpModulus;
    ToRadixLength(n, 10, 6);
    var otp := PadStart(digits, OtpLength, '0');
    assert otp == otp[..|otp| - |digits|] + digits;
    LeadingZerosValue(otp[..|otp| - |digits|], digits);
    otp
  }

  // ---------------------------------------------------------------------------
  // generateToken

  predicate IsLowerHexDigit(c: char) {
    ('0' <= c <= '9') || ('a' <= c <= 'f')
  }

  function HexDigitValue(c: char): (v: nat)
    requires IsLowerHexDigit(c)
    ensures v < 16 && DigitChar(v) == c
  {
    if c <= '9' then c as int - '0' as int else c as int - 'a' as int + 10
  }

  /** The two characters a byte contributes to a token: high nibble, then low nibble. */
  function HexByte(b: Byte): string {
    [DigitChar(b / 16), DigitChar(b % 16)]
  }

  /** `byte.toString(16).padStart(2, "0")` is exactly the nibble pair. */
  lemma HexByteIsPaddedRadix(b: Byte)
    ensures PadStart(ToRadix(b, 16), 2, '0') == HexByte(b)
  {
    if b >= 16 {
      assert ToRadix(b / 16, 16) == [DigitChar(b / 16)];
    }
  }

  /** `Array.from(bytes, byte => …).join("")`. */
  function GenerateToken(bytes: seq<Byte>): (token: string)
    ensures |token| == 2 * |bytes|
  {
    if bytes == [] then [] else HexByte(bytes[0]) + GenerateToken(bytes[1..])
  }

  /** Byte `i` becomes characters `2i` and `2i+1`. */
  lemma {:induction false} TokenSlice(bytes: seq<Byte>, i: nat)
    requires i < |bytes|
    ensures GenerateToken(bytes)[2 * i..2 * i + 2] == HexByte(bytes[i])
  {
    var head := HexByte(bytes[0]);
    var rest := GenerateToken(bytes[1..]);
    assert GenerateToken(bytes) == head + rest;
    if i > 0 {
      TokenSlice(bytes[1..], i - 1);
      assert bytes[1..][i - 1] == bytes[i];
      assert (head + rest)[2 * i..2 * i + 2] == rest[2 * i - 2..2 * i];
    }
  }

  /** Byte `i` becomes characters `2i` and `2i+1`: its high nibble, then its low nibble. */
  lemma TokenNibbles(bytes: seq<Byte>, i: nat)
    requires i < |bytes|
    ensures GenerateToken(bytes)[2 * i] == DigitChar(bytes[i] / 16)
    ensures GenerateToken(bytes)[2 * i + 1] == DigitChar(bytes[i] % 16)
  {
    TokenSlice(bytes, i);
    var t := GenerateToken(bytes);
    assert t[2 * i] == t[2 * i..2 * i + 2][0];
    assert t[2 * i + 1] == t[2 * i..2 * i + 2][1];
  }

  lemma ShiftPastHead(head: string, rest: string, k: nat)
    requires |head| == 2 && k < |rest|
    ensures (head + rest)[k + 2] == rest[k]
  {
  }

  /** Lower-case base16 decoding (section 8 of RFC 4648): the inverse of `GenerateToken`. */
  function DecodeHex(token: string): (r: Option<seq<Byte>>)
    ensures r.Some? ==> 2 * |r.value| == |token|
  {
    if token == [] then Some([])
    else if |token| == 1 || !IsLowerHexDigit(token[0]) || !IsLowerHexDigit(token[1]) then None
    else
      match DecodeHex(token[2..])
      case None => None
      case Some(rest) => Some([16 * HexDigitValue(token[0]) + HexDigitValue(token[1])] + rest)
  }

  /** Hex-decoding a token returns the random bytes it was made from. */
  lemma {:induction false} TokenRoundTrip(bytes: seq<Byte>)
    ensures DecodeHex(GenerateToken(bytes)) == Some(bytes)
  {
    if bytes != [] {
      var token := GenerateToken(bytes);
      assert token[2..] == GenerateToken(bytes[1..]);
      TokenRoundTrip(bytes[1..]);
      var b := bytes[0];
      assert HexDigitValue(token[0]) == b / 16 && HexDigitValue(token[1]) == b % 16 by {
        DigitCharInjective(HexDigitValue(token[0]), b / 16);
        DigitCharInjective(HexDigitValue(token[1]), b % 16);
      }
      assert [bytes[0]] + bytes[1..] == bytes;
    }
  }

  lemma DigitCharInjective(a: nat, b: nat)
    requires a < 16 && b < 16
    requires DigitChar(a) == DigitChar(b)
    ensures a == b
  {
  }

  /** With the default length the token is 64 characters long. */
  lemma DefaultTokenLength(bytes: seq<Byte>)
    requires |bytes| == DefaultTokenBytes
    ensures |GenerateToken(bytes)| == 64
  {
  }
}

=== FILE: http_response.dfy ===
/**
 * The response envelopes of src/utils/http-response.tsx: success and error
 * bodies with their defaults, and the pagination block.
 */
module HttpResponse {
  import opened Wrappers

  const DefaultSuccessStatus: int := 200
  const DefaultErrorStatus: int := 500
  const DefaultErrorCode: string := "INTERNAL_SERVER_ERROR"

  datatype FieldError = FieldError(field: string, message: string)

  /** `{ success, message, data, status, meta }`; an absent `data` or `meta` is `undefined`. */
  datatype SuccessBody<D, M> = SuccessBody(success: bool, message: string, data: Option<D>, status: int, meta: Option<M>)

  /**
   * `{ success, message, status?, code, errors? }`. The error handler's bodies
   * carry no `status` field; `errorResponse`'s carry no `errors` unless given.
   */
  datatype ErrorBody = ErrorBody(success: bool, message: string, status: Option<int>, code: string, errors: Option<seq<FieldError>>)

  /** What `c.json(body, status)` sends: the HTTP status line and the JSON body. */
  datatype Response<B> = Response(httpStatus: int, body: B)

  datatype Pagination = Pagination(page: int, limit: int, totalItems: int, totalPages: Option<int>, offset: int)

  /** `successResponse(c, message, data?, status = 200, meta?)`. */
  function SuccessResponse<D, M>(message: string, data: Option<D>, status: Option<int>, meta: Option<M>): (r: Response<SuccessBody<D, M>>)
    ensures r.body.success
    ensures r.httpStatus == r.body.status
    ensures status.None? ==> r.httpStatus == 200
    ensures status.Some? ==> r.httpStatus == status.value
    ensures r.body.message == message && r.body.data == data && r.body.meta == meta
  {
    var s := status.GetOr(DefaultSuccessStatus);
    Response(s, SuccessBody(true, message, data, s, meta))
  }

  /** `errorResponse(c, message, status = 500, code = "INTERNAL_SERVER_ERROR", errors?)`. */
  function ErrorResponse(message: string, status: Option<int>, code: Option<string>, errors: Option<seq<FieldError>>): (r: Response<ErrorBody>)
    ensures !r.body.success
    ensures r.body.status == Some(r.httpStatus)
    ensures status.None? ==> r.httpStatus == 500
    ensures status.Some? ==> r.httpStatus == status.value
    ensures code.None? ==> r.body.code == "INTERNAL_SERVER_ERROR"
    ensures code.Some? ==> r.body.code == code.value
    ensures r.body.message == message && r.body.errors == errors
  {
    var s := status.GetOr(DefaultErrorStatus);
    Response(s, ErrorBody(false, message, Some(s), code.GetOr(DefaultErrorCode), errors))
  }

  /**
   * `Math.ceil(a / b)` for a non-zero divisor, on integers: the least integer
   * at least the real quotient.
   */
  function CeilDiv(a: int, b: int): (r: int)
    requires b != 0
    ensures b > 0 ==> r * b >= a && (r - 1) * b < a
    ensures b < 0 ==> r * b <= a && (r - 1) * b > a
  {
    if b > 0 then
      var q := (-a) / b;
      assert -a == q * b + (-a) % b;
      assert (-q) * b == a + (-a) % b;
      -q
    else
      var q := a / (-b);
      assert a == q * (-b) + a % (-b);
      assert (-q) * b == a - a % (-b);
      -q
  }

  /**
   * The pagination block of `paginatedResponse`. With `limit` 0 the
   * quotient is not a finite number, which the model writes as `None`.
   */
  function MakePagination(page: int, limit: int, total: nat): (p: Pagination)
    ensures p.page == page && p.limit == limit && p.totalItems == total
    ensures p.offset == (page - 1) * limit
    ensures limit == 0 <==> p.totalPages.None?
    ensures limit > 0 ==> p.totalPages.Some? && p.totalPages.value * limit >= total
    ensures limit > 0 ==> forall q: int :: q * limit >= total ==> q >= p.totalPages.value
  {
    var pages := if limit == 0 then None else Some(CeilDiv(total, limit));
    Pagination(page, limit, total, pages, (page - 1) * limit)
  }

  datatype PageMeta = PageMeta(pagination: Pagination)

  /** `paginatedResponse`: a 200 success whose `meta` is the pagination block. */
  function PaginatedResponse<D>(message: string, data: D, page: int, limit: int, total: nat): (r: Response<SuccessBody<D, PageMeta>>)
    ensures r.httpStatus == 200 && r.body.success
    ensures r.body.data == Some(data)
    ensures r.body.meta == Some(PageMeta(MakePagination(page, limit, total)))
  {
    SuccessResponse(message, Some(data), Some(200), Some(PageMeta(MakePagination(page, limit, total))))
  }
}

=== FILE: jwt.dfy ===
/**
 * Token expiry and cookie lifetimes (src/utils/jwt.ts). Signing is left to
 * the JWT library; the model computes the claims that get signed. The clock
 * reading `Date.now()` is a parameter, in milliseconds.
 */
module Jwt {
  import opened Wrappers

  /** Fifteen minutes, in seconds. */
  const AccessExpiry: nat := 15 * 60
  /** Seven days, in seconds. */
  const RefreshExpiry: nat := 7 * 24 * 60 * 60

  datatype Payload = Payload(userId: nat, email: string, exp: Option<int>)

  /** The signed claims; `exp` is a NumericDate (section 4.1.4 of RFC 7519): whole seconds since the epoch. */
  datatype Claims = Claims(userId: nat, email: string, exp: int)

  datatype Cookie = Cookie(name: string, value: string, httpOnly: bool, path: string, maxAge: int)

  /** `Math.floor(nowMs / 1000)`: the clock reading in whole seconds. */
  function NowSeconds(nowMs: int): (s: int)
    ensures s * 1000 <= nowMs < s * 1000 + 1000
  {
    nowMs / 1000
  }

  /** `{ ...payload, exp }`: the identity is copied and any incoming `exp` replaced. */
  function WithExpiry(payload: Payload, nowMs: int, lifetime: nat): (c: Claims)
    ensures c.userId == payload.userId && c.email == payload.email
    ensures (c.exp - lifetime) * 1000 <= nowMs < (c.exp - lifetime) * 1000 + 1000
  {
    Claims(payload.userId, payload.email, NowSeconds(nowMs) + lifetime)
  }

  /** The claims `generateAccessToken` signs. */
  function AccessClaims(payload: Payload, nowMs: int): (c: Claims)
    ensures c.userId == payload.userId && c.email == payload.email
    ensures c.exp == NowSeconds(nowMs) + 900
  {
    WithExpiry(payload, nowMs, AccessExpiry)
  }

  /** The claims `generateRefreshToken` signs. */
  function RefreshClaims(payload: Payload, nowMs: int): (c: Claims)
    ensures c.userId == payload.userId && c.email == payload.email
    ensures c.exp == NowSeconds(nowMs) + 604800
  {
    WithExpiry(payload, nowMs, RefreshExpiry)
  }

  /** An incoming `exp` has no influence on the signed claims. */
  lemma IncomingExpiryIgnored(payload: Payload, nowMs: int, exp: int)
    ensures AccessClaims(payload.(exp := Some(exp)), nowMs) == AccessClaims(payload.(exp := None), nowMs)
    ensures RefreshClaims(payload.(exp := Some(exp)), nowMs) == RefreshClaims(payload.(exp := None), nowMs)
  {
  }

  /** For the same clock reading the refresh token outlives the access token by 603900 seconds. */
  lemma RefreshOutlivesAccess(payload: Payload, nowMs: int)
    ensures RefreshClaims(payload, nowMs).exp - AccessClaims(payload, nowMs).exp == 603900
  {
  }

  function SetAccessTokenCookie(token: string): (c: Cookie)
    ensures c.name == "accessToken" && c.value == token
    ensures c.httpOnly && c.path == "/"
    ensures c.maxAge == 900
  {
    Cookie("accessToken", token, true, "/", AccessExpiry)
  }

  function SetRefreshTokenCookie(token: string): (c: Cookie)
    ensures c.name == "refreshToken" && c.value == token
    ensures c.httpOnly && c.path == "/"
    ensures c.maxAge == 604800
  {
    Cookie("refreshToken", token, true, "/", RefreshExpiry)
  }

  /** `deleteCookie(c, name, { path: "/" })`: an empty value that expires at once. */
  function DeleteCookie(name: string): (c: Cookie)
    ensures c.name == name && c.value == "" && c.path == "/" && c.maxAge == 0
  {
    Cookie(name, "", false, "/", 0)
  }

  function RemoveAccessTokenCookie(): Cookie {
    DeleteCookie("accessToken")
  }

  function RemoveRefreshTokenCookie(): Cookie {
    DeleteCookie("refreshToken")
  }

  /** Each removal overwrites the cookie its setter wrote (same name and path) and leaves it no lifetime. */
  lemma RemovalOverwritesSetCookie(access: string, refresh: string)
    ensures RemoveAccessTokenCookie().name == SetAccessTokenCookie(access).name
    ensures RemoveAccessTokenCookie().path == SetAccessTokenCookie(access).path
    ensures RemoveRefreshTokenCookie().name == SetRefreshTokenCookie(refresh).name
    ensures RemoveRefreshTokenCookie().path == SetRefreshTokenCookie(refresh).path
    ensures RemoveAccessTokenCookie().maxAge == 0 && RemoveRefreshTokenCookie().maxAge == 0
  {
  }

  /** A cookie lives exactly as long as the token it carries, counted from the same clock reading. */
  lemma CookiesMatchTokenLifetimes(payload: Payload, nowMs: int, access: string, refresh: string)
    ensures SetAccessTokenCookie(access).maxAge == AccessClaims(payload, nowMs).exp - NowSeconds(nowMs)
    ensures SetRefreshTokenCookie(refresh).maxAge == RefreshClaims(payload, nowMs).exp - NowSeconds(nowMs)
  {
  }
}

=== FILE: sequences.dfy ===
/**
 * Filtering, summing and ordering rows: what a `where`, an `_sum` aggregate
 * and an `orderBy` do to a table held as a sequence.
 */
module Sequences {

  /** The rows that satisfy `f`, in their original order. */
  function Filter<T>(s: seq<T>, f: T -> bool): (r: seq<T>)
    ensures |r| <= |s|
    ensures forall i :: 0 <= i < |r| ==> f(r[i]) && r[i] in s
    ensures forall x :: x in s && f(x) ==> x in r
  {
    if s == [] then []
    else if f(s[0]) then [s[0]] + Filter(s[1..], f)
    else Filter(s[1..], f)
  }

  lemma {:induction false} FilterAppend<T>(a: seq<T>, b: seq<T>, f: T -> bool)
    ensures Filter(a + b, f) == Filter(a, f) + Filter(b, f)
  {
    if a != [] {
      assert (a + b)[0] == a[0] && (a + b)[1..] == a[1..] + b;
      FilterAppend(a[1..], b, f);
      if f(a[0]) {
        assert Filter(a + b, f) == [a[0]] + Filter(a[1..] + b, f);
        assert Filter(a, f) == [a[0]] + Filter(a[1..], f);
      } else {
        assert Filter(a + b, f) == Filter(a[1..] + b, f);
        assert Filter(a, f) == Filter(a[1..], f);
      }
    } else {
      assert a + b == b;
    }
  }

  /** Filtering with a test every row passes changes nothing. */
  lemma {:induction false} FilterAll<T>(s: seq<T>, f: T -> bool)
    requires forall x :: x in s ==> f(x)
    ensures Filter(s, f) == s
  {
    if s != [] {
      FilterAll(s[1..], f);
    }
  }

  /** Filtering twice with tests that agree on the rows is filtering once. */
  lemma {:induction false} FilterSame<T>(s: seq<T>, f: T -> bool, g: T -> bool)
    requires forall x :: x in s ==> f(x) == g(x)
    ensures Filter(s, f) == Filter(s, g)
  {
    if s != [] {
      FilterSame(s[1..], f, g);
    }
  }

  lemma {:induction false} FilterMultiset<T>(s: seq<T>, f: T -> bool)
    ensures multiset(Filter(s, f)) <= multiset(s)
  {
    if s != [] {
      FilterMultiset(s[1..], f);
      assert s == [s[0]] + s[1..];
    }
  }

  /** The total of `f` over the rows, 0 for none (an `_sum` whose `null` is read as 0). */
  function SumOf<T>(s: seq<T>, f: T -> int): int {
    if s == [] then 0 else f(s[0]) + SumOf(s[1..], f)
  }

  lemma {:induction false} SumOfAppend<T>(a: seq<T>, b: seq<T>, f: T -> int)
    ensures SumOf(a + b, f) == SumOf(a, f) + SumOf(b, f)
  {
    if a != [] {
      assert (a + b)[1..] == a[1..] + b;
      SumOfAppend(a[1..], b, f);
    } else {
      assert a + b == b;
    }
  }

  /** Summing the rows that pass a test and the rows that pass its complement `q` gives the whole sum. */
  lemma {:induction false} SumOfSplit<T>(s: seq<T>, f: T -> int, p: T -> bool, q: T -> bool)
    requires forall x :: x in s ==> q(x) == !p(x)
    ensures SumOf(s, f) == SumOf(Filter(s, p), f) + SumOf(Filter(s, q), f)
  {
    if s != [] {
      SumOfSplit(s[1..], f, p, q);
    }
  }

  function Count<T>(s: seq<T>, f: T -> bool): (n: nat)
    ensures n == |Filter(s, f)|
  {
    if s == [] then 0 else (if f(s[0]) then 1 else 0) + Count(s[1..], f)
  }

  // ---------------------------------------------------------------------------
  // Ordering

  /** `le` orders every pair and is transitive: what an `orderBy` on one column needs. */
  ghost predicate TotalPreorder<T(!new)>(le: (T, T) -> bool) {
    && (forall a, b :: le(a, b) || le(b, a))
    && (forall a, b, c :: le(a, b) && le(b, c) ==> le(a, c))
  }

  ghost predicate Sorted<T>(s: seq<T>, le: (T, T) -> bool) {
    forall i, j :: 0 <= i < j < |s| ==> le(s[i], s[j])
  }

  function Insert<T>(x: T, s: seq<T>, le: (T, T) -> bool): (r: seq<T>)
    ensures multiset(r) == multiset(s) + multiset{x}
    ensures |r| == |s| + 1
  {
    if s == [] then [x]
    else if le(x, s[0]) then [x] + s
    else
      var r := [s[0]] + Insert(x, s[1..], le);
      assert s == [s[0]] + s[1..];
      r
  }

  /** Insertion sort by `le`. */
  function SortBy<T>(s: seq<T>, le: (T, T) -> bool): (r: seq<T>)
    ensures multiset(r) == multiset(s)
    ensures |r| == |s|
  {
    if s == [] then []
    else
      var r := Insert(s[0], SortBy(s[1..], le), le);
      assert s == [s[0]] + s[1..];
      r
  }

  lemma {:induction false} InsertSorted<T(!new)>(x: T, s: seq<T>, le: (T, T) -> bool)
    requires TotalPreorder(le)
    requires Sorted(s, le)
    ensures Sorted(Insert(x, s, le), le)
  {
    if s != [] && !le(x, s[0]) {
      InsertSorted(x, s[1..], le);
      var r := Insert(x, s, le);
      var tail := Insert(x, s[1..], le);
      assert r == [s[0]] + tail;
      forall j | 0 < j < |r| ensures le(r[0], r[j]) {
        assert r[j] in multiset(tail);
        assert r[j] == x || r[j] in multiset(s[1..]);
        if r[j] != x {
          var k :| 0 <= k < |s[1..]| && s[1..][k] == r[j];
          assert s[k + 1] == r[j];
        }
      }
    }
  }

  /** The sorted rows are in `le` order. */
  lemma {:induction false} SortBySorted<T(!new)>(s: seq<T>, le: (T, T) -> bool)
    requires TotalPreorder(le)
    ensures Sorted(SortBy(s, le), le)
  {
    if s != [] {
      SortBySorted(s[1..], le);
      InsertSorted(s[0], SortBy(s[1..], le), le);
    }
  }
}

=== FILE: store.dfy ===
/**
 * The ledger's tables: accounts, categories and transactions, each a
 * sequence of rows in insertion order with unique ids. Prisma's generated
 * ids are drawn from the store's counter `nextId`; timestamps and dates are
 * opaque ordered values (`Time`), money is an integer in the smallest unit.
 */
module Store {
  import opened Wrappers
  import Sequences

  type Id = nat
  type Time = int

  datatype TxType = Income | Expense

  /** The names the schemas and the database use for the two types. */
  const TxTypeNames: seq<string> := ["INCOME", "EXPENSE"]

  function TxTypeName(k: TxType): string {
    match k
    case Income => "INCOME"
    case Expense => "EXPENSE"
  }

  function TxTypeOf(name: string): (r: Option<TxType>)
    ensures r.Some? <==> name in TxTypeNames
    ensures r.Some? ==> TxTypeName(r.value) == name
  {
    if name == "INCOME" then Some(Income) else if name == "EXPENSE" then Some(Expense) else None
  }

  datatype AccountType = Cash | Bank | EWallet | Investment | OtherAccount

  datatype Account = Account(id: Id, userId: Id, name: string, kind: AccountType, balance: int, createdAt: Time)

  /** `userId` `None` marks a system-wide category, visible to every user. */
  datatype Category = Category(id: Id, name: string, kind: TxType, userId: Option<Id>)

  datatype Transaction = Transaction(
    id: Id,
    amount: int,
    accountId: Id,
    categoryId: Id,
    kind: TxType,
    transactionDate: Time,
    transactionTime: string,
    description: Option<string>,
    merchantName: Option<string>,
    merchantLocation: Option<string>,
    initialBalance: int,
    finalBalance: int,
    createdAt: Time)

  datatype Store = Store(accounts: seq<Account>, categories: seq<Category>, transactions: seq<Transaction>, nextId: Id)

  /** A state change together with what the service returns or throws. */
  datatype Step<T, E> = Step(store: Store, result: Result<T, E>)

  /** The balance change a transaction implies: `+amount` for INCOME, `-amount` for EXPENSE. */
  function SignedAmount(kind: TxType, amount: int): int {
    match kind
    case Income => amount
    case Expense => -amount
  }

  /** The balance change a transaction row records. */
  function Signed(t: Transaction): int {
    SignedAmount(t.kind, t.amount)
  }

  function Amount(t: Transaction): int {
    t.amount
  }

  function OnAccount(id: Id): Transaction -> bool {
    (t: Transaction) => t.accountId == id
  }

  function OnCategory(id: Id): Transaction -> bool {
    (t: Transaction) => t.categoryId == id
  }

  function OfKind(kind: TxType): Transaction -> bool {
    (t: Transaction) => t.kind == kind
  }

  /** The snapshot a transaction row carries agrees with its amount and type. */
  predicate SnapshotConsistent(t: Transaction) {
    t.finalBalance == t.initialBalance + SignedAmount(t.kind, t.amount)
  }

  predicate HasAccount(accounts: seq<Account>, id: Id) {
    exists i :: 0 <= i < |accounts| && accounts[i].id == id
  }

  predicate HasCategory(categories: seq<Category>, id: Id) {
    exists i :: 0 <= i < |categories| && categories[i].id == id
  }

  predicate UniqueAccountIds(accounts: seq<Account>) {
    forall i, j :: 0 <= i < j < |accounts| ==> accounts[i].id != accounts[j].id
  }

  predicate UniqueCategoryIds(categories: seq<Category>) {
    forall i, j :: 0 <= i < j < |categories| ==> categories[i].id != categories[j].id
  }

  predicate UniqueTransactionIds(transactions: seq<Transaction>) {
    forall i, j :: 0 <= i < j < |transactions| ==> transactions[i].id != transactions[j].id
  }

  /**
   * The store invariant every service preserves: ids are unique and below
   * the counter, every transaction refers to an existing account and an
   * existing category, and every balance snapshot is consistent.
   */
  predicate Valid(s: Store) {
    && UniqueAccountIds(s.accounts)
    && UniqueCategoryIds(s.categories)
    && UniqueTransactionIds(s.transactions)
    && (forall i :: 0 <= i < |s.accounts| ==> s.accounts[i].id < s.nextId)
    && (forall i :: 0 <= i < |s.categories| ==> s.categories[i].id < s.nextId)
    && (forall i :: 0 <= i < |s.transactions| ==> s.transactions[i].id < s.nextId)
    && (forall i :: 0 <= i < |s.transactions| ==> HasAccount(s.accounts, s.transactions[i].accountId))
    && (forall i :: 0 <= i < |s.transactions| ==> HasCategory(s.categories, s.transactions[i].categoryId))
    && (forall i :: 0 <= i < |s.transactions| ==> SnapshotConsistent(s.transactions[i]))
  }

  /** `findFirst({ where: { id, userId } })` on accounts. */
  function FindOwnedAccount(accounts: seq<Account>, userId: Id, id: Id): (r: Option<Account>)
    ensures r.Some? ==> r.value in accounts && r.value.id == id && r.value.userId == userId
    ensures r.None? ==> forall a :: a in accounts ==> !(a.id == id && a.userId == userId)
  {
    if accounts == [] then None
    else if accounts[0].id == id && accounts[0].userId == userId then Some(accounts[0])
    else FindOwnedAccount(accounts[1..], userId, id)
  }

  /** `findUnique({ where: { id } })` on categories. */
  function FindCategory(categories: seq<Category>, id: Id): (r: Option<Category>)
    ensures r.Some? ==> r.value in categories && r.value.id == id
    ensures r.None? ==> forall i :: 0 <= i < |categories| ==> categories[i].id != id
  {
    if categories == [] then None
    else if categories[0].id == id then Some(categories[0])
    else FindCategory(categories[1..], id)
  }

  /** `findFirst({ where: { id, userId } })` on categories: never matches a system category. */
  function FindOwnedCategory(categories: seq<Category>, userId: Id, id: Id): (r: Option<Category>)
    ensures r.Some? ==> r.value in categories && r.value.id == id && r.value.userId == Some(userId)
    ensures r.None? ==> forall c :: c in categories ==> !(c.id == id && c.userId == Some(userId))
  {
    if categories == [] then None
    else if categories[0].id == id && categories[0].userId == Some(userId) then Some(categories[0])
    else FindOwnedCategory(categories[1..], userId, id)
  }

  /** `findUnique({ where: { id } })` on accounts: the row an `include: { account: true }` joins. */
  function FindAccount(accounts: seq<Account>, id: Id): (r: Option<Account>)
    ensures r.Some? ==> r.value in accounts && r.value.id == id
    ensures r.None? ==> forall i :: 0 <= i < |accounts| ==> accounts[i].id != id
  {
    if accounts == [] then None
    else if accounts[0].id == id then Some(accounts[0])
    else FindAccount(accounts[1..], id)
  }

  /** With unique ids, the lookup by id finds the one row that has it. */
  lemma {:induction false} FindAccountUnique(accounts: seq<Account>, a: Account)
    requires UniqueAccountIds(accounts) && a in accounts
    ensures FindAccount(accounts, a.id) == Some(a)
  {
    if accounts[0] != a {
      FindAccountUnique(accounts[1..], a);
    }
  }

  /** The balance of the account with that id, 0 when there is none. */
  function BalanceOf(accounts: seq<Account>, id: Id): (b: int)
    ensures UniqueAccountIds(accounts) ==> forall i :: 0 <= i < |accounts| && accounts[i].id == id ==> b == accounts[i].balance
    ensures (forall i :: 0 <= i < |accounts| ==> accounts[i].id != id) ==> b == 0
  {
    match FindAccount(accounts, id)
    case None => 0
    case Some(a) => a.balance
  }

  /** `update({ where: { id }, data })` on accounts: the rows with that id are rewritten by `patch`, the rest kept. */
  function UpdateAccounts(accounts: seq<Account>, id: Id, patch: Account -> Account): (r: seq<Account>)
    ensures |r| == |accounts|
    ensures (forall i :: 0 <= i < |accounts| ==> patch(accounts[i]).id == accounts[i].id) ==> SameIds(accounts, r)
  {
    seq(|accounts|, i requires 0 <= i < |accounts| => if accounts[i].id == id then patch(accounts[i]) else accounts[i])
  }

  /** `update({ where: { id }, data })` on categories. */
  function UpdateCategories(categories: seq<Category>, id: Id, patch: Category -> Category): (r: seq<Category>)
    ensures |r| == |categories|
    ensures forall i :: 0 <= i < |categories| && categories[i].id != id ==> r[i] == categories[i]
  {
    seq(|categories|, i requires 0 <= i < |categories| => if categories[i].id == id then patch(categories[i]) else categories[i])
  }

  /** `delete({ where: { id } })` on categories. */
  function RemoveCategory(categories: seq<Category>, id: Id): (r: seq<Category>)
    ensures forall c :: c in r <==> c in categories && c.id != id
    ensures |r| <= |categories|
    ensures UniqueCategoryIds(categories) ==> UniqueCategoryIds(r)
  {
    if categories == [] then []
    else if categories[0].id == id then RemoveCategory(categories[1..], id)
    else
      var rest := RemoveCategory(categories[1..], id);
      assert UniqueCategoryIds(categories) ==> forall j :: 0 <= j < |rest| ==> rest[j].id != categories[0].id by {
        if UniqueCategoryIds(categories) {
          forall j | 0 <= j < |rest| ensures rest[j].id != categories[0].id {
            var k :| 0 <= k < |categories[1..]| && categories[1..][k] == rest[j];
            assert categories[k + 1] == rest[j];
          }
        }
      }
      [categories[0]] + rest
  }

  /** Two account tables with the same ids in the same positions. */
  predicate SameIds(a: seq<Account>, b: seq<Account>) {
    |a| == |b| && forall i :: 0 <= i < |a| ==> a[i].id == b[i].id
  }

  /**
   * Appending a transaction with a fresh id, an existing account and
   * category and a consistent snapshot, while account rows keep their ids,
   * keeps the store invariant.
   */
  lemma RecordKeepsValid(s: Store, accounts: seq<Account>, t: Transaction)
    requires Valid(s)
    requires SameIds(s.accounts, accounts)
    requires t.id == s.nextId
    requires HasAccount(s.accounts, t.accountId) && HasCategory(s.categories, t.categoryId)
    requires SnapshotConsistent(t)
    ensures Valid(Store(accounts, s.categories, s.transactions + [t], s.nextId + 1))
  {
    var ts := s.transactions + [t];
    forall i | 0 <= i < |ts| ensures HasAccount(accounts, ts[i].accountId) {
      var m :| 0 <= m < |s.accounts| && s.accounts[m].id == ts[i].accountId;
      assert accounts[m].id == ts[i].accountId;
    }
  }

  /**
   * A transaction refers to the category: the list an `include: { transactions }`
   * join attaches to the category is not empty.
   */
  predicate References(transactions: seq<Transaction>, categoryId: Id)
    ensures References(transactions, categoryId) <==> |Sequences.Filter(transactions, OnCategory(categoryId))| > 0
  {
    JoinedNonEmpty(transactions, categoryId);
    exists i :: 0 <= i < |transactions| && transactions[i].categoryId == categoryId
  }

  lemma JoinedNonEmpty(transactions: seq<Transaction>, categoryId: Id)
    ensures (exists i :: 0 <= i < |transactions| && transactions[i].categoryId == categoryId)
            <==> |Sequences.Filter(transactions, OnCategory(categoryId))| > 0
  {
    var joined := Sequences.Filter(transactions, OnCategory(categoryId));
    if i :| 0 <= i < |transactions| && transactions[i].categoryId == categoryId {
      assert OnCategory(categoryId)(transactions[i]) && transactions[i] in transactions;
      assert transactions[i] in joined;
    }
    if |joined| > 0 {
      assert OnCategory(categoryId)(joined[0]) && joined[0] in transactions;
      var k :| 0 <= k < |transactions| && transactions[k] == joined[0];
    }
  }
}

=== FILE: text.dfy ===
/**
 * The JavaScript string operations the services and schemas rely on:
 * `trim`, `toLowerCase` (on ASCII letters), `includes`, `padStart`,
 * `Number.prototype.toString(radix)` and `join`, over `string` = `seq<char>`.
 */
module Text {

  /** JavaScript's WhiteSpace and LineTerminator code points: what `trim` strips and `parseInt` skips. */
  predicate IsSpace(c: char) {
    || c == ' ' || c == '\t' || c == '\n' || c == '\r'
    || c == '\U{000B}' || c == '\U{000C}' || c == '\U{00A0}' || c == '\U{1680}'
    || ('\U{2000}' <= c <= '\U{200A}')
    || c == '\U{2028}' || c == '\U{2029}' || c == '\U{202F}' || c == '\U{205F}'
    || c == '\U{3000}' || c == '\U{FEFF}'
  }

  predicate AllSpace(s: string) {
    forall i :: 0 <= i < |s| ==> IsSpace(s[i])
  }

  /** `s.trimStart()`: the suffix left after dropping leading white space. */
  function TrimStart(s: string): (r: string)
    ensures |r| <= |s| && r == s[|s| - |r|..]
    ensures AllSpace(s[..|s| - |r|])
    ensures |r| > 0 ==> !IsSpace(r[0])
  {
    if |s| > 0 && IsSpace(s[0]) then TrimStart(s[1..]) else s
  }

  /** `s.trimEnd()`: the prefix left after dropping trailing white space. */
  function TrimEnd(s: string): (r: string)
    ensures |r| <= |s| && r == s[..|r|]
    ensures AllSpace(s[|r|..])
    ensures |r| > 0 ==> !IsSpace(r[|r| - 1])
  {
    if |s| > 0 && IsSpace(s[|s| - 1]) then TrimEnd(s[..|s| - 1]) else s
  }

  /** `s.trim()`. */
  function Trim(s: string): (r: string)
    ensures |r| <= |s|
    ensures |r| > 0 ==> !IsSpace(r[0]) && !IsSpace(r[|r| - 1])
    ensures r == [] <==> AllSpace(s)
  {
    TrimEnd(TrimStart(s))
  }

  lemma TrimStartOfTrimmed(s: string)
    requires |s| > 0 ==> !IsSpace(s[0])
    ensures TrimStart(s) == s
  {
  }

  lemma TrimEndOfTrimmed(s: string)
    requires |s| > 0 ==> !IsSpace(s[|s| - 1])
    ensures TrimEnd(s) == s
  {
  }

  /** Trimming twice is trimming once. */
  lemma TrimIdempotent(s: string)
    ensures Trim(Trim(s)) == Trim(s)
  {
    var t := Trim(s);
    TrimStartOfTrimmed(t);
    TrimEndOfTrimmed(t);
  }

  /** `toLowerCase` on one character; only ASCII letters are modelled. */
  function LowerChar(c: char): char {
    if 'A' <= c <= 'Z' then (c as int - 'A' as int + 'a' as int) as char else c
  }

  predicate IsUpper(c: char) {
    'A' <= c <= 'Z'
  }

  /** `s.toLowerCase()`. */
  function Lower(s: string): (r: string)
    ensures |r| == |s|
    ensures forall i :: 0 <= i < |s| ==> r[i] == LowerChar(s[i])
    ensures forall i :: 0 <= i < |r| ==> !IsUpper(r[i])
  {
    if s == [] then [] else [LowerChar(s[0])] + Lower(s[1..])
  }

  /** Lowercasing twice is lowercasing once. */
  lemma LowerIdempotent(s: string)
    ensures Lower(Lower(s)) == Lower(s)
  {
  }

  lemma LowerConcat(a: string, b: string)
    ensures Lower(a + b) == Lower(a) + Lower(b)
  {
  }

  /** A string with no upper-case ASCII letter is its own lowercase form. */
  lemma LowerOfLower(s: string)
    requires forall i :: 0 <= i < |s| ==> !IsUpper(s[i])
    ensures Lower(s) == s
  {
  }

  predicate IsPrefix(p: string, s: string) {
    |p| <= |s| && s[..|p|] == p
  }

  predicate OccursAt(t: string, s: string, i: int) {
    0 <= i <= |s| - |t| && s[i..i + |t|] == t
  }

  /** `s.includes(t)`, the unanchored substring test a regular expression alternative makes. */
  function Contains(s: string, t: string): (r: bool)
    ensures r <==> exists i :: OccursAt(t, s, i)
  {
    if IsPrefix(t, s) then
      assert OccursAt(t, s, 0);
      true
    else if |s| == 0 then
      assert forall i :: !OccursAt(t, s, i);
      false
    else
      var r := Contains(s[1..], t);
      assert forall i :: OccursAt(t, s[1..], i) <==> OccursAt(t, s, i + 1) by {
        forall i ensures OccursAt(t, s[1..], i) <==> OccursAt(t, s, i + 1) {
          if 0 <= i <= |s| - 1 - |t| {
            assert s[1..][i..i + |t|] == s[i + 1..i + 1 + |t|];
          }
        }
      }
      assert r ==> exists i :: OccursAt(t, s, i) by {
        if r {
          var i :| OccursAt(t, s[1..], i);
          assert OccursAt(t, s, i + 1);
        }
      }
      assert (exists i :: OccursAt(t, s, i)) ==> r by {
        if exists i :: OccursAt(t, s, i) {
          var i :| OccursAt(t, s, i);
          if i != 0 {
            assert OccursAt(t, s[1..], i - 1);
          }
        }
      }
      r
  }

  /** The digit `d` as `Number.prototype.toString(radix)` writes it: 0-9, then lower-case a-z. */
  function DigitChar(d: nat): char
    requires d < 36
  {
    if d < 10 then ('0' as int + d) as char else ('a' as int + d - 10) as char
  }

  /** `n.toString(radix)` for a non-negative integer: no sign, no leading zero. */
  function ToRadix(n: nat, radix: nat): (r: string)
    requires 2 <= radix <= 36
    ensures |r| >= 1
    ensures |r| > 1 ==> r[0] != '0'
    decreases n
  {
    if n < radix then [DigitChar(n)] else ToRadix(n / radix, radix) + [DigitChar(n % radix)]
  }

  /** `s.padStart(width, c)` with a one-character pad string. */
  function PadStart(s: string, width: nat, c: char): (r: string)
    ensures |r| == if |s| < width then width else |s|
    ensures r[|r| - |s|..] == s
    ensures forall i :: 0 <= i < |r| - |s| ==> r[i] == c
  {
    if |s| < width then seq(width - |s|, _ => c) + s else s
  }

  /** `parts.join(sep)`. */
  function Join(parts: seq<string>, sep: string): (r: string)
    ensures parts == [] ==> r == []
    ensures |parts| == 1 ==> r == parts[0]
  {
    if parts == [] then []
    else if |parts| == 1 then parts[0]
    else Join(parts[..|parts| - 1], sep) + sep + parts[|parts| - 1]
  }

  predicate IsDigit(c: char) {
    '0' <= c <= '9'
  }

  predicate AllDigits(s: string) {
    forall i :: 0 <= i < |s| ==> IsDigit(s[i])
  }

  function DigitValue(c: char): nat
    requires IsDigit(c)
  {
    c as int - '0' as int
  }

  /** The number a string of decimal digits denotes (leading zeros allowed). */
  function DecimalValue(s: string): nat
    requires AllDigits(s)
  {
    if s == [] then 0 else 10 * DecimalValue(s[..|s| - 1]) + DigitValue(s[|s| - 1])
  }

  /** `s.split(c)` for a one-character separator; a string always splits into at least one piece. */
  function Split(s: string, c: char): (r: seq<string>)
    ensures |r| >= 1
  {
    if s == [] then [[]]
    else
      var init := Split(s[..|s| - 1], c);
      if s[|s| - 1] == c then init + [[]]
      else init[..|init| - 1] + [init[|init| - 1] + [s[|s| - 1]]]
  }

  /**
   * The first piece of a split is the text before the first separator: a
   * separator-free prefix, followed by the separator unless it is the whole
   * string.
   */
  lemma {:induction false} SplitFirstPiece(s: string, c: char)
    ensures IsPrefix(Split(s, c)[0], s)
    ensures c !in Split(s, c)[0]
    ensures |Split(s, c)[0]| < |s| ==> s[|Split(s, c)[0]|] == c
    ensures |Split(s, c)| == 1 ==> Split(s, c)[0] == s
    ensures |Split(s, c)| > 1 ==> |Split(s, c)[0]| < |s|
    decreases |s|
  {
    if s != [] {
      var p := s[..|s| - 1];
      var x := s[|s| - 1];
      SplitFirstPiece(p, c);
      var init := Split(p, c);
      var f := Split(s, c)[0];
      SplitSnocFirst(s, c);
      if f == init[0] {
        assert s[..|p|] == p;
      } else {
        assert p + [x] == s;
      }
    }
  }

  /** How appending one character changes the first piece of a split. */
  lemma SplitSnocFirst(s: string, c: char)
    requires s != []
    ensures var init := Split(s[..|s| - 1], c);
            if s[|s| - 1] == c || |init| > 1 then Split(s, c)[0] == init[0] && |Split(s, c)| > 1
            else Split(s, c) == [init[0] + [s[|s| - 1]]]
  {
  }

  lemma {:induction false} SplitAppendPiece(a: string, c: char, b: string)
    requires forall i :: 0 <= i < |b| ==> b[i] != c
    ensures Split(a + [c] + b, c) == Split(a, c) + [b]
    decreases |b|
  {
    if b == [] {
      assert (a + [c] + b)[..|a|] == a;
    } else {
      var b' := b[..|b| - 1];
      SplitAppendPiece(a, c, b');
      assert (a + [c] + b)[..|a| + 1 + |b'|] == a + [c] + b';
      assert b' + [b[|b| - 1]] == b;
    }
  }

  lemma {:induction false} SplitNoSeparator(b: string, c: char)
    requires forall i :: 0 <= i < |b| ==> b[i] != c
    ensures Split(b, c) == [b]
    decreases |b|
  {
    if b != [] {
      SplitNoSeparator(b[..|b| - 1], c);
      assert b[..|b| - 1] + [b[|b| - 1]] == b;
    }
  }

  /** Splitting a join on its one-character separator gives the parts back, when no part contains it. */
  lemma {:induction false} SplitJoin(parts: seq<string>, c: char)
    requires |parts| >= 1
    requires forall k, i :: 0 <= k < |parts| && 0 <= i < |parts[k]| ==> parts[k][i] != c
    ensures Split(Join(parts, [c]), c) == parts
    decreases |parts|
  {
    if |parts| == 1 {
      SplitNoSeparator(parts[0], c);
    } else {
      var init := parts[..|parts| - 1];
      var last := parts[|parts| - 1];
      assert forall k :: 0 <= k < |init| ==> init[k] == parts[k];
      SplitJoin(init, c);
      assert forall i :: 0 <= i < |last| ==> last[i] != c;
      assert Join(parts, [c]) == Join(init, [c]) + [c] + last;
      SplitAppendPiece(Join(init, [c]), c, last);
      assert init + [last] == parts;
    }
  }

  // ---------------------------------------------------------------------------
  // Ordering

  /** Lexicographic order on code points: a prefix comes first. */
  predicate StrLe(a: string, b: string) {
    if a == [] then true
    else if b == [] then false
    else if a[0] != b[0] then a[0] < b[0]
    else StrLe(a[1..], b[1..])
  }

  lemma {:induction false} StrLeTotal(a: string, b: string)
    ensures StrLe(a, b) || StrLe(b, a)
  {
    if a != [] && b != [] && a[0] == b[0] {
      StrLeTotal(a[1..], b[1..]);
    }
  }

  lemma {:induction false} StrLeTransitive(a: string, b: string, c: string)
    requires StrLe(a, b) && StrLe(b, c)
    ensures StrLe(a, c)
  {
    if a != [] && b != [] && c != [] && a[0] == b[0] && b[0] == c[0] {
      StrLeTransitive(a[1..], b[1..], c[1..]);
    }
  }

  /** Two texts each ordered before the other are the same text. */
  lemma {:induction false} StrLeAntisymmetric(a: string, b: string)
    requires StrLe(a, b) && StrLe(b, a)
    ensures a == b
  {
    if a != [] && b != [] {
      StrLeAntisymmetric(a[1..], b[1..]);
      assert a == [a[0]] + a[1..] && b == [b[0]] + b[1..];
    }
  }
}

=== FILE: transactions_models.dfy ===
/**
 * The transaction schemas (src/modules/transactions/transactions.models.ts):
 * the listing's query parameters, the create body, and what the response
 * schema says of a listed row.
 */
module TransactionsModels {
  import opened Wrappers
  import opened Text
  import opened Failures
  import opened Zod
  import opened Store
  import Generate
  import AccountsModels

  /** A create request that passed `createTransactionSchema`; the ids are the rows the uuid texts name. */
  datatype CreateRequest = CreateRequest(
    amount: int,
    accountId: Id,
    categoryId: Id,
    kind: TxType,
    transactionDate: string,
    transactionTime: Option<string>,
    description: Option<string>,
    merchantName: Option<string>,
    merchantLocation: Option<string>)

  /** The parsed query of `transactionParamsSchema`; `limit` and `page` are already numbers. */
  datatype ListParams = ListParams(
    startDate: Option<Time>,
    endDate: Option<Time>,
    search: Option<string>,
    accountId: Option<Id>,
    categoryId: Option<Id>,
    kind: Option<TxType>,
    limit: int,
    page: int)

  const DefaultLimit: int := 10
  const DefaultPage: int := 1

  const NegativeAmount: string := "Amount must be greater than or equal to 0"
  const BadDateFormat: string := "Invalid date format (YYYY-MM-DD)"
  const BadTimeFormat: string := "Invalid time format (HH:mm[:ss])"
  const DescriptionTooLong: string := "Too big: expected string to have <=500 characters"
  const MaxDescription: nat := 500

  // ---------------------------------------------------------------------------
  // parseInt

  /** The longest run of decimal digits at the start of `s`. */
  function DigitPrefix(s: string): (r: string)
    ensures AllDigits(r) && IsPrefix(r, s)
    ensures |r| < |s| ==> !IsDigit(s[|r|])
  {
    if s != [] && IsDigit(s[0]) then [s[0]] + DigitPrefix(s[1..]) else []
  }

  lemma {:induction false} DigitPrefixOf(digits: string, rest: string)
    requires AllDigits(digits)
    requires rest == [] || !IsDigit(rest[0])
    ensures DigitPrefix(digits + rest) == digits
  {
    if digits == [] {
      assert digits + rest == rest;
    } else {
      assert (digits + rest)[1..] == digits[1..] + rest;
      DigitPrefixOf(digits[1..], rest);
    }
  }

  /** `parseInt` after the white space: an optional sign, then the digits. */
  function ParseSigned(t: string): Option<int> {
    var signed := |t| > 0 && (t[0] == '-' || t[0] == '+');
    var digits := DigitPrefix(if signed then t[1..] else t);
    var magnitude: int := DecimalValue(digits);
    if digits == [] then None
    else if signed && t[0] == '-' then Some(-magnitude)
    else Some(magnitude)
  }

  /**
   * `parseInt(s, 10)`: leading white space skipped, an optional sign, then
   * the longest run of digits; `None` (NaN) when there is no digit.
   */
  function ParseInt(s: string): Option<int> {
    ParseSigned(TrimStart(s))
  }

  /** A text that starts with a digit or a sign has no white space to skip. */
  lemma NoLeadingSpace(s: string)
    requires |s| > 0 && (IsDigit(s[0]) || s[0] == '-')
    ensures TrimStart(s) == s
  {
    assert !IsSpace(s[0]);
    TrimStartOfTrimmed(s);
  }

  /** Digits followed by a non-digit are read as their decimal value. */
  lemma ParseUnsignedDigits(digits: string, rest: string)
    requires AllDigits(digits) && digits != []
    requires rest == [] || !IsDigit(rest[0])
    ensures ParseSigned(digits + rest) == Some(DecimalValue(digits))
  {
    var t := digits + rest;
    assert t[0] == digits[0];
    assert !(t[0] == '-' || t[0] == '+');
    DigitPrefixOf(digits, rest);
    assert DigitPrefix(t) == digits;
  }

  /** A minus sign in front of the digits negates their value. */
  lemma ParseNegativeDigits(digits: string, rest: string)
    requires AllDigits(digits) && digits != []
    requires rest == [] || !IsDigit(rest[0])
    ensures ParseSigned(['-'] + digits + rest) == Some(-(DecimalValue(digits) as int))
  {
    var t := ['-'] + digits + rest;
    assert t[1..] == digits + rest;
    DigitPrefixOf(digits, rest);
    assert DigitPrefix(t[1..]) == digits;
  }

  /** `parseInt` reads back what `toString` writes, and stops at the first character that is not a digit. */
  lemma ParseIntReadsDecimal(n: nat, rest: string)
    requires rest == [] || !IsDigit(rest[0])
    ensures ParseInt(ToRadix(n, 10) + rest) == Some(n)
  {
    var d := ToRadix(n, 10);
    Generate.ToDecimalRoundTrip(n);
    ParseUnsignedDigits(d, rest);
    var s := d + rest;
    assert s[0] == d[0];
    NoLeadingSpace(s);
  }

  /** The same with a minus sign in front. */
  lemma ParseIntReadsNegative(n: nat, rest: string)
    requires rest == [] || !IsDigit(rest[0])
    ensures ParseInt(['-'] + ToRadix(n, 10) + rest) == Some(-(n as int))
  {
    var d := ToRadix(n, 10);
    Generate.ToDecimalRoundTrip(n);
    ParseNegativeDigits(d, rest);
    NoLeadingSpace(['-'] + d + rest);
  }

  /** A parameter that is present and not empty. */
  predicate Filled(query: map<string, string>, key: string) {
    key in query && query[key] != ""
  }

  /** What `limit` or `page` reads as: `parseInt` of the text when it is filled in, the default otherwise. */
  function PagingValue(query: map<string, string>, key: string, default: int): Option<int> {
    if Filled(query, key) then ParseInt(query[key]) else Some(default)
  }

  /**
   * The `limit` and `page` preprocessing: an absent or empty parameter is the
   * default, anything else goes through `parseInt`, and NaN fails `z.number()`.
   */
  function PagingNumber(query: map<string, string>, key: string, default: int): (r: Parsed<int>)
    ensures r.Passes() <==> PagingValue(query, key, default).Some?
    ensures r.Passes() ==> r.value == PagingValue(query, key, default)
  {
    if !Filled(query, key) then Parsed(Some(default), [])
    else match ParseInt(query[key])
      case Some(n) => Parsed(Some(n), [])
      case None => Parsed(None, [FieldIssue(key, NotANumber)])
  }

  predicate DateValid(query: map<string, string>, key: string, toDate: string -> Option<Time>) {
    key in query ==> toDate(query[key]).Some?
  }

  /**
   * A date parameter: a string becomes `new Date(text)` (`toDate`, `None`
   * for an invalid date, which `z.date()` rejects); absent stays absent.
   * Unlike the summary's parameters, an empty string is not read as absent.
   */
  function DateParam(query: map<string, string>, key: string, toDate: string -> Option<Time>): (r: Parsed<Option<Time>>)
    ensures r.Passes() <==> DateValid(query, key, toDate)
    ensures r.Passes() ==> r.value.value == if key in query then toDate(query[key]) else None
  {
    if key !in query then Parsed(Some(None), [])
    else match toDate(query[key])
      case Some(t) => Parsed(Some(Some(t)), [])
      case None => Parsed(None, [FieldIssue(key, InvalidDate)])
  }

  function Query(query: map<string, string>, key: string): Option<string> {
    if key in query then Some(query[key]) else None
  }

  function AsValue(v: Option<string>): Option<Value> {
    if v.Some? then Some(Str(v.value)) else None
  }

  predicate IdValid(query: map<string, string>, key: string) {
    key in query ==> IsUuidText(query[key])
  }

  /** An optional uuid parameter, naming a row through `idOf`. */
  function IdParam(query: map<string, string>, key: string, idOf: string -> Id): (r: Parsed<Option<Id>>)
    ensures r.Passes() <==> IdValid(query, key)
    ensures r.Passes() ==> r.value.value == if key in query then Some(idOf(query[key])) else None
  {
    var v := AsValue(Query(query, key));
    var p := Optional(v, ParseString(UuidSchema(), key, v));
    Parsed(if p.Passes() then Some(if p.value.value.Some? then Some(idOf(p.value.value.value)) else None) else None, p.issues)
  }

  predicate KindValid(query: map<string, string>) {
    "type" in query ==> query["type"] in TxTypeNames
  }

  function KindParam(query: map<string, string>): (r: Parsed<Option<TxType>>)
    ensures r.Passes() <==> KindValid(query)
    ensures r.Passes() ==> r.value.value == if "type" in query then TxTypeOf(query["type"]) else None
  {
    var v := AsValue(Query(query, "type"));
    var p := Optional(v, ParseEnum("type", v, TxTypeNames));
    Parsed(if p.Passes() then Some(if p.value.value.Some? then TxTypeOf(p.value.value.value) else None) else None, p.issues)
  }

  /** `transactionParamsSchema` over the query string. */
  function ParseParams(query: map<string, string>, toDate: string -> Option<Time>, idOf: string -> Id): (r: Result<ListParams, AppError>)
    ensures r.Ok? <==>
              && DateValid(query, "startDate", toDate) && DateValid(query, "endDate", toDate)
              && IdValid(query, "accountId") && IdValid(query, "categoryId") && KindValid(query)
              && PagingValue(query, "limit", DefaultLimit).Some? && PagingValue(query, "page", DefaultPage).Some?
    ensures r.Ok? ==>
              && r.value.startDate == (if "startDate" in query then toDate(query["startDate"]) else None)
              && r.value.endDate == (if "endDate" in query then toDate(query["endDate"]) else None)
              && r.value.search == Query(query, "search")
              && r.value.accountId == (if "accountId" in query then Some(idOf(query["accountId"])) else None)
              && r.value.categoryId == (if "categoryId" in query then Some(idOf(query["categoryId"])) else None)
              && r.value.kind == (if "type" in query then TxTypeOf(query["type"]) else None)
              && r.value.limit == PagingValue(query, "limit", DefaultLimit).value
              && r.value.page == PagingValue(query, "page", DefaultPage).value
  {
    var startDate := DateParam(query, "startDate", toDate);
    var endDate := DateParam(query, "endDate", toDate);
    var accountId := IdParam(query, "accountId", idOf);
    var categoryId := IdParam(query, "categoryId", idOf);
    var kind := KindParam(query);
    var limit := PagingNumber(query, "limit", DefaultLimit);
    var page := PagingNumber(query, "page", DefaultPage);
    var issues := startDate.issues + endDate.issues + accountId.issues + categoryId.issues + kind.issues + limit.issues + page.issues;
    if startDate.Passes() && endDate.Passes() && accountId.Passes() && categoryId.Passes() && kind.Passes() && limit.Passes() && page.Passes() then
      Verdict(issues, ListParams(startDate.value.value, endDate.value.value, Query(query, "search"), accountId.value.value,
                                 categoryId.value.value, kind.value.value, limit.value.value, page.value.value))
    else Err(ZodError(issues))
  }

  /** Without `limit` and `page` the listing shows the first page of ten. */
  lemma DefaultPaging(query: map<string, string>, toDate: string -> Option<Time>, idOf: string -> Id)
    requires "limit" !in query && "page" !in query
    ensures var r := ParseParams(query, toDate, idOf);
            r.Ok? ==> r.value.limit == 10 && r.value.page == 1
  {
  }

  /**
   * An empty `startDate` in the listing's query is an invalid date and fails
   * the parse, where the summary's parameters read it as absent.
   */
  lemma EmptyDateRejected(query: map<string, string>, toDate: string -> Option<Time>, idOf: string -> Id)
    requires toDate("").None?
    ensures ParseParams(query["startDate" := ""], toDate, idOf).Err?
    ensures AccountsModels.ParseSummaryParams(query["startDate" := ""], toDate) == AccountsModels.ParseSummaryParams(query - {"startDate"}, toDate)
  {
  }

  // ---------------------------------------------------------------------------
  // createTransactionSchema

  /** `/^\d{4}-\d{2}-\d{2}$/`. */
  predicate IsDateText(s: string) {
    && |s| == 10
    && (forall i :: 0 <= i < 10 ==> if i == 4 || i == 7 then s[i] == '-' else IsDigit(s[i]))
  }

  /** `([0-1]\d|2[0-3])`: an hour from 00 to 23. */
  predicate IsHour(a: char, b: char) {
    ('0' <= a <= '1' && IsDigit(b)) || (a == '2' && '0' <= b <= '3')
  }

  /** `([0-5]\d)`: a minute or second from 00 to 59. */
  predicate IsSixty(a: char, b: char) {
    '0' <= a <= '5' && IsDigit(b)
  }

  /** `/^([0-1]\d|2[0-3]):([0-5]\d)(:[0-5]\d)?$/`: `HH:mm` or `HH:mm:ss`. */
  predicate IsTimeText(s: string) {
    && (|s| == 5 || |s| == 8)
    && IsHour(s[0], s[1]) && s[2] == ':' && IsSixty(s[3], s[4])
    && (|s| == 8 ==> s[5] == ':' && IsSixty(s[6], s[7]))
  }

  function FormatSchema(accepts: string -> bool, message: string): StringSchema {
    StringSchema(false, false, [Format(accepts, message)])
  }

  function DescriptionSchema(): StringSchema {
    StringSchema(true, false, [MaxLength(MaxDescription, DescriptionTooLong)])
  }

  function PlainString(): StringSchema {
    StringSchema(false, false, [])
  }

  predicate Given(body: Body, key: string) {
    Get(body, key).Some? && Get(body, key).value.Str?
  }

  function OptionalText(v: Option<Value>, key: string, schema: StringSchema): Parsed<Option<string>> {
    Optional(v, ParseString(schema, key, v))
  }

  function KindAt(body: Body): (r: Parsed<TxType>)
    ensures r.Passes() <==> Given(body, "type") && body["type"].text in TxTypeNames
    ensures r.Passes() ==> TxTypeName(r.value.value) == body["type"].text
  {
    var p := ParseEnum("type", Get(body, "type"), TxTypeNames);
    Parsed(if p.Passes() then TxTypeOf(p.value.value) else None, p.issues)
  }

  function IdAt(body: Body, key: string, idOf: string -> Id): (r: Parsed<Id>)
    ensures r.Passes() <==> Given(body, key) && IsUuidText(body[key].text)
    ensures r.Passes() ==> r.value.value == idOf(body[key].text)
  {
    var p := ParseString(UuidSchema(), key, Get(body, key));
    Parsed(if p.Passes() then Some(idOf(p.value.value)) else None, p.issues)
  }

  predicate AmountValid(body: Body) {
    Get(body, "amount").Some? && Get(body, "amount").value.Num? && Get(body, "amount").value.number >= 0
  }

  predicate TimeValid(body: Body) {
    "transactionTime" in body ==> Given(body, "transactionTime") && IsTimeText(body["transactionTime"].text)
  }

  predicate DescriptionValid(body: Body) {
    "description" in body ==> Given(body, "description") && |Trim(body["description"].text)| <= MaxDescription
  }

  predicate TextOrAbsent(body: Body, key: string) {
    key in body ==> Given(body, key)
  }

  function AmountAt(body: Body): (r: Parsed<int>)
    ensures r.Passes() <==> AmountValid(body)
    ensures r.Passes() ==> r.value.value == body["amount"].number
  {
    ParseNumber("amount", Get(body, "amount"), Some((0, NegativeAmount)))
  }

  function DateAt(body: Body): (r: Parsed<string>)
    ensures r.Passes() <==> Given(body, "transactionDate") && IsDateText(body["transactionDate"].text)
    ensures r.Passes() ==> r.value.value == body["transactionDate"].text
  {
    ParseString(FormatSchema(IsDateText, BadDateFormat), "transactionDate", Get(body, "transactionDate"))
  }

  function TimeAt(body: Body): (r: Parsed<Option<string>>)
    ensures r.Passes() <==> TimeValid(body)
    ensures r.Passes() ==> r.value.value == if "transactionTime" in body then Some(body["transactionTime"].text) else None
  {
    OptionalText(Get(body, "transactionTime"), "transactionTime", FormatSchema(IsTimeText, BadTimeFormat))
  }

  function DescriptionAt(body: Body): (r: Parsed<Option<string>>)
    ensures r.Passes() <==> DescriptionValid(body)
    ensures r.Passes() ==> r.value.value == if "description" in body then Some(Trim(body["description"].text)) else None
  {
    OptionalText(Get(body, "description"), "description", DescriptionSchema())
  }

  function TextAt(body: Body, key: string): (r: Parsed<Option<string>>)
    ensures r.Passes() <==> TextOrAbsent(body, key)
    ensures r.Passes() ==> r.value.value == if key in body then Some(body[key].text) else None
  {
    OptionalText(Get(body, key), key, PlainString())
  }

  /**
   * `createTransactionSchema`: a non-negative amount, uuid account and
   * category, a known type, a `YYYY-MM-DD` date, optionally an `HH:mm[:ss]`
   * time, a description of at most 500 characters once trimmed, and
   * optional merchant texts. The description is kept trimmed.
   */
  function ParseCreate(body: Body, idOf: string -> Id): (r: Result<CreateRequest, AppError>)
    ensures r.Ok? <==>
              && AmountValid(body)
              && Given(body, "accountId") && IsUuidText(body["accountId"].text)
              && Given(body, "categoryId") && IsUuidText(body["categoryId"].text)
              && Given(body, "type") && body["type"].text in TxTypeNames
              && Given(body, "transactionDate") && IsDateText(body["transactionDate"].text)
              && TimeValid(body) && DescriptionValid(body)
              && TextOrAbsent(body, "merchantName") && TextOrAbsent(body, "merchantLocation")
    ensures r.Ok? ==>
              && r.value.amount == body["amount"].number
              && r.value.accountId == idOf(body["accountId"].text)
              && r.value.categoryId == idOf(body["categoryId"].text)
              && TxTypeName(r.value.kind) == body["type"].text
              && r.value.transactionDate == body["transactionDate"].text
              && r.value.transactionTime == (if "transactionTime" in body then Some(body["transactionTime"].text) else None)
              && r.value.description == (if "description" in body then Some(Trim(body["description"].text)) else None)
              && r.value.merchantName == (if "merchantName" in body then Some(body["merchantName"].text) else None)
              && r.value.merchantLocation == (if "merchantLocation" in body then Some(body["merchantLocation"].text) else None)
  {
    var amount := AmountAt(body);
    var accountId := IdAt(body, "accountId", idOf);
    var categoryId := IdAt(body, "categoryId", idOf);
    var kind := KindAt(body);
    var date := DateAt(body);
    var time := TimeAt(body);
    var description := DescriptionAt(body);
    var merchantName := TextAt(body, "merchantName");
    var merchantLocation := TextAt(body, "merchantLocation");
    var issues := amount.issues + accountId.issues + categoryId.issues + kind.issues + date.issues
                  + time.issues + description.issues + merchantName.issues + merchantLocation.issues;
    if && amount.Passes() && accountId.Passes() && categoryId.Passes() && kind.Passes() && date.Passes()
       && time.Passes() && description.Passes() && merchantName.Passes() && merchantLocation.Passes()
    then
      Verdict(issues, CreateRequest(amount.value.value, accountId.value.value, categoryId.value.value, kind.value.value, date.value.value,
                                    time.value.value, description.value.value, merchantName.value.value, merchantLocation.value.value))
    else Err(ZodError(issues))
  }

  /**
   * What `transactionSchema` says of `n` listed rows: each carries its
   * account row, which `accountsSchema` rejects for want of
   * `totalTransactions`.
   */
  function ListedRowIssues(n: nat): (r: seq<Issue>)
    ensures |r| == n
    ensures forall i :: 0 <= i < n ==> r[i].path == [Index(i), Key("account"), Key("totalTransactions")]
  {
    if n == 0 then [] else ListedRowIssues(n - 1) + AccountsModels.AccountRowIssues([Index(n - 1), Key("account")])
  }
}

=== FILE: transactions_services.dfy ===
/**
 * The transaction service (src/modules/transactions/transactions.services.ts):
 * recording a transaction against one of the caller's accounts, which moves
 * that account's balance in the same database transaction, and the filtered,
 * date-ordered, paged listing.
 */
module TransactionsServices {
  import opened Wrappers
  import opened Text
  import opened Failures
  import opened Sequences
  import opened Store
  import opened TransactionsModels

  /** The message keeps the source's trailing space. */
  const AccountNotFound: string := "Account not found "
  const CategoryNotFound: string := "Category not found"
  /** Stand-in for the database client's complaint about an `Invalid Date`. */
  const InvalidTransactionDate: string := "Invalid value for argument `transactionDate`"

  /**
   * `new Date().toTimeString().split(" ")[0]`, with the clock's
   * `toTimeString()` text as the parameter: the text up to its first space.
   */
  function DefaultTime(clock: string): (r: string)
    ensures IsPrefix(r, clock) && ' ' !in r
    ensures |r| < |clock| ==> clock[|r|] == ' '
  {
    SplitFirstPiece(clock, ' ');
    Split(clock, ' ')[0]
  }

  /**
   * When the clock's `toTimeString()` starts with an `HH:mm:ss` time and a
   * space, the default time is that time, and it has the format the create
   * schema demands of a given time.
   */
  lemma DefaultTimeAccepted(time: string, rest: string)
    requires IsTimeText(time)
    ensures DefaultTime(time + " " + rest) == time
    ensures IsTimeText(TimeOrDefault(None, time + " " + rest))
  {
    var clock := time + " " + rest;
    var r := DefaultTime(clock);
    assert clock[|time|] == ' ';
    assert forall i :: 0 <= i < |r| ==> clock[i] == r[i] && clock[i] != ' ';
    assert forall i :: 0 <= i < |time| ==> clock[i] == time[i] && clock[i] != ' ';
    assert |r| == |time|;
    assert r == clock[..|time|] == time;
  }

  /** `request.transactionTime || defaultTime`: an absent or empty time falls back to the clock. */
  function TimeOrDefault(given: Option<string>, clock: string): string {
    if given.Some? && given.value != "" then given.value else DefaultTime(clock)
  }

  /**
   * `TransactionsServices.create`. The account must be the caller's; the
   * category is looked up by id alone (neither its owner nor its type is
   * compared with the request). On success the new row records the
   * account's balance before and after, and the account's balance moves to
   * the after value; both writes happen or neither does. `toDate` is
   * `new Date(...)`, `None` for an invalid date, and `now` the creation time.
   */
  function Create(s: Store, userId: Id, req: CreateRequest, clock: string, toDate: string -> Option<Time>, now: Time): (r: Step<Transaction, AppError>)
    ensures FindOwnedAccount(s.accounts, userId, req.accountId).None? ==> r == Step(s, Err(NotFound("Account not found ")))
    ensures FindOwnedAccount(s.accounts, userId, req.accountId).Some? && FindCategory(s.categories, req.categoryId).None? ==>
              r == Step(s, Err(NotFound("Category not found")))
    ensures r.result.Err? ==> r.store == s
    ensures r.result.Ok? <==>
              && FindOwnedAccount(s.accounts, userId, req.accountId).Some?
              && FindCategory(s.categories, req.categoryId).Some?
              && toDate(req.transactionDate).Some?
    ensures r.result.Ok? ==>
              var t := r.result.value;
              && t.id == s.nextId && t.createdAt == now
              && t.amount == req.amount && t.kind == req.kind
              && t.accountId == req.accountId && t.categoryId == req.categoryId
              && toDate(req.transactionDate) == Some(t.transactionDate)
              && t.description == req.description
              && t.merchantName == req.merchantName && t.merchantLocation == req.merchantLocation
              && (exists a :: a in s.accounts && a.id == req.accountId && a.userId == userId && t.initialBalance == a.balance)
              && t.finalBalance == t.initialBalance + SignedAmount(req.kind, req.amount)
    ensures r.result.Ok? && req.transactionTime.Some? && req.transactionTime.value != "" ==>
              r.result.value.transactionTime == req.transactionTime.value
    ensures r.result.Ok? && (req.transactionTime.None? || req.transactionTime.value == "") ==>
              r.result.value.transactionTime == DefaultTime(clock)
    ensures r.result.Ok? ==>
              && r.store.transactions == s.transactions + [r.result.value]
              && r.store.categories == s.categories
              && r.store.nextId == s.nextId + 1
              && |r.store.accounts| == |s.accounts|
              && forall i :: 0 <= i < |s.accounts| ==>
                   r.store.accounts[i] ==
                     if s.accounts[i].id == req.accountId then s.accounts[i].(balance := r.result.value.finalBalance)
                     else s.accounts[i]
  {
    match FindOwnedAccount(s.accounts, userId, req.accountId)
    case None => Step(s, Err(NotFound(AccountNotFound)))
    case Some(account) =>
      match FindCategory(s.categories, req.categoryId)
      case None => Step(s, Err(NotFound(CategoryNotFound)))
      case Some(_) =>
        var finalBalance := if req.kind == Income then account.balance + req.amount else account.balance - req.amount;
        match toDate(req.transactionDate)
        case None => Step(s, Err(OtherError(InvalidTransactionDate)))
        case Some(date) =>
          var t := Transaction(
            s.nextId, req.amount, req.accountId, req.categoryId, req.kind, date,
            TimeOrDefault(req.transactionTime, clock),
            req.description, req.merchantName, req.merchantLocation,
            account.balance, finalBalance, now);
          var accounts := UpdateAccounts(s.accounts, account.id, (a: Account) => a.(balance := finalBalance));
          Step(Store(accounts, s.categories, s.transactions + [t], s.nextId + 1), Ok(t))
  }

  /** Recording a transaction keeps the store invariant. */
  lemma CreateKeepsValid(s: Store, userId: Id, req: CreateRequest, clock: string, toDate: string -> Option<Time>, now: Time)
    ensures Valid(s) ==> Valid(Create(s, userId, req, clock, toDate, now).store)
  {
    var r := Create(s, userId, req, clock, toDate, now);
    if Valid(s) && r.result.Ok? {
      var t := r.result.value;
      var c := FindCategory(s.categories, req.categoryId).value;
      var j :| 0 <= j < |s.categories| && s.categories[j] == c;
      var a :| a in s.accounts && a.id == req.accountId && a.userId == userId && t.initialBalance == a.balance;
      var k :| 0 <= k < |s.accounts| && s.accounts[k] == a;
      assert HasAccount(s.accounts, t.accountId);
      assert HasCategory(s.categories, t.categoryId);
      assert SameIds(s.accounts, r.store.accounts);
      RecordKeepsValid(s, r.store.accounts, t);
    }
  }

  // ---------------------------------------------------------------------------
  // A session of creates: the passbook of one account

  datatype CreateCall = CreateCall(req: CreateRequest, clock: string, now: Time)

  /** One user's create calls in order, each on the store the previous one left; failed calls change nothing. */
  function RunCreates(s: Store, userId: Id, calls: seq<CreateCall>, toDate: string -> Option<Time>): (r: Store)
    ensures |s.transactions| <= |r.transactions| && r.transactions[..|s.transactions|] == s.transactions
    ensures Valid(s) ==> Valid(r)
    decreases |calls|
  {
    if calls == [] then s
    else
      var prev := RunCreates(s, userId, calls[..|calls| - 1], toDate);
      var c := calls[|calls| - 1];
      CreateKeepsValid(prev, userId, c.req, c.clock, toDate, c.now);
      Create(prev, userId, c.req, c.clock, toDate, c.now).store
  }

  /**
   * `ts` read as a passbook: each row opens at the balance the previous row
   * closed with, the first at `opening`, and the last closes at `closing`.
   */
  predicate Chained(opening: int, ts: seq<Transaction>, closing: int)
    decreases |ts|
  {
    if ts == [] then opening == closing
    else ts[0].initialBalance == opening && SnapshotConsistent(ts[0]) && Chained(ts[0].finalBalance, ts[1..], closing)
  }

  lemma {:induction false} ChainedAppend(opening: int, ts: seq<Transaction>, closing: int, t: Transaction)
    requires Chained(opening, ts, closing)
    requires t.initialBalance == closing && SnapshotConsistent(t)
    ensures Chained(opening, ts + [t], t.finalBalance)
    decreases |ts|
  {
    if ts == [] {
      assert ts + [t] == [t];
      assert [t][1..] == [];
    } else {
      ChainedAppend(ts[0].finalBalance, ts[1..], closing, t);
      assert (ts + [t])[1..] == ts[1..] + [t];
    }
  }

  /** A passbook's closing balance is its opening balance plus the signed amounts of its rows. */
  lemma {:induction false} ChainedSum(opening: int, ts: seq<Transaction>, closing: int)
    requires Chained(opening, ts, closing)
    ensures closing == opening + SumOf(ts, Signed)
    decreases |ts|
  {
    if ts != [] {
      ChainedSum(ts[0].finalBalance, ts[1..], closing);
    }
  }

  /** A create moves the balance of its own account from the row's opening to its closing balance and no other. */
  lemma CreateMovesOneBalance(s: Store, userId: Id, req: CreateRequest, clock: string, toDate: string -> Option<Time>, now: Time, id: Id)
    requires Valid(s)
    ensures var step := Create(s, userId, req, clock, toDate, now);
            step.result.Ok? ==>
              if step.result.value.accountId == id then
                BalanceOf(s.accounts, id) == step.result.value.initialBalance
                && BalanceOf(step.store.accounts, id) == step.result.value.finalBalance
              else BalanceOf(step.store.accounts, id) == BalanceOf(s.accounts, id)
  {
    var step := Create(s, userId, req, clock, toDate, now);
    if step.result.Ok? {
      var t := step.result.value;
      var r := step.store;
      CreateKeepsValid(s, userId, req, clock, toDate, now);
      if t.accountId == id {
        var a :| a in s.accounts && a.id == req.accountId && a.userId == userId && t.initialBalance == a.balance;
        var k :| 0 <= k < |s.accounts| && s.accounts[k] == a;
        assert r.accounts[k].id == id && r.accounts[k].balance == t.finalBalance;
      } else if exists i :: 0 <= i < |s.accounts| && s.accounts[i].id == id {
        var i :| 0 <= i < |s.accounts| && s.accounts[i].id == id;
        assert r.accounts[i] == s.accounts[i];
      } else {
        assert forall i :: 0 <= i < |r.accounts| ==> r.accounts[i].id == s.accounts[i].id;
      }
    }
  }

  /** Appending a row extends the passbook of its account and leaves every other passbook alone. */
  lemma PassbookStep(opening: int, before: seq<Transaction>, n: nat, id: Id, t: Transaction, b0: int, b1: int)
    requires n <= |before|
    requires Chained(opening, Filter(before[n..], OnAccount(id)), b0)
    requires SnapshotConsistent(t)
    requires t.accountId == id ==> t.initialBalance == b0 && b1 == t.finalBalance
    requires t.accountId != id ==> b1 == b0
    ensures Chained(opening, Filter((before + [t])[n..], OnAccount(id)), b1)
  {
    var old_ := Filter(before[n..], OnAccount(id));
    assert (before + [t])[n..] == before[n..] + [t];
    FilterAppend(before[n..], [t], OnAccount(id));
    if t.accountId == id {
      assert Filter([t], OnAccount(id)) == [t];
      ChainedAppend(opening, old_, b0, t);
    } else {
      assert Filter([t], OnAccount(id)) == [];
      assert old_ + [] == old_;
    }
  }

  /** One create extends an account's passbook by its row, or leaves it alone. */
  lemma CreateExtendsPassbook(s: Store, userId: Id, req: CreateRequest, clock: string, toDate: string -> Option<Time>, now: Time,
                              opening: int, n: nat, id: Id)
    requires Valid(s) && n <= |s.transactions|
    requires Chained(opening, Filter(s.transactions[n..], OnAccount(id)), BalanceOf(s.accounts, id))
    ensures var r := Create(s, userId, req, clock, toDate, now).store;
            Chained(opening, Filter(r.transactions[n..], OnAccount(id)), BalanceOf(r.accounts, id))
  {
    var step := Create(s, userId, req, clock, toDate, now);
    if step.result.Ok? {
      var t := step.result.value;
      CreateMovesOneBalance(s, userId, req, clock, toDate, now, id);
      assert SnapshotConsistent(t);
      PassbookStep(opening, s.transactions, n, id, t, BalanceOf(s.accounts, id), BalanceOf(step.store.accounts, id));
    }
  }

  /**
   * Over any session of creates, the transactions recorded on an account
   * form a passbook from the account's balance before the session to its
   * balance after it: no balance change is lost or counted twice.
   */
  lemma {:induction false} RunCreatesChained(s: Store, userId: Id, calls: seq<CreateCall>, toDate: string -> Option<Time>, id: Id)
    requires Valid(s)
    ensures var r := RunCreates(s, userId, calls, toDate);
            Chained(BalanceOf(s.accounts, id), Filter(r.transactions[|s.transactions|..], OnAccount(id)), BalanceOf(r.accounts, id))
    decreases |calls|
  {
    var r := RunCreates(s, userId, calls, toDate);
    var n := |s.transactions|;
    if calls == [] {
      assert r.transactions[n..] == [];
    } else {
      var prev := RunCreates(s, userId, calls[..|calls| - 1], toDate);
      var c := calls[|calls| - 1];
      RunCreatesChained(s, userId, calls[..|calls| - 1], toDate, id);
      CreateExtendsPassbook(prev, userId, c.req, c.clock, toDate, c.now, BalanceOf(s.accounts, id), n, id);
    }
  }

  /** After a session of creates, an account's balance is its old balance plus the signed amounts recorded on it. */
  lemma RunCreatesBalance(s: Store, userId: Id, calls: seq<CreateCall>, toDate: string -> Option<Time>, id: Id)
    requires Valid(s)
    ensures var r := RunCreates(s, userId, calls, toDate);
            BalanceOf(r.accounts, id) == BalanceOf(s.accounts, id) + SumOf(Filter(r.transactions[|s.transactions|..], OnAccount(id)), Signed)
  {
    var r := RunCreates(s, userId, calls, toDate);
    RunCreatesChained(s, userId, calls, toDate, id);
    ChainedSum(BalanceOf(s.accounts, id), Filter(r.transactions[|s.transactions|..], OnAccount(id)), BalanceOf(r.accounts, id));
  }

  // ---------------------------------------------------------------------------
  // Listing

  /** A listed row with the category and account `include` joins. */
  datatype TransactionView = TransactionView(transaction: Transaction, category: Option<Category>, account: Option<Account>)

  /** `{ contains, mode: "insensitive" }` on a nullable column: a missing value never matches. */
  predicate ContainsInsensitive(field: Option<string>, search: string) {
    field.Some? && Contains(Lower(field.value), Lower(search))
  }

  predicate MatchesSearch(t: Transaction, search: string) {
    || ContainsInsensitive(t.description, search)
    || ContainsInsensitive(t.merchantName, search)
    || ContainsInsensitive(t.merchantLocation, search)
  }

  /** The `where` the listing builds. An absent parameter, or an empty `search`, adds no condition. */
  predicate Matches(p: ListParams, t: Transaction) {
    && (p.startDate.Some? ==> p.startDate.value <= t.transactionDate)
    && (p.endDate.Some? ==> t.transactionDate <= p.endDate.value)
    && (p.search.Some? && p.search.value != "" ==> MatchesSearch(t, p.search.value))
    && (p.accountId.Some? ==> t.accountId == p.accountId.value)
    && (p.categoryId.Some? ==> t.categoryId == p.categoryId.value)
    && (p.kind.Some? ==> t.kind == p.kind.value)
  }

  function MatchesParams(p: ListParams): Transaction -> bool {
    (t: Transaction) => Matches(p, t)
  }

  /**
   * The listing order: latest `transactionDate` first and, among rows of the
   * same day, the lower id first. The id is the unique tie-breaker that
   * `orderBy: [{ transactionDate: "desc" }, { id: "asc" }]` would add to the
   * source's date-only order.
   */
  predicate ListedBefore(a: Transaction, b: Transaction) {
    a.transactionDate > b.transactionDate || (a.transactionDate == b.transactionDate && a.id <= b.id)
  }

  function LatestFirst(): (Transaction, Transaction) -> bool {
    (a: Transaction, b: Transaction) => ListedBefore(a, b)
  }

  lemma LatestFirstIsPreorder()
    ensures TotalPreorder(LatestFirst())
  {
    forall a: Transaction, b: Transaction ensures LatestFirst()(a, b) || LatestFirst()(b, a) {
    }
    forall a: Transaction, b: Transaction, c: Transaction | LatestFirst()(a, b) && LatestFirst()(b, c)
      ensures LatestFirst()(a, c)
    {
    }
  }

  /** Every matching row of the whole table, newest first, before paging. */
  function Listing(s: Store, p: ListParams): (r: seq<Transaction>)
    ensures multiset(r) == multiset(Filter(s.transactions, MatchesParams(p)))
    ensures forall i :: 0 <= i < |r| ==> r[i] in s.transactions && Matches(p, r[i])
    ensures forall t :: t in s.transactions && Matches(p, t) ==> t in r
    ensures forall i, j :: 0 <= i < j < |r| ==> r[i].transactionDate >= r[j].transactionDate
    ensures forall i, j :: 0 <= i < j < |r| ==> ListedBefore(r[i], r[j])
  {
    var r := SortBy(Filter(s.transactions, MatchesParams(p)), LatestFirst());
    LatestFirstIsPreorder();
    SortBySorted(Filter(s.transactions, MatchesParams(p)), LatestFirst());
    assert forall i :: 0 <= i < |r| ==> r[i] in multiset(Filter(s.transactions, MatchesParams(p)));
    assert forall t :: t in s.transactions && Matches(p, t) ==> t in multiset(Filter(s.transactions, MatchesParams(p)));
    r
  }

  /**
   * An answer the source's `orderBy: { transactionDate: "desc" }` allows: every
   * matching row once, latest day first, rows of the same day in any order.
   * Each page is a query of its own, and each may come back in another such order.
   */
  predicate DateOrdered(s: Store, p: ListParams, rows: seq<Transaction>) {
    && multiset(rows) == multiset(Filter(s.transactions, MatchesParams(p)))
    && forall i, j :: 0 <= i < j < |rows| ==> rows[i].transactionDate >= rows[j].transactionDate
  }

  /**
   * Ordered by the day alone, two matching rows of the same day may come back
   * as `[a, b]` for page 1 and as `[b, a]` for page 2. With one row a page,
   * `a` is shown twice and `b` never, although two pages hold both rows.
   */
  lemma TiedRowsCanRepeatAcrossPages(s: Store, p: ListParams, a: Transaction, b: Transaction)
    requires s.transactions == [a, b] && a != b
    requires a.transactionDate == b.transactionDate && Matches(p, a) && Matches(p, b)
    ensures DateOrdered(s, p, [a, b]) && DateOrdered(s, p, [b, a])
    ensures Window([a, b], 0, 1) + Window([b, a], 1, 1) == [a, a]
    ensures b !in Window([a, b], 0, 1) + Window([b, a], 1, 1)
  {
    assert MatchesParams(p)(a) && MatchesParams(p)(b);
    FilterAll(s.transactions, MatchesParams(p));
    assert Filter(s.transactions, MatchesParams(p)) == [a, b];
    assert multiset([a, b]) == multiset([b, a]);
    assert Window([a, b], 0, 1) == [a];
    assert Window([b, a], 1, 1) == [a];
  }

  /** Rows that share an id are one row, as in a table with unique ids. */
  predicate IdsIdentify(rows: seq<Transaction>) {
    forall x, y :: x in rows && y in rows && x.id == y.id ==> x == y
  }

  predicate InListingOrder(rows: seq<Transaction>) {
    forall i, j :: 0 <= i < j < |rows| ==> ListedBefore(rows[i], rows[j])
  }

  /** Two arrangements of the same rows, both in listing order, are the same sequence. */
  lemma {:induction false} ListedOrderUnique(a: seq<Transaction>, b: seq<Transaction>)
    requires multiset(a) == multiset(b) && IdsIdentify(a)
    requires InListingOrder(a) && InListingOrder(b)
    ensures a == b
  {
    if a == [] {
      assert |b| == |multiset(b)| == 0;
    } else {
      ListedHeadsAgree(a, b);
      TailFacts(a);
      TailFacts(b);
      ListedOrderUnique(a[1..], b[1..]);
      assert a == [a[0]] + a[1..] && b == [b[0]] + b[1..];
    }
  }

  /** The first row of either arrangement precedes every row, so both start with the same row. */
  lemma ListedHeadsAgree(a: seq<Transaction>, b: seq<Transaction>)
    requires a != [] && multiset(a) == multiset(b) && IdsIdentify(a)
    requires InListingOrder(a) && InListingOrder(b)
    ensures b != [] && a[0] == b[0]
  {
    assert a[0] in multiset(b);
    var k :| 0 <= k < |b| && b[k] == a[0];
    assert b[0] in multiset(a);
    var m :| 0 <= m < |a| && a[m] == b[0];
    assert ListedBefore(a[0], b[0]) by { if m > 0 { assert ListedBefore(a[0], a[m]); } }
    assert ListedBefore(b[0], a[0]) by { if k > 0 { assert ListedBefore(b[0], b[k]); } }
    assert a[0] in a && b[0] in a && a[0].id == b[0].id;
  }

  lemma TailFacts(a: seq<Transaction>)
    requires a != []
    ensures multiset(a[1..]) == multiset(a) - multiset{a[0]}
    ensures IdsIdentify(a) ==> IdsIdentify(a[1..])
    ensures InListingOrder(a) ==> InListingOrder(a[1..])
  {
    assert a == [a[0]] + a[1..];
    assert forall x :: x in a[1..] ==> x in a;
    assert forall i :: 0 <= i < |a[1..]| ==> a[1..][i] == a[i + 1];
  }

  /**
   * With the id as tie-breaker there is one answer: any arrangement of the
   * matching rows in listing order is `Listing`, so every page's query sees
   * the same order and the pages never repeat or skip a row.
   */
  lemma ListingIsOnlyOrder(s: Store, p: ListParams, rows: seq<Transaction>)
    requires UniqueTransactionIds(s.transactions)
    requires multiset(rows) == multiset(Filter(s.transactions, MatchesParams(p)))
    requires InListingOrder(rows)
    ensures rows == Listing(s, p)
  {
    var r := Listing(s, p);
    assert IdsIdentify(r) by {
      forall x, y | x in r && y in r && x.id == y.id ensures x == y {
        var i :| 0 <= i < |r| && r[i] == x;
        var j :| 0 <= j < |r| && r[j] == y;
        assert x in s.transactions && y in s.transactions;
        var u :| 0 <= u < |s.transactions| && s.transactions[u] == x;
        var v :| 0 <= v < |s.transactions| && s.transactions[v] == y;
        assert u == v;
      }
    }
    ListedOrderUnique(r, rows);
  }

  /** The listing is one of the answers the date-only order allows. */
  lemma ListingIsDateOrdered(s: Store, p: ListParams)
    ensures DateOrdered(s, p, Listing(s, p))
  {
  }

  /** Prisma's `skip` and `take` on an ordered result: up to `take` rows, after the first `skip`. */
  function Window<T>(s: seq<T>, skip: nat, take: nat): (r: seq<T>)
    ensures |r| == if skip >= |s| then 0 else if skip + take <= |s| then take else |s| - skip
    ensures forall i :: 0 <= i < |r| ==> r[i] == s[skip + i]
  {
    if skip >= |s| then [] else if skip + take <= |s| then s[skip..skip + take] else s[skip..]
  }

  function View(s: Store, t: Transaction): TransactionView {
    TransactionView(t, FindCategory(s.categories, t.categoryId), FindAccount(s.accounts, t.accountId))
  }

  function Views(s: Store, ts: seq<Transaction>): (r: seq<TransactionView>)
    ensures |r| == |ts|
    ensures forall i :: 0 <= i < |ts| ==> r[i] == View(s, ts[i])
  {
    seq(|ts|, i requires 0 <= i < |ts| => View(s, ts[i]))
  }

  /** Stand-in for the database client's complaint about a negative `skip` or `take`. */
  const InvalidPaging: string := "Invalid value for argument `skip` or `take`"

  /**
   * `TransactionsServices.getAll`. The caller's id plays no part: every
   * user's matching transactions are listed. Page `page` of size `limit`
   * skips `(page - 1) * limit` rows of the newest-first listing.
   */
  function GetAll(s: Store, userId: Id, p: ListParams): (r: Result<seq<TransactionView>, AppError>)
    ensures r.Err? <==> p.limit < 0 || (p.page < 1 && p.limit > 0)
    ensures r.Ok? ==> |r.value| <= p.limit
    ensures r.Ok? ==>
              |r.value| == (if Skip(p) >= |Listing(s, p)| then 0
                            else if Skip(p) + p.limit <= |Listing(s, p)| then p.limit
                            else |Listing(s, p)| - Skip(p))
    ensures r.Ok? ==> 0 <= Skip(p) && (Skip(p) + |r.value| <= |Listing(s, p)| || r.value == [])
    ensures r.Ok? ==> forall i :: 0 <= i < |r.value| ==>
              && r.value[i].transaction == Listing(s, p)[Skip(p) + i]
              && r.value[i].category == FindCategory(s.categories, r.value[i].transaction.categoryId)
              && r.value[i].account == FindAccount(s.accounts, r.value[i].transaction.accountId)
    ensures r.Ok? ==> forall i :: 0 <= i < |r.value| ==>
              r.value[i].transaction in s.transactions && Matches(p, r.value[i].transaction)
    ensures r.Ok? ==> forall i, j :: 0 <= i < j < |r.value| ==>
              r.value[i].transaction.transactionDate >= r.value[j].transaction.transactionDate
  {
    SkipSign(p);
    if p.limit < 0 || Skip(p) < 0 then Err(OtherError(InvalidPaging))
    else
      var listing := Listing(s, p);
      var page := Window(listing, Skip(p), p.limit);
      Ok(Views(s, page))
  }

  /**
   * `TransactionsServices.getAll` as written: each listed row carries its
   * account, which the response schema rejects for want of
   * `totalTransactions`, so any non-empty page fails to parse.
   */
  function GetAllAsWritten(s: Store, userId: Id, p: ListParams): (r: Result<seq<TransactionView>, AppError>)
    ensures GetAll(s, userId, p).Err? ==> r == GetAll(s, userId, p)
    ensures r.Ok? <==> GetAll(s, userId, p) == Ok([])
    ensures GetAll(s, userId, p).Ok? && r.Err? ==>
              r.error.ZodError? && |r.error.issues| == |GetAll(s, userId, p).value|
              && r.error.issues[0].path == [Index(0), Key("account"), Key("totalTransactions")]
  {
    match GetAll(s, userId, p)
    case Err(e) => Err(e)
    case Ok(views) => if views == [] then Ok([]) else Err(ZodError(ListedRowIssues(|views|)))
  }

  /** `(page - 1) * limit`, the rows a page skips. */
  function Skip(p: ListParams): int {
    (p.page - 1) * p.limit
  }

  lemma SkipSign(p: ListParams)
    ensures p.limit >= 0 ==> (Skip(p) < 0 <==> p.page < 1 && p.limit > 0)
  {
    if p.limit > 0 && p.page < 1 {
      assert (p.page - 1) * p.limit <= -1 * p.limit;
    }
  }

  lemma WindowConcat<T>(s: seq<T>, skip: nat, a: nat, b: nat)
    ensures Window(s, skip, a) + Window(s, skip + a, b) == Window(s, skip, a + b)
  {
    var l := Window(s, skip, a) + Window(s, skip + a, b);
    var w := Window(s, skip, a + b);
    assert |l| == |w|;
    forall i | 0 <= i < |l| ensures l[i] == w[i] {
      if i < |Window(s, skip, a)| {
      } else {
        assert l[i] == Window(s, skip + a, b)[i - |Window(s, skip, a)|];
      }
    }
  }

  function PageParams(p: ListParams, page: int): ListParams {
    p.(page := page)
  }

  /** Pages `1..n` of one query, back to back. */
  function Pages(s: Store, userId: Id, p: ListParams, n: nat): seq<TransactionView>
    requires p.limit >= 0
  {
    if n == 0 then []
    else Pages(s, userId, p, n - 1) + GetAll(s, userId, PageParams(p, n)).value
  }

  /** The page number does not change which rows match or their order. */
  lemma ListingIgnoresPage(s: Store, p: ListParams, page: int)
    ensures Listing(s, PageParams(p, page)) == Listing(s, p)
  {
    FilterSame(s.transactions, MatchesParams(PageParams(p, page)), MatchesParams(p));
  }

  /** Page `n` is the `limit` rows of the listing after the first `(n - 1) * limit`. */
  lemma PageIsWindow(s: Store, userId: Id, p: ListParams, n: nat)
    requires p.limit >= 0 && n >= 1
    ensures GetAll(s, userId, PageParams(p, n)) == Ok(Views(s, Window(Listing(s, p), (n - 1) * p.limit, p.limit)))
  {
    var q := PageParams(p, n);
    var before: nat := (n - 1) * p.limit;
    assert Skip(q) == before;
    ListingIgnoresPage(s, p, n);
    assert GetAll(s, userId, q) == Ok(Views(s, Window(Listing(s, q), before, p.limit)));
  }

  lemma PagesStep(s: Store, userId: Id, p: ListParams, n: nat)
    requires p.limit >= 0 && n >= 1
    ensures Pages(s, userId, p, n) == Pages(s, userId, p, n - 1) + Views(s, Window(Listing(s, p), (n - 1) * p.limit, p.limit))
  {
    PageIsWindow(s, userId, p, n);
  }

  lemma PageArithmetic(n: nat, limit: nat)
    requires n >= 1
    ensures (n - 1) * limit >= 0
    ensures (n - 1) * limit + limit == n * limit
  {
    var m: nat := n - 1;
    assert m * limit >= 0;
    assert n * limit == (n - 1) * limit + 1 * limit;
  }

  /** Reading pages 1 to `n` in turn yields the first `n * limit` rows of the listing, in order, each once. */
  lemma {:induction false} PagesCoverListing(s: Store, userId: Id, p: ListParams, n: nat)
    requires p.limit >= 0
    ensures Pages(s, userId, p, n) == Views(s, Window(Listing(s, p), 0, n * p.limit))
  {
    if n == 0 {
      assert Window(Listing(s, p), 0, 0) == [];
    } else {
      PagesCoverListing(s, userId, p, n - 1);
      PagesInductiveStep(s, userId, p, n);
    }
  }

  lemma PagesInductiveStep(s: Store, userId: Id, p: ListParams, n: nat)
    requires p.limit >= 0 && n >= 1
    requires Pages(s, userId, p, n - 1) == Views(s, Window(Listing(s, p), 0, (n - 1) * p.limit))
    ensures Pages(s, userId, p, n) == Views(s, Window(Listing(s, p), 0, n * p.limit))
  {
    var L := Listing(s, p);
    PageArithmetic(n, p.limit);
    var before: nat := (n - 1) * p.limit;
    PagesStep(s, userId, p, n);
    ViewsOfAdjacentWindows(s, L, before, p.limit);
    assert Pages(s, userId, p, n) == Views(s, Window(L, 0, before)) + Views(s, Window(L, before, p.limit));
  }

  /** Once `n * limit` reaches the number of matching rows, pages 1 to `n` have shown every one of them. */
  lemma AllPagesShowListing(s: Store, userId: Id, p: ListParams, n: nat)
    requires p.limit >= 0
    requires n * p.limit >= |Listing(s, p)|
    ensures Pages(s, userId, p, n) == Views(s, Listing(s, p))
  {
    PagesCoverListing(s, userId, p, n);
    assert Window(Listing(s, p), 0, n * p.limit) == Listing(s, p);
  }

  lemma ViewsOfAdjacentWindows(s: Store, L: seq<Transaction>, before: nat, limit: nat)
    ensures Views(s, Window(L, 0, before)) + Views(s, Window(L, before, limit)) == Views(s, Window(L, 0, before + limit))
  {
    WindowConcat(L, 0, before, limit);
    ViewsAppend(s, Window(L, 0, before), Window(L, before, limit));
  }

  lemma ViewsAppend(s: Store, a: seq<Transaction>, b: seq<Transaction>)
    ensures Views(s, a + b) == Views(s, a) + Views(s, b)
  {
  }

  /** A page that starts past the last matching row is empty. */
  lemma PastLastPageEmpty(s: Store, userId: Id, p: ListParams)
    requires p.limit >= 0 && p.page >= 1
    requires Skip(p) >= |Listing(s, p)|
    ensures GetAll(s, userId, p) == Ok([])
  {
    var r := GetAll(s, userId, p);
    assert r.Ok?;
    assert r.value == [];
  }

  /** The search ignores case: searching for the lower-cased text lists the same rows. */
  lemma SearchIgnoresCase(s: Store, p: ListParams)
    requires p.search.Some?
    ensures Listing(s, p.(search := Some(Lower(p.search.value)))) == Listing(s, p)
  {
    var q := p.(search := Some(Lower(p.search.value)));
    LowerIdempotent(p.search.value);
    assert forall t :: Matches(q, t) == Matches(p, t);
    FilterSame(s.transactions, MatchesParams(q), MatchesParams(p));
  }

  /** The listing is the same whoever asks. */
  lemma ListingIgnoresCaller(s: Store, u1: Id, u2: Id, p: ListParams)
    ensures GetAll(s, u1, p) == GetAll(s, u2, p)
  {
  }
}

=== FILE: uploader.dfy ===
/**
 * The file-list check of the upload middleware (src/middlewares/uploader.ts).
 * Reading the multipart form is left out: the files of the named field are
 * the input, and `Ok` stands for the call to `next`.
 */
module Uploader {
  import opened Wrappers
  import opened Text
  import opened Failures

  datatype FileType = Mixed | Image | Video | Docs

  datatype UploadFile = UploadFile(name: string, mimeType: string, size: int)

  datatype Options = Options(fieldName: string, fileType: FileType, maxSize: nat, maxCount: nat)

  /** `uploader()` with every argument left at its default. */
  const DefaultOptions: Options := Options("files", Mixed, 5 * 1024 * 1024, 5)

  function TypeName(t: FileType): string {
    match t
    case Mixed => "mixed"
    case Image => "image"
    case Video => "video"
    case Docs => "docs"
  }

  /** The alternatives of each type's regular expression. */
  function Alternatives(t: FileType): seq<string> {
    match t
    case Mixed => ["jpeg", "jpg", "png", "webp", "mp4", "mkv", "avi", "mov", "pdf", "doc", "docx"]
    case Image => ["jpeg", "jpg", "png", "webp"]
    case Video => ["mp4", "mkv", "avi", "mov"]
    case Docs => ["pdf", "doc", "docx"]
  }

  /** `regex.test(s)` for an unanchored alternation: some alternative occurs in `s`. */
  function MatchesAny(s: string, alts: seq<string>): (r: bool)
    ensures r <==> exists k :: 0 <= k < |alts| && Contains(s, alts[k])
  {
    if alts == [] then false
    else if Contains(s, alts[0]) then true
    else
      var r := MatchesAny(s, alts[1..]);
      assert forall k :: 1 <= k < |alts| ==> alts[1..][k - 1] == alts[k];
      r
  }

  /** The type test: both the lower-cased name and the lower-cased MIME type must match. */
  predicate TypeAccepts(t: FileType, f: UploadFile) {
    MatchesAny(Lower(f.name), Alternatives(t)) && MatchesAny(Lower(f.mimeType), Alternatives(t))
  }

  predicate FilePasses(opts: Options, f: UploadFile) {
    f.size <= opts.maxSize && TypeAccepts(opts.fileType, f)
  }

  /** The error a failing file raises: the size test comes before the type test. */
  function FileError(opts: Options, f: UploadFile): AppError {
    if f.size > opts.maxSize then BadRequest("File " + f.name + " too large (max " + Megabytes(opts.maxSize) + "MB)")
    else BadRequest("File " + f.name + " is not a valid " + TypeName(opts.fileType) + " file")
  }

  /** `maxSize / 1024 / 1024` as printed in the message, for a limit of whole megabytes. */
  function Megabytes(maxSize: nat): string {
    ToRadix(maxSize / (1024 * 1024), 10)
  }

  /** With the default limit the message reads "max 5MB". */
  lemma DefaultLimitReadsFive()
    ensures Megabytes(DefaultOptions.maxSize) == "5"
  {
  }

  function TooManyFiles(opts: Options): AppError {
    BadRequest("Max " + ToRadix(opts.maxCount, 10) + " files allowed")
  }

  /**
   * The middleware body: count, then each file in order. `Ok` (the call to
   * `next`) only when every file passes; otherwise the first failing file
   * decides the error.
   */
  method CheckFiles(opts: Options, files: seq<UploadFile>) returns (r: Result<(), AppError>)
    ensures |files| > opts.maxCount ==> r == Err(TooManyFiles(opts))
    ensures r.Ok? <==> |files| <= opts.maxCount && forall k :: 0 <= k < |files| ==> FilePasses(opts, files[k])
    ensures r.Err? && |files| <= opts.maxCount ==>
              exists i :: 0 <= i < |files| && !FilePasses(opts, files[i])
                          && (forall k :: 0 <= k < i ==> FilePasses(opts, files[k]))
                          && r.error == FileError(opts, files[i])
  {
    if |files| > opts.maxCount {
      return Err(TooManyFiles(opts));
    }
    var i := 0;
    while i < |files|
      invariant 0 <= i <= |files|
      invariant forall k :: 0 <= k < i ==> FilePasses(opts, files[k])
    {
      var f := files[i];
      if f.size > opts.maxSize {
        assert !FilePasses(opts, files[i]);
        return Err(FileError(opts, f));
      }
      var name := Lower(f.name);
      var mime := Lower(f.mimeType);
      if !MatchesAny(name, Alternatives(opts.fileType)) || !MatchesAny(mime, Alternatives(opts.fileType)) {
        assert !FilePasses(opts, files[i]) && FileError(opts, f) == FileError(opts, files[i]);
        return Err(FileError(opts, f));
      }
      i := i + 1;
    }
    return Ok(());
  }

  lemma MatchesAnyWider(s: string, narrow: seq<string>, wide: seq<string>)
    requires forall k :: 0 <= k < |narrow| ==> narrow[k] in wide
    requires MatchesAny(s, narrow)
    ensures MatchesAny(s, wide)
  {
    var k :| 0 <= k < |narrow| && Contains(s, narrow[k]);
    var j :| 0 <= j < |wide| && wide[j] == narrow[k];
  }

  /** Each specific type's alternatives are among mixed's, so a file a specific type accepts, mixed accepts too. */
  lemma SpecificTypeImpliesMixed(t: FileType, f: UploadFile)
    requires TypeAccepts(t, f)
    ensures TypeAccepts(Mixed, f)
  {
    assert forall k :: 0 <= k < |Alternatives(t)| ==> Alternatives(t)[k] in Alternatives(Mixed);
    MatchesAnyWider(Lower(f.name), Alternatives(t), Alternatives(Mixed));
    MatchesAnyWider(Lower(f.mimeType), Alternatives(t), Alternatives(Mixed));
  }

  /** A file exactly at the size limit passes the size test; one byte more fails it. */
  lemma SizeLimitInclusive(opts: Options, f: UploadFile)
    requires TypeAccepts(opts.fileType, f)
    ensures f.size == opts.maxSize ==> FilePasses(opts, f)
    ensures f.size == opts.maxSize + 1 ==> !FilePasses(opts, f) && FileError(opts, f) == BadRequest("File " + f.name + " too large (max " + Megabytes(opts.maxSize) + "MB)")
  {
  }
}

=== FILE: wrappers.dfy ===
/** Option and Result, the failure-compatible wrappers every module returns. */
module Wrappers {

  datatype Option<+T> = None | Some(value: T) {

    predicate IsFailure() {
      None?
    }

    function PropagateFailure<U>(): Option<U>
      requires None?
    {
      None
    }

    function Extract(): T
      requires Some?
    {
      value
    }

    /** The value, or `default` when absent (JavaScript's `x ?? default`). */
    function GetOr(default: T): T {
      match this
      case Some(v) => v
      case None => default
    }
  }

  datatype Result<+R, +E> = Ok(value: R) | Err(error: E) {

    predicate IsFailure() {
      Err?
    }

    function PropagateFailure<U>(): Result<U, E>
      requires Err?
    {
      Err(error)
    }

    function Extract(): R
      requires Ok?
    {
      value
    }
  }
}

=== FILE: zod.dfy ===
/**
 * The slice of zod the schemas use: a request body or query is a map from
 * field names to JSON values; each field is parsed on its own and the issues
 * of all fields are collected in declaration order; a string field applies
 * its transformations (`trim`, `toLowerCase`) and then every one of its
 * checks, so a field can raise several issues. An object refinement runs
 * only when every field had the right type.
 */
module Zod {
  import opened Wrappers
  import opened Text
  import opened Failures

  /** A JSON value; numbers are integers in this model. */
  datatype Value = Str(text: string) | Num(number: int) | Bool(flag: bool) | Null | Composite

  type Body = map<string, Value>

  /** The value under `key`, `None` for `undefined`. */
  function Get(body: Body, key: string): Option<Value> {
    if key in body then Some(body[key]) else None
  }

  /** zod's name for what it received. */
  function Received(v: Option<Value>): string {
    match v
    case None => "undefined"
    case Some(Str(_)) => "string"
    case Some(Num(_)) => "number"
    case Some(Bool(_)) => "boolean"
    case Some(Null) => "null"
    case Some(Composite) => "object"
  }

  /** zod's default message for a value of the wrong type. */
  function Expected(want: string, got: string): string {
    "Invalid input: expected " + want + ", received " + got
  }

  const MissingNumber: string := Expected("number", "undefined")
  const DateNotText: string := Expected("string", "Date")
  const NotANumber: string := Expected("number", "NaN")
  const InvalidDate: string := Expected("date", "Date")
  const InvalidUuid: string := "Invalid UUID"

  /**
   * A parsed field: its value unless it had the wrong type, and its issues.
   * The field passes when there are no issues.
   */
  datatype Parsed<T> = Parsed(value: Option<T>, issues: seq<Issue>) {
    predicate Passes() {
      value.Some? && issues == []
    }
  }

  /** One check on a string, with the message it raises. */
  datatype StringCheck =
    | MinLength(min: nat, message: string)
    | MaxLength(max: nat, message: string)
    | ExactLength(length: nat, message: string)
    | Format(accepts: string -> bool, message: string)

  predicate Holds(c: StringCheck, s: string) {
    match c
    case MinLength(n, _) => |s| >= n
    case MaxLength(n, _) => |s| <= n
    case ExactLength(n, _) => |s| == n
    case Format(accepts, _) => accepts(s)
  }

  /** `z.string()` with its transformations and checks. */
  datatype StringSchema = StringSchema(trim: bool, lower: bool, checks: seq<StringCheck>)

  function Transform(schema: StringSchema, s: string): string {
    var t := if schema.trim then Trim(s) else s;
    if schema.lower then Lower(t) else t
  }

  /** The issues of the failing checks, in order. */
  function CheckIssues(key: string, checks: seq<StringCheck>, s: string): (r: seq<Issue>)
    ensures r == [] <==> forall i :: 0 <= i < |checks| ==> Holds(checks[i], s)
    ensures |r| <= |checks|
  {
    if checks == [] then []
    else
      var rest := CheckIssues(key, checks[1..], s);
      assert forall i :: 1 <= i < |checks| ==> checks[i] == checks[1..][i - 1];
      if Holds(checks[0], s) then rest else [FieldIssue(key, checks[0].message)] + rest
  }

  function ParseString(schema: StringSchema, key: string, v: Option<Value>): (r: Parsed<string>)
    ensures r.value.Some? <==> v.Some? && v.value.Str?
    ensures v.Some? && v.value.Str? ==> r.value.value == Transform(schema, v.value.text)
    ensures r.Passes() <==>
              v.Some? && v.value.Str? && forall i :: 0 <= i < |schema.checks| ==> Holds(schema.checks[i], Transform(schema, v.value.text))
  {
    match v
    case Some(Str(s)) =>
      var t := Transform(schema, s);
      Parsed(Some(t), CheckIssues(key, schema.checks, t))
    case _ => Parsed(None, [FieldIssue(key, Expected("string", Received(v)))])
  }

  /** `z.number()`, with an optional lower bound. */
  function ParseNumber(key: string, v: Option<Value>, min: Option<(int, string)>): (r: Parsed<int>)
    ensures r.Passes() <==> v.Some? && v.value.Num? && (min.Some? ==> v.value.number >= min.value.0)
    ensures r.value.Some? ==> v == Some(Num(r.value.value))
  {
    match v
    case Some(Num(n)) =>
      if min.Some? && n < min.value.0 then Parsed(Some(n), [FieldIssue(key, min.value.1)]) else Parsed(Some(n), [])
    case _ => Parsed(None, [FieldIssue(key, Expected("number", Received(v)))])
  }

  /** `z.enum(options)`. */
  function ParseEnum(key: string, v: Option<Value>, options: seq<string>): (r: Parsed<string>)
    ensures r.Passes() <==> v.Some? && v.value.Str? && v.value.text in options
    ensures r.Passes() ==> r.value.value == v.value.text
  {
    match v
    case Some(Str(s)) =>
      if s in options then Parsed(Some(s), []) else Parsed(None, [FieldIssue(key, "Invalid option")])
    case _ => Parsed(None, [FieldIssue(key, "Invalid option")])
  }

  /** `.optional()`: `undefined` passes as `None`; anything else is parsed by the inner schema. */
  function Optional<T>(v: Option<Value>, inner: Parsed<T>): (r: Parsed<Option<T>>)
    ensures v.None? ==> r.Passes() && r.value.value.None?
    ensures v.Some? ==> (r.Passes() <==> inner.Passes()) && (r.Passes() ==> r.value.value == inner.value)
  {
    if v.None? then Parsed(Some(None), [])
    else Parsed(if inner.value.Some? then Some(inner.value) else None, inner.issues)
  }

  /** The object's verdict: the built value when no field raised an issue, else all issues. */
  function Verdict<T>(issues: seq<Issue>, value: T): (r: Result<T, AppError>)
    ensures r.Ok? <==> issues == []
    ensures r.Ok? ==> r.value == value
    ensures r.Err? ==> r.error == ZodError(issues)
  {
    if issues == [] then Ok(value) else Err(ZodError(issues))
  }

  /**
   * zod 4's UUID format: the 8-4-4-4-12 layout of hexadecimal digits (either case) of
   * RFC 9562 section 4, with a version digit 1-8 and a variant digit 8, 9, a or b;
   * besides those, the Nil UUID and the Max UUID (RFC 9562 sections 5.9 and 5.10),
   * the latter in lower case only.
   */
  predicate IsUuidText(s: string) {
    || (&& HasUuidLayout(s) && '1' <= s[14] <= '8' && s[19] in "89abAB")
    || s == NilUuid
    || s == MaxUuid
  }

  /** Thirty-two hexadecimal digits grouped 8-4-4-4-12 by hyphens. */
  predicate HasUuidLayout(s: string) {
    && |s| == 36
    && (forall i :: 0 <= i < 36 ==> if i in {8, 13, 18, 23} then s[i] == '-' else IsHexDigit(s[i]))
  }

  const NilUuid: string := "00000000-0000-0000-0000-000000000000"
  const MaxUuid: string := "ffffffff-ffff-ffff-ffff-ffffffffffff"

  /** Every accepted text has the UUID layout and so 36 characters; a version digit outside 1-8 is refused. */
  lemma UuidTextShape(s: string)
    ensures IsUuidText(s) ==> HasUuidLayout(s) && |s| == 36
    ensures HasUuidLayout(s) && s[14] == '0' && s != NilUuid ==> !IsUuidText(s)
    ensures IsUuidText(NilUuid) && IsUuidText(MaxUuid)
  {
    assert HasUuidLayout(NilUuid);
    assert HasUuidLayout(MaxUuid);
  }

  predicate IsHexDigit(c: char) {
    ('0' <= c <= '9') || ('a' <= c <= 'f') || ('A' <= c <= 'F')
  }

  /** `z.uuid()` / `z.string().uuid()`. */
  function UuidSchema(): StringSchema {
    StringSchema(false, false, [Format(IsUuidText, InvalidUuid)])
  }
}
